=== FILE: README.md ===
# ChessV1 rules engine and search, modelled in Dafny

This project models the chess core of ChessV1:

- the `Move` value of `MoveClass.py`;
- the `Gamestate` engine of `chessEngine.py`;
- the evaluation and search functions of `chessIA.py`.

It reproduces the code as it is written, including the places where it departs from the rules of chess.

## Modules and files

- **`Pieces`** (`pieces.dfy`)
  - Colours, piece kinds, squares (`Empty` or `Occupied(color, kind)`), the 8×8 grid as a `seq<seq<Square>>`, and board coordinates.
  - Pinned and checking pieces are recorded as rays: a square plus a direction.
- **`Moves`** (`move.dfy`)
  - `Move.__init__` as `Create`, with the move identifier `1000·sr + 100·sc + 10·er + ec`.
  - Equality by identifier (`Same`).
  - The rank/file maps and the four-character notation.
- **`Rules`** (`rules.dfy`)
  - The whole state of a `Gamestate` as a value `Game`.
  - `make_move`, `undo_move` and `update_castle_rights` as functions on it.
  - The invariants the engine keeps:
    - `Consistent`: the history logs;
    - `Generable` / `Playable`: the king caches, pawns in range and the castle home squares.
- **`Attacks`** (`attacks.dfy`)
  - `check_pins_and_checks`: eight ray scans and a knight scan.
- **`Generation`** (`generation.dfy`)
  - The per-piece generators and `get_all_possible_moves`, as functions that return the moves appended and the state left behind.
  - The pin-list lookup and removal (`TakePin`).
- **`Generated`** (`generated.dfy`)
  - Every generated move is built from the board it was generated on.
  - `make_move` of such a move keeps the engine's invariants.
- **`Legality`** (`legality.dfy`)
  - `square_threatened`, `is_check`, castle generation, `list.remove` with `Move.__eq__`, and the downward filtering loop.
  - `get_valid_moves_efficient`.
- **`LegalFacts`** (`legalfacts.dfy`)
  - What `get_valid_moves_efficient` returns under each check state, and the checkmate/stalemate flags it sets.
- **`Naive`** (`naive.dfy`)
  - `get_valid_moves_naive` and its make / is_check / undo loop.
- **`Engine`** (`gamestate.dfy`)
  - The class `Gamestate`, with the board as an `array2<Square>` and the other attributes as fields.
  - Each method of `chessEngine.py` is a method whose postcondition ties the new state (`Value()`) and the returned list to the functions above.
  - The nested loops stay loops, with their invariants.
- **`Evaluation`** and **`EvaluationFacts`** (`evaluation.dfy`, `evaluation_facts.dfy`)
  - `scoreboard_simple`, and `scoreboard_normal` with its piece-position tables.
- **`Search`** (`search.dfy`)
  - `find_random`, the greedy search, the recursive minimax, negamax, negamax with alpha-beta pruning and killer moves, and the depth loop.
  - Each search threads the shared game through make/undo and returns the game it leaves.
  - The globals `next_move`, `counter` and `KILLER_MOVES` are a `Context` value threaded in the same way.
  - Each child score is tied to the search of its move from a `Key`: the persistent part of the game and its checkmate and stalemate flags. A loop's first move is played from the loop's own game; each later move is played after an undo_move, which clears both flags.

## Behaviour reproduced as written

- **Knight moves repeated.** The knight generator appends each move to an empty square seven times (the unused inner loop).
- **Queen pin ignored on rook rays.** The rook generator keeps the pin entry of a queen. For a queen the bishop part runs first and removes that entry, so the queen's rook rays ignore a pin.
- **Pawn-attack test.** The test parses as `(enemy == "b" and i == 3) or i == 5`:
  - a black pawn beside the king gives check (`Attacks.PawnBesideKingChecks`);
  - a black pawn diagonally up-left of a white king does not (`Attacks.PawnUpLeftMissed`).
- **Black en passant.** Black en-passant captures test the pin direction `(-1, 0)`.
- **Castling rights.**
  - `update_castle_rights` tests the mover's start square for rook captures.
  - The black-rook branch tests row 7.
  - The black-rook branch writes a misspelled attribute, so the black king-side right is cleared only by a black king move (`Rules.BlackKingSideOnlyByKing`).
- **`scoreboard_normal` signs.** Checkmate is scored white-relative, all other positions mover-relative.
- **Negamax leaf.**
  - `find_move_negamax` multiplies the leaf score by `turn_multi` once more.
  - The pruned search does not.
- **`next_move`.** It is recorded only by the call at depth `DEPTH`.
- **Castle transit probes.** Each `square_threatened` call regenerates the opponent's moves and leaves the pin list as that generation left it. The second transit square is therefore probed on the game the first probe left, and the queen-side probes on the game the king-side ones left (`Legality.Unthreatened`, `LegalFacts.CastleCrossing`).

## Model

| member | source | states |
|---|---|---|
| Moves.Create | custom_chess/Classes/MoveClass.py:9-27 | The move's start and end squares are the given coordinates, and the moved piece is the board content at the start square |
| Moves.CreatePieces | custom_chess/Classes/MoveClass.py:14-27 | The captured piece is the content of the end square, or of (start row, end column) for an en-passant move |
| Moves.CreateFlags | custom_chess/Classes/MoveClass.py:16-24 | Promotion holds iff a white pawn lands on row 0 or a black pawn on row 7; the castle and en-passant flags are the constructor's; the promotion choice is always 'Q'; the identifier is 1000·sr + 100·sc + 10·er + ec |
| Moves.IdDeterminesSquares | custom_chess/Classes/MoveClass.py:16 | For on-board squares, two identifiers are equal iff all four coordinates are equal |
| Moves.SameIffSameSquares | custom_chess/Classes/MoveClass.py:29-32 | Two constructed moves are equal under `__eq__` iff they have the same start and end squares, whatever their pieces and flags |
| Moves.RanksInverse | custom_chess/Classes/MoveClass.py:4-5 | rowsToRanks and ranksToRows are inverse maps |
| Moves.FilesInverse | custom_chess/Classes/MoveClass.py:6-7 | colsToFiles and filesToCols are inverse maps |
| Moves.RankFileChars | custom_chess/Classes/MoveClass.py:4-7 | Row r maps to rank '8' − r and column c to file 'a' + c |
| Moves.RankFile | custom_chess/Classes/MoveClass.py:37-38 | Two characters: the file of the column, then the rank of the row |
| Moves.ChessNotation | custom_chess/Classes/MoveClass.py:34-35 | Four characters: the start square's file and rank followed by the end square's |
| Moves.NotationDeterminesSquares | custom_chess/Classes/MoveClass.py:34-38 | Equal notations mean equal start and end squares (the notation is injective on on-board moves) |
| Rules.Initial | custom_chess/Classes/chessEngine.py:12-38 | The initial state has an empty move log, logs seeded with one entry each (consistent), king caches on the kings, and the engine invariants |
| Rules.WithKing | custom_chess/Classes/chessEngine.py:44-47 | Setting one colour's king cache leaves the other colour's cache unchanged |
| Rules.MakeMove | custom_chess/Classes/chessEngine.py:40-74 | make_move keeps the history invariant: both snapshot logs one entry longer than the move log, and their last entries are the current en-passant target and castling rights |
| Rules.UndoMove | custom_chess/Classes/chessEngine.py:76-105 | undo_move keeps the history invariant; on an empty log nothing changes; otherwise the log is one shorter and both end flags are cleared |
| Rules.RevertApply | custom_chess/Classes/chessEngine.py:79-103 | undo_move's board writes restore the board that make_move's writes changed, for a move built from that board |
| Rules.MakeUndoRoundTrip | custom_chess/Classes/chessEngine.py:40-105 | undo_move after make_move gives back the exact state (board, side, king caches, en-passant target, rights, all three logs, pins) except that checkmate/stalemate are cleared |
| Rules.MakeUndoPersistent | custom_chess/Classes/chessEngine.py:40-105 | The same round trip, on the persistent part of the state |
| Rules.MakeMoveLogs | custom_chess/Classes/chessEngine.py:43-74 | The move is appended to the log; each snapshot log grows by one, ending with the new en-passant target and rights |
| Rules.MakeMoveKings | custom_chess/Classes/chessEngine.py:44-47 | A king cache changes only when that colour's king moves, and then it equals the destination |
| Rules.MakeMoveEnPassant | custom_chess/Classes/chessEngine.py:57-60 | An en-passant target is set iff a pawn advances two rows; it is the midpoint square in the end column |
| Rules.CastleRightsMonotone | custom_chess/Classes/chessEngine.py:441-459 | update_castle_rights never sets a right, and a king move clears both rights of its colour |
| Rules.BlackKingSideOnlyByKing | custom_chess/Classes/chessEngine.py:454-459 | As written, only a black king move clears the black king-side right (the rook branch writes a misspelled attribute) |
| Rules.RookCaptureKeepsRight | custom_chess/Classes/chessEngine.py:448-453 | As written, capturing the white rook on h1 with a black piece does not clear the white king-side right (the test looks at the mover's start square) |
| Rules.ApplyGridSquare | custom_chess/Classes/chessEngine.py:41-68 | After make_move's board writes each square is the moved piece (or a queen on promotion) at the destination, the rook at its castle square, emptied, or unchanged |
| Rules.MakeMovePlayable | custom_chess/Classes/chessEngine.py:40-74 | make_move of a move built from the board keeps the king caches, pawns in range and an empty en-passant target |
| Rules.MakeMoveKingsCached | custom_chess/Classes/chessEngine.py:41-68 | After make_move every king stands on its colour's cache |
| Rules.MakeMovePawnsInRange | custom_chess/Classes/chessEngine.py:50-52 | After make_move no pawn stands on its promotion rank (the promotion writes a queen) |
| Rules.MakeMoveTargetEmpty | custom_chess/Classes/chessEngine.py:57-60 | A recorded en-passant target is an on-board, empty square |
| Attacks.RayScanCheck | custom_chess/Classes/chessEngine.py:203-230 | A ray scan through clear squares reports a check iff some square further along holds an attacker of that ray's kind, and then it reports that square |
| Attacks.NotClearPast | custom_chess/Classes/chessEngine.py:206-212 | A blocking square ends the ray: no square beyond it is reached |
| Attacks.RayScanNoCheckAfterPin | custom_chess/Classes/chessEngine.py:209-226 | Once an ally piece was seen on a ray, the ray yields no check, and a pin it yields is that ally |
| Attacks.RayScanPin | custom_chess/Classes/chessEngine.py:208-225 | A pin is an ally non-king piece on the board, recorded with the ray's direction |
| Attacks.ScanDirsShape | custom_chess/Classes/chessEngine.py:199-230 | The eight ray scans give at most one pin or check per direction; pins are ally non-king pieces and checks are enemy pieces |
| Attacks.RayScanCheckSquare | custom_chess/Classes/chessEngine.py:213-223 | A reported check square holds an enemy piece |
| Attacks.KnightChecksExact | custom_chess/Classes/chessEngine.py:231-239 | The knight checks are exactly the enemy knights a knight's jump away, each with its jump as direction |
| Attacks.PinsAndChecksShape | custom_chess/Classes/chessEngine.py:185-240 | in_check holds iff the check list is non-empty; at most eight pins, all ally non-king pieces; checks are enemy pieces |
| Attacks.PawnBesideKingChecks | custom_chess/Classes/chessEngine.py:217-218 | As written, a black pawn directly beside the white king (direction 3) gives check |
| Attacks.PawnUpLeftMissed | custom_chess/Classes/chessEngine.py:217-218 | As written, a black pawn diagonally up-left of the white king (direction 4) gives no check |
| Attacks.EmptyRay | custom_chess/Classes/chessEngine.py:203-230 | A ray of empty squares gives neither a pin nor a check |
| Generation.Mv | custom_chess/Classes/chessEngine.py:279 | A plain generated move is constructed from the board with the given squares and no en-passant or castle flag |
| Generation.LastPinIndex | custom_chess/Classes/chessEngine.py:270-275 | The backward pin search finds the last pin entry for the square, or none |
| Generation.FirstIndex | custom_chess/Classes/chessEngine.py:274 | The position list.remove looks at: the first equal element |
| Generation.RemoveFirst | custom_chess/Classes/chessEngine.py:274 | list.remove drops exactly one occurrence, the first |
| Generation.TakePin | custom_chess/Classes/chessEngine.py:268-275 | A square is pinned iff some pin entry names it; its entry is removed (one occurrence) when asked, otherwise the list is kept |
| Generation.SlideRayOff | custom_chess/Classes/chessEngine.py:336-347 | A ray that left the board yields no more moves |
| Generation.KingVerdicts | custom_chess/Classes/chessEngine.py:421-439 | One verdict per king target: the check scan run with the king cache moved to that target |
| Generation.GenStateGrid | custom_chess/Classes/chessEngine.py:264 | A piece's generator changes only the pin list and the king caches, and never the opponent's cache |
| Generation.PieceState | custom_chess/Classes/chessEngine.py:264 | With the caches in step with the board, a generator changes only the pin list |
| Generation.AllFromState | custom_chess/Classes/chessEngine.py:257-265 | The generation loop from any square on changes only the pin list |
| Generation.AllMovesState | custom_chess/Classes/chessEngine.py:257-265 | get_all_possible_moves changes only the pin list |
| Generation.PieceNoPins | custom_chess/Classes/chessEngine.py:264 | When no pin entry names a piece of the mover, a generator leaves the pin list alone |
| Generation.AllFromNoPins | custom_chess/Classes/chessEngine.py:257-265 | With no pin on the mover's pieces, the generation loop changes nothing |
| Generation.AllMovesNoPins | custom_chess/Classes/chessEngine.py:257-265 | With no pin on the mover's pieces, get_all_possible_moves changes nothing |
| Generation.AllFromFrame | custom_chess/Classes/chessEngine.py:257-265 | The generation loop changes only the pin list and the king caches |
| Generated.SlideRayPlain | custom_chess/Classes/chessEngine.py:332-347 | Every rook/bishop ray move is built from the board, starts on the piece and moves it |
| Generated.SlideDirsPlain | custom_chess/Classes/chessEngine.py:332-347 | The same for all directions of a sliding piece |
| Generated.KnightRepeatPlain | custom_chess/Classes/chessEngine.py:362-376 | Every repeated knight move is built from the board and moves the knight |
| Generated.KnightTargetsPlain | custom_chess/Classes/chessEngine.py:361-376 | The same for all eight knight jumps |
| Generated.KingTargetsPlain | custom_chess/Classes/chessEngine.py:421-439 | Every king move is built from the board and moves the king |
| Generated.PlainGood | custom_chess/Classes/chessEngine.py:40-74 | A plain non-pawn move built from a generable board is one make_move can play and keep the board playable |
| Generated.PiecePlain | custom_chess/Classes/chessEngine.py:317-439 | Every move of a non-pawn generator is plain |
| Generated.PushGood | custom_chess/Classes/chessEngine.py:277-281 | Pawn pushes are playable moves (a double push crosses an empty square) |
| Generated.CaptureGood | custom_chess/Classes/chessEngine.py:282-295 | Pawn captures and en-passant captures are playable moves |
| Generated.PawnGood | custom_chess/Classes/chessEngine.py:267-315 | Every move of get_pawn_moves is playable |
| Generated.PawnListGood | custom_chess/Classes/chessEngine.py:276-315 | Every pawn move for any pin lookup is playable |
| Generated.PieceGood | custom_chess/Classes/chessEngine.py:264 | Every move a piece's generator emits is playable |
| Generated.AllFromGood | custom_chess/Classes/chessEngine.py:257-265 | Every move of the generation loop is playable |
| Generated.AllMovesGood | custom_chess/Classes/chessEngine.py:257-265 | Every move of get_all_possible_moves is playable |
| Legality.ThreatFrame | custom_chess/Classes/chessEngine.py:248-255 | square_threatened changes only the pin list and the king caches |
| Legality.ThreatState | custom_chess/Classes/chessEngine.py:248-255 | With the caches in step, square_threatened changes only the pin list (the side is flipped back) |
| Legality.CastleSideFrame | custom_chess/Classes/chessEngine.py:464-466 | King-side castle generation changes only the pin list and the king caches |
| Legality.FirstSame | custom_chess/Classes/chessEngine.py:162 | The first position whose move is `__eq__` to x |
| Legality.RemoveSame | custom_chess/Classes/chessEngine.py:162 | list.remove with `__eq__` drops exactly the first move with x's identifier |
| Legality.KingSideState | custom_chess/Classes/chessEngine.py:471-474 | King-side castle generation changes only the pin list |
| Legality.QueenSideState | custom_chess/Classes/chessEngine.py:476-479 | Queen-side castle generation changes only the pin list |
| Legality.CastleState | custom_chess/Classes/chessEngine.py:461-469 | get_castle_moves changes only the pin list |
| Legality.KingMovesState | custom_chess/Classes/chessEngine.py:413-439 | get_king_moves from the mover's cached square leaves the whole state as it was |
| Legality.EfficientBodyState | custom_chess/Classes/chessEngine.py:129-170 | Before the flags, get_valid_moves_efficient changes only the pins, the checks and in_check |
| Legality.EfficientBodyFrame | custom_chess/Classes/chessEngine.py:129-170 | get_valid_moves_efficient does not touch the board |
| LegalFacts.Kept | custom_chess/Classes/chessEngine.py:159-162 | The reference filter: the moves the test keeps, in order; never longer than the input |
| LegalFacts.KeptConcat | custom_chess/Classes/chessEngine.py:159-162 | The reference filter distributes over concatenation |
| LegalFacts.KeptMembers | custom_chess/Classes/chessEngine.py:159-162 | A move is kept iff it is in the list and passes the test |
| LegalFacts.KeptAll | custom_chess/Classes/chessEngine.py:159-162 | A list that passes the test throughout is kept whole |
| LegalFacts.RemoveDropped | custom_chess/Classes/chessEngine.py:162 | Removing (by `__eq__`) a move that fails the test leaves the kept moves unchanged when equal moves get the same verdict |
| LegalFacts.RemoveConsistent | custom_chess/Classes/chessEngine.py:162 | Removal keeps equal moves' verdicts equal |
| LegalFacts.RemoveShift | custom_chess/Classes/chessEngine.py:162 | Removing the move at i (or an earlier equal) shifts the moves after i down by one |
| LegalFacts.FilterDownKept | custom_chess/Classes/chessEngine.py:159-162 | The backward remove loop yields exactly the reference filter's result |
| LegalFacts.FilterDownSub | custom_chess/Classes/chessEngine.py:159-162 | The backward remove loop yields a sub-multiset of its input |
| LegalFacts.ConstructedConsistent | custom_chess/Classes/chessEngine.py:159-162 | Moves built from one board that are `__eq__` get the same verdict from the check-square test |
| LegalFacts.KingTargetsSound | custom_chess/Classes/chessEngine.py:421-439 | get_king_moves emits only moves to non-ally targets whose check scan found no check |
| LegalFacts.KingTargetsComplete | custom_chess/Classes/chessEngine.py:421-439 | get_king_moves emits the move to every non-ally target whose check scan finds no check |
| LegalFacts.KingMovesKeepCaches | custom_chess/Classes/chessEngine.py:429-439 | get_king_moves restores both king caches |
| LegalFacts.KingSideFacts | custom_chess/Classes/chessEngine.py:471-474 | A king-side castle goes two files right, with both squares between empty and neither threatened: col+1 probed first, col+2 on the game that probe left |
| LegalFacts.QueenSideFacts | custom_chess/Classes/chessEngine.py:476-479 | A queen-side castle goes two files left, with three squares empty and neither col−1 nor col−2 threatened, col−2 probed on the game the first probe left |
| LegalFacts.CastleConditions | custom_chess/Classes/chessEngine.py:461-479 | No castle when the king square is threatened; every castle has its right held and the squares between empty |
| LegalFacts.CastleCrossing | custom_chess/Classes/chessEngine.py:461-479 | Every castle get_castle_moves appends crosses unthreatened squares: both transit squares of its side pass square_threatened, probed on the board given with the pin list and king caches the earlier probes left |
| LegalFacts.SettleFlags | custom_chess/Classes/chessEngine.py:172-179 | A non-empty list clears both flags; an empty one sets checkmate if in check, else stalemate, leaving the other flag |
| LegalFacts.EfficientFlags | custom_chess/Classes/chessEngine.py:172-179 | A non-empty list clears both flags; an empty one sets checkmate when is_check finds the mover in check and stalemate otherwise, leaving the other flag as it was |
| LegalFacts.EfficientMoves | custom_chess/Classes/chessEngine.py:129-183 | The flag bookkeeping does not change the returned list |
| LegalFacts.EfficientDoubleCheck | custom_chess/Classes/chessEngine.py:163-164 | Under two checks every move is a king move from the king's square to a non-ally square where the scan finds no check |
| LegalFacts.EfficientDoubleCheckComplete | custom_chess/Classes/chessEngine.py:163-164 | Under two checks every such safe king move is returned |
| LegalFacts.EfficientSingleCheck | custom_chess/Classes/chessEngine.py:143-162 | Under one check the list is exactly the moves that are king moves or end on the king-to-checker segment, in order |
| LegalFacts.GoodScanned | custom_chess/Classes/chessEngine.py:135 | Storing the scan does not change which moves are playable |
| LegalFacts.SingleCheckGood | custom_chess/Classes/chessEngine.py:143-162 | Under one check every returned move is playable |
| LegalFacts.KingTargetsGood | custom_chess/Classes/chessEngine.py:413-439 | Every king move is playable |
| LegalFacts.DoubleCheckGood | custom_chess/Classes/chessEngine.py:163-164 | Under two checks every returned move is playable |
| LegalFacts.CastlesWellFormed | custom_chess/Classes/chessEngine.py:461-479 | Every generated castle is a well-formed castle move (rook landing square empty) |
| LegalFacts.NoCheckWellFormed | custom_chess/Classes/chessEngine.py:165-170 | Out of check every returned move is well formed, and the non-castles keep the board playable |
| LegalFacts.EfficientWellFormed | custom_chess/Classes/chessEngine.py:129-183 | Every move get_valid_moves_efficient returns is well formed for make_move, and the non-castles keep the board playable |
| Naive.Probed | custom_chess/Classes/chessEngine.py:110-111 | The position probed for one move: the board after the move, with the original side to move |
| Naive.NaiveStepStages | custom_chess/Classes/chessEngine.py:110-115 | One iteration is make_move, the flip, is_check, the flip back and undo_move |
| Naive.NaiveStepState | custom_chess/Classes/chessEngine.py:110-115 | One iteration changes only the pins and clears both flags; its verdict is whether the move leaves the mover in check |
| Naive.NaiveStepFixed | custom_chess/Classes/chessEngine.py:110-115 | With no pins and cleared flags an iteration changes nothing |
| Naive.RemoveSameIn | custom_chess/Classes/chessEngine.py:113 | Removal keeps only moves of the list |
| Naive.StepGood | custom_chess/Classes/chessEngine.py:109-115 | One iteration keeps the state playable and the remaining moves playable |
| Naive.AllMovesGoodAfter | custom_chess/Classes/chessEngine.py:108 | After get_all_possible_moves the state is playable and every move playable in it |
| Naive.NaiveLoopState | custom_chess/Classes/chessEngine.py:109-115 | The loop changes only the pins and the flags |
| Naive.NaiveLoopCleared | custom_chess/Classes/chessEngine.py:109-115 | A loop that ran at least once leaves both flags cleared |
| Naive.NaiveLoopSub | custom_chess/Classes/chessEngine.py:109-115 | The loop yields a sub-multiset of the moves |
| Naive.GoodSame | custom_chess/Classes/chessEngine.py:113 | Two playable moves that are `__eq__` are identical |
| Naive.NaiveLoopFilter | custom_chess/Classes/chessEngine.py:109-115 | With no pins and cleared flags, the loop is the backward remove loop with the leaves-in-check test |
| Naive.NaiveMovesLoop | custom_chess/Classes/chessEngine.py:107-115 | With no pins, get_valid_moves_naive's list is the loop over all possible moves |
| Naive.NaiveKeepsSafe | custom_chess/Classes/chessEngine.py:107-127 | With no pins and cleared flags, the result is exactly the moves that do not leave the mover in check, in order |
| Naive.NaiveSafeMembers | custom_chess/Classes/chessEngine.py:107-127 | With no pins and cleared flags, both directions: every returned move is possible and safe, and every safe possible move is returned |
| Naive.NaiveSub | custom_chess/Classes/chessEngine.py:107-115 | The result is a sub-multiset of all possible moves |
| Naive.NaiveFlags | custom_chess/Classes/chessEngine.py:103-126 | When get_all_possible_moves returns at least one move (so undo_move has cleared both flags): a non-empty result leaves both flags cleared; an empty one sets exactly one of checkmate and stalemate |
| Naive.NaiveFlagsNoMoves | custom_chess/Classes/chessEngine.py:117-121 | When get_all_possible_moves returns no move (so no undo_move runs): the result is empty, one of checkmate and stalemate is set and the other keeps its input value |
| Engine.Gamestate.constructor | custom_chess/Classes/chessEngine.py:12-38 | The new object holds the initial state |
| Engine.Gamestate.MakeMove | custom_chess/Classes/chessEngine.py:40-74 | The new state is make_move of the old one |
| Engine.Gamestate.PlaceMove | custom_chess/Classes/chessEngine.py:41-68 | The board writes of make_move |
| Engine.Gamestate.MoveRookAcross | custom_chess/Classes/chessEngine.py:62-68 | The castle rook's move |
| Engine.Gamestate.RecordMove | custom_chess/Classes/chessEngine.py:43-74 | The field updates of make_move: log, king caches, side, en-passant target and log, rights and log |
| Engine.Gamestate.UpdateCastleRights | custom_chess/Classes/chessEngine.py:441-459 | The rights become update_castle_rights of the old rights |
| Engine.Gamestate.UndoMove | custom_chess/Classes/chessEngine.py:76-105 | The new state is undo_move of the old one |
| Engine.Gamestate.TakeBackMove | custom_chess/Classes/chessEngine.py:79-103 | The board writes of undo_move |
| Engine.Gamestate.MoveRookBack | custom_chess/Classes/chessEngine.py:97-103 | The castle rook's way back |
| Engine.Gamestate.UnrecordMove | custom_chess/Classes/chessEngine.py:78-105 | The field updates of undo_move: logs popped, target and rights read back from the logs, flags cleared |
| Engine.Gamestate.CheckPinsAndChecks | custom_chess/Classes/chessEngine.py:185-240 | Returns the scan of the pin/check specification and changes nothing |
| Engine.Gamestate.ScanDirection | custom_chess/Classes/chessEngine.py:201-230 | One direction's loop returns that ray's scan |
| Engine.Gamestate.ScanKnights | custom_chess/Classes/chessEngine.py:231-239 | Appends the knight checks; in_check holds iff some check is listed |
| Engine.Gamestate.LookUpPin | custom_chess/Classes/chessEngine.py:268-275 | The pin lookup and removal, as TakePin |
| Engine.Gamestate.GetPawnMoves | custom_chess/Classes/chessEngine.py:267-315 | Appends the pawn moves of the specification and leaves the specified state |
| Engine.Gamestate.PawnTargets | custom_chess/Classes/chessEngine.py:276-315 | Appends the pawn's pushes and captures for its side |
| Engine.Gamestate.PushPawn | custom_chess/Classes/chessEngine.py:277-281 | Appends the single and double push |
| Engine.Gamestate.CapturePawn | custom_chess/Classes/chessEngine.py:282-288 | Appends one diagonal capture and en-passant capture |
| Engine.Gamestate.SlideDirection | custom_chess/Classes/chessEngine.py:333-347 | One ray's loop appends that ray's moves |
| Engine.Gamestate.SlideAlong | custom_chess/Classes/chessEngine.py:332-347 | The direction loop appends every allowed ray's moves |
| Engine.Gamestate.GetRookMoves | custom_chess/Classes/chessEngine.py:317-347 | Appends the rook moves of the specification; a queen's pin entry stays |
| Engine.Gamestate.GetBishopMoves | custom_chess/Classes/chessEngine.py:378-407 | Appends the bishop moves of the specification |
| Engine.Gamestate.GetQueenMoves | custom_chess/Classes/chessEngine.py:409-411 | Appends the bishop part then the rook part |
| Engine.Gamestate.KnightDirection | custom_chess/Classes/chessEngine.py:362-376 | The inner loop appends the jump's move up to seven times |
| Engine.Gamestate.GetKnightMoves | custom_chess/Classes/chessEngine.py:349-376 | Appends the knight moves of the specification |
| Engine.Gamestate.KnightAll | custom_chess/Classes/chessEngine.py:361-376 | The jump loop appends every jump's moves |
| Engine.Gamestate.GetKingMoves | custom_chess/Classes/chessEngine.py:413-439 | Appends the king moves of the specification; the caches end as specified |
| Engine.Gamestate.KingProbe | custom_chess/Classes/chessEngine.py:421-439 | The target loop appends the safe targets' moves and leaves the cache on the king's square when a target was probed |
| Engine.Gamestate.KingTarget | custom_chess/Classes/chessEngine.py:424-439 | One target's step appends its move when it is safe |
| Engine.Gamestate.ProbeTarget | custom_chess/Classes/chessEngine.py:429-439 | Moves the cache, scans, restores the cache to the king's square; safe iff the scan finds no check |
| Engine.Gamestate.MoveFunction | custom_chess/Classes/chessEngine.py:264 | Dispatches to the piece's generator |
| Engine.Gamestate.GetAllPossibleMoves | custom_chess/Classes/chessEngine.py:257-265 | Returns all possible moves of the specification |
| Engine.Gamestate.AllRows | custom_chess/Classes/chessEngine.py:259-264 | The row loop appends every row's moves |
| Engine.Gamestate.RowMoves | custom_chess/Classes/chessEngine.py:260-264 | One row's loop appends that row's moves |
| Engine.Gamestate.SquareThreatened | custom_chess/Classes/chessEngine.py:248-255 | Whether some opponent move ends on the square; the state is as specified |
| Engine.Gamestate.EndsOn | custom_chess/Classes/chessEngine.py:252-255 | True iff some move of the list ends on the square |
| Engine.Gamestate.IsCheck | custom_chess/Classes/chessEngine.py:242-246 | square_threatened at the mover's cached king square |
| Engine.Gamestate.GetCastleMoves | custom_chess/Classes/chessEngine.py:461-469 | Appends the castle moves of the specification |
| Engine.Gamestate.GetKingSideCastleMoves | custom_chess/Classes/chessEngine.py:471-474 | Appends the king-side castle when its conditions hold |
| Engine.Gamestate.GetQueenSideCastleMoves | custom_chess/Classes/chessEngine.py:476-479 | Appends the queen-side castle when its conditions hold |
| Engine.Gamestate.GetValidMovesEfficient | custom_chess/Classes/chessEngine.py:129-183 | Returns the moves of the specification and leaves its state (flags included) |
| Engine.Gamestate.SettleFlags | custom_chess/Classes/chessEngine.py:172-179 | Sets the flags as specified |
| Engine.Gamestate.EfficientMoves | custom_chess/Classes/chessEngine.py:135-170 | The scan and the three branches |
| Engine.Gamestate.StoreScan | custom_chess/Classes/chessEngine.py:135 | Stores the scan's in_check, pins and checks |
| Engine.Gamestate.CheckBranches | custom_chess/Classes/chessEngine.py:142-170 | The three branches on the stored scan |
| Engine.Gamestate.SingleCheckMoves | custom_chess/Classes/chessEngine.py:143-162 | All moves, filtered backwards against the check squares |
| Engine.Gamestate.CheckValidSquares | custom_chess/Classes/chessEngine.py:150-158 | The checker's square for a king checker (never a real check), else the segment from the king to the checker |
| Engine.Gamestate.SquaresToChecker | custom_chess/Classes/chessEngine.py:154-158 | The segment loop up to and including the checker |
| Engine.Gamestate.FilterMoves | custom_chess/Classes/chessEngine.py:159-162 | The backward remove loop |
| Engine.Gamestate.QuietMoves | custom_chess/Classes/chessEngine.py:165-170 | All moves, then the castles from the mover's cached king square |
| Engine.Gamestate.GetValidMovesNaive | custom_chess/Classes/chessEngine.py:107-127 | Returns the moves of the specification and leaves its state |
| Engine.Gamestate.SetNaiveFlags | custom_chess/Classes/chessEngine.py:117-126 | The flag bookkeeping, with its two is_check calls |
| Engine.Gamestate.NaiveFilter | custom_chess/Classes/chessEngine.py:109-115 | The backward make / is_check / undo loop |
| Engine.Gamestate.TryMove | custom_chess/Classes/chessEngine.py:110-115 | One iteration: make, flip, is_check, flip, undo |
| Engine.Gamestate.CheckWithTurnBack | custom_chess/Classes/chessEngine.py:111-114 | is_check for the side that just moved, with the side flipped back |
| Evaluation.PieceScore | custom_chess/Classes/chessIA.py:7 | Piece values between 0 and 9; zero exactly for the king |
| Evaluation.WeightedUnion | custom_chess/Classes/chessIA.py:263-272 | A kind's weighted count adds over unions of squares |
| Evaluation.WorthUnion | custom_chess/Classes/chessIA.py:263-272 | A colour's material adds over unions of squares |
| Evaluation.WorthOne | custom_chess/Classes/chessIA.py:266-270 | One square's material is its piece's value when of that colour, else zero |
| Evaluation.WorthAdd | custom_chess/Classes/chessIA.py:266-270 | Adding a square adds its signed material |
| Evaluation.RowMaterialWorth | custom_chess/Classes/chessIA.py:265-270 | The column loop sums white material minus black material of the row |
| Evaluation.MaterialFromWorth | custom_chess/Classes/chessIA.py:264-270 | The row loop sums white material minus black material of the rows |
| Evaluation.ScoreSimple | custom_chess/Classes/chessIA.py:263-272 | scoreboard_simple is white material minus black material over the board's multiset of squares |
| EvaluationFacts.SwapColor | custom_chess/Classes/chessIA.py:263-272 | Swapping a square's colour keeps its kind |
| EvaluationFacts.RowMaterialSwapped | custom_chess/Classes/chessIA.py:265-270 | Swapping colours negates a row's material |
| EvaluationFacts.MaterialFromSwapped | custom_chess/Classes/chessIA.py:264-270 | Swapping colours negates the rows' material |
| EvaluationFacts.ScoreSimpleSwapped | custom_chess/Classes/chessIA.py:263-272 | Swapping colours negates scoreboard_simple |
| EvaluationFacts.BlackTablesReversed | custom_chess/Classes/chessIA.py:61-70 | Each black position table is the white table with its rows reversed |
| EvaluationFacts.KingScoresNothing | custom_chess/Classes/chessIA.py:288-295 | A king adds neither material nor position score |
| EvaluationFacts.RowValueAgree | custom_chess/Classes/chessIA.py:285-295 | Rows with equal square scores have equal sums |
| EvaluationFacts.ValueFromAgree | custom_chess/Classes/chessIA.py:284-295 | Boards with equal square scores have equal sums |
| EvaluationFacts.RowMaterialAgree | custom_chess/Classes/chessIA.py:265-270 | Rows with equal square material have equal material |
| EvaluationFacts.MaterialFromAgree | custom_chess/Classes/chessIA.py:264-270 | Boards with equal square material have equal material |
| EvaluationFacts.KingsAddNothing | custom_chess/Classes/chessIA.py:284-295 | Removing a king changes neither the positional sum nor scoreboard_simple |
| EvaluationFacts.RowValueMirrored | custom_chess/Classes/chessIA.py:285-295 | Mirroring the board (rows reversed, colours swapped) negates a row's sum |
| EvaluationFacts.ValueFromMirrored | custom_chess/Classes/chessIA.py:284-295 | The same for a suffix of rows |
| EvaluationFacts.BoardValueMirrored | custom_chess/Classes/chessIA.py:284-295 | The mirrored board's white-relative sum is the negation of the board's |
| EvaluationFacts.ScoreNormalTerminal | custom_chess/Classes/chessIA.py:275-282 | Checkmate scores −400 with white to move and +400 with black to move; stalemate scores 0; the state is untouched |
| EvaluationFacts.IsCheckStable | custom_chess/Classes/chessIA.py:297-300 | With no pin on the opponent's pieces, is_check changes nothing |
| EvaluationFacts.ScoreNormalValue | custom_chess/Classes/chessIA.py:284-305 | With no pawn on its last rank, every king on its cached square, no pin on the opponent's pieces and neither flag set, the score is the mover-relative sum (the white-relative material and position sum, negated when black is to move) plus 2 when the mover is in check; the state is untouched |
| EvaluationFacts.MoverViewMirrored | custom_chess/Classes/chessIA.py:302-305 | The mover-relative sum is unchanged by mirroring the board and flipping the side |
| Search.FindRandom | custom_chess/Classes/chessIA.py:73-74 | find_random returns a move of the list |
| Search.FindRandomCovers | custom_chess/Classes/chessIA.py:73-74 | Every move of the list is the result for some draw |
| Search.SamePersistent | custom_chess/Classes/chessEngine.py:40-105 | The engine invariants depend only on the persistent part of the state |
| Search.SettlePersistent | custom_chess/Classes/chessEngine.py:172-179 | The flag bookkeeping keeps the persistent state |
| Search.EfficientPersistent | custom_chess/Classes/chessEngine.py:129-183 | get_valid_moves_efficient keeps the persistent state |
| Search.ScorePersistent | custom_chess/Classes/chessIA.py:275-305 | scoreboard_normal keeps the persistent state |
| Search.UndoRestores | custom_chess/Classes/chessEngine.py:76-105 | undo_move from any state persistent-equal to make_move's result gives back the persistent state before the move |
| Search.Play | custom_chess/Classes/chessIA.py:164-165 | make_move then get_valid_moves_efficient, defined exactly on well-formed moves reaching generable positions; the state after it is make_move's in its persistent part |
| Search.Undo | custom_chess/Classes/chessIA.py:171 | undo_move keeps the history invariant |
| Search.ChessSound | custom_chess/Classes/chessIA.py:163-171 | make_move / get_valid_moves_efficient / undo_move give back the position played from, with both flags cleared |
| Search.EfficientPlays | custom_chess/Classes/chessEngine.py:129-183 | From a playable position, every move get_valid_moves_efficient returns is well formed for make_move; all but castles keep the position playable, and each move that does can be played by the searches |
| Search.Max | custom_chess/Classes/chessIA.py:226-227 | The larger of two scores |
| Search.RanksStep | custom_chess/Classes/chessIA.py:104-105 | One step of a best-score loop keeps the loop's ranking fact |
| Search.FirstReachStep | custom_chess/Classes/chessIA.py:108-110 | One step of the choice loop keeps the first-reaching move |
| Search.OpponentBest | custom_chess/Classes/chessIA.py:96-107 | Run with both flags cleared, as the source runs it, the reply loop restores the persistent state and ends on the largest of its start and the scores from its start on; each score is ReplyScore of the game that reply's make_move leaves from a game with the same persistent part and cleared flags |
| Search.RepliesMaterial | custom_chess/Classes/chessIA.py:98-103 | Every reply score the loop records is the negated material balance −multiplier·scoreboard_simple after the reply: make_move keeps the cleared flags, so the CHECKMATE and STALEMATE branches never fire |
| Search.OpponentFold | custom_chess/Classes/chessIA.py:104-107 | The reply loop's step: given the score of reply i played from the game with cleared flags, it records that score and keeps every later score tied to its reply |
| Search.OpponentMax | custom_chess/Classes/chessIA.py:90-107 | The opponent's best: −400 if checkmated, 0 if stalemated; otherwise (both flags clear) at least −400, no reply scores more, it is −400 or some reply's score, and each reply's score is that of the reply played from the game with cleared flags |
| Search.GreedyLoop | custom_chess/Classes/chessIA.py:87-122 | The greedy loop restores the state; the value kept for each move is OpponentMax of the replies generated after that move, played from a game with the loop's persistent part and its flags (the first move) or cleared flags (each later move, after an undo_move); the first move reaching the minimum is chosen |
| Search.GreedyFold | custom_chess/Classes/chessIA.py:108-122 | The greedy loop's step: given OpponentMax after move i played from a game with key k, a value below the minimum replaces it and chooses move i; the later values stay tied to their moves, played with cleared flags |
| Search.FindBetterMoveGreedy | custom_chess/Classes/chessIA.py:77-123 | Restores the state; each move's opponent best is OpponentMax of the replies make_move and get_valid_moves_efficient give after it, from the root game (first move) or the root with cleared flags (later moves); the result is the first move with the smallest opponent best, chosen iff that is below 400, and one of the moves |
| Search.GreedyChoice | custom_chess/Classes/chessIA.py:108-110 | From CHECKMATE and no move: the minimum is at most 400 and at most every opponent best; a move is chosen iff it is below 400, and it is the first move whose opponent best is the minimum |
| Search.ScoredStep | custom_chess/Classes/chessIA.py:137-140 | One step of a search loop keeps the bound and next_move facts |
| Search.Minmax | custom_chess/Classes/chessIA.py:126-155 | Restores the state; for the player the maximum of −400 and the children, for the opponent the minimum of 400 and the children; each child is the search of that move at depth−1 with the other player, from the game's persistent part with its flags (first move) or cleared flags (later moves); next_move changes only at depth DEPTH and to one of the moves |
| Search.MinmaxChild | custom_chess/Classes/chessIA.py:134-141 | One child: make, generate, search at depth−1 with `not player_turn`, undo; its score is that search's and the persistent state is restored with both flags cleared |
| Search.MinmaxLoop | custom_chess/Classes/chessIA.py:133-141 | The move loop restores the state, ranks the children, and each child is the search of its move with the other player, from the loop's game for move i and with cleared flags after it |
| Search.MinmaxFold | custom_chess/Classes/chessIA.py:137-141 | The move loop's step: given the child search of move i from a game with key k, it records that score, keeps the bound and next_move facts, and keeps the later children tied to their searches with cleared flags |
| Search.FindMoveMinmax | custom_chess/Classes/chessIA.py:257-260 | Restores the state; next_move starts at None and ends on one of the moves or None |
| Search.MinmaxLeaf | custom_chess/Classes/chessIA.py:128-129 | At depth 0 the score is scoreboard_simple for either player and nothing changes |
| Search.MinmaxNoMoves | custom_chess/Classes/chessIA.py:131-155 | With no moves the score is −400 for the player and 400 for the opponent |
| Search.Negamax | custom_chess/Classes/chessIA.py:158-173 | Restores the state; at depth 0 turn_multi times scoreboard_normal; otherwise the maximum of −400 and the children, each the negated search of its move at depth−1 with −turn_multi, from the game's persistent part with its flags (first move) or cleared flags (later moves); next_move changes only at depth DEPTH, to one of the moves |
| Search.NegaChild | custom_chess/Classes/chessIA.py:164-171 | One child: make, generate, search at depth−1 with −turn_multi, undo; its score is that search's and the persistent state is restored with both flags cleared |
| Search.NegaLoop | custom_chess/Classes/chessIA.py:163-171 | The move loop restores the state, ranks the children, and each child is the negated score of its move's search, from the loop's game for move i and with cleared flags after it |
| Search.NegaFold | custom_chess/Classes/chessIA.py:166-171 | The move loop's step: given the negated child search of move i from a game with key k, it records that score, keeps the bound and next_move facts, and keeps the later children tied to their searches with cleared flags |
| Search.NegamaxNoMoves | custom_chess/Classes/chessIA.py:162-173 | With no moves the score is exactly −400 and nothing changes |
| Search.FindBestmoveNegamax | custom_chess/Classes/chessIA.py:176-185 | Restores the state; the move returned is None or one of the moves |
| Search.SameAt | custom_chess/Classes/chessIA.py:195-196 | The first position `__eq__` to the killer |
| Search.Promote | custom_chess/Classes/chessIA.py:195-197 | Moving a listed killer's equal to the front keeps the multiset of moves and puts a move equal to the killer first |
| Search.Reorder | custom_chess/Classes/chessIA.py:194-197 | The killer reordering keeps the multiset of moves |
| Search.StaleKillerReplacesMove | custom_chess/Classes/chessIA.py:194-197 | As written, a killer recorded with another captured piece replaces the list's own move, changing the multiset |
| Search.KillerUpdate | custom_chess/Classes/chessIA.py:228-231 | A slot keeps its length and then records the move; a new move goes to the front and pushes the last out; a recorded move leaves the slot as it was |
| Search.RecordKiller | custom_chess/Classes/chessIA.py:228-231 | Only the slot of this depth changes; every slot stays of length 2 |
| Search.EvolvedTrans | custom_chess/Classes/chessIA.py:194-232 | Changes to the globals confined to nested depths compose |
| Search.AlphaBeta | custom_chess/Classes/chessIA.py:188-235 | Restores the state; the reordered list is a permutation; counter grows; only killer slots up to this depth change; at depth 0 scoreboard_normal unmultiplied; otherwise the score is the maximum of −400 and the children, and the moves searched are a prefix of the list that stops exactly at the first move bringing alpha to beta (every earlier move left alpha below beta); each child is the negated search of its move with the window (−beta, −alpha) as alpha stood then, from the game's flags (first move) or cleared flags (later moves) and the killer table the previous child left; next_move changes only at depth DEPTH, where it is the first searched move reaching the score, if the score rose above −400 |
| Search.PrunedChild | custom_chess/Classes/chessIA.py:218-225 | One child: make, generate, search at depth−1 with the window (−beta, −alpha), undo; its score is that search's and the persistent state is restored with both flags cleared |
| Search.SweptCut | custom_chess/Classes/chessIA.py:226-232 | A cutoff: alpha reached beta, the move became a killer of this depth, the loop stopped after it, and at depth DEPTH next_move is the first move reaching the best score |
| Search.SweptOn | custom_chess/Classes/chessIA.py:221-232 | A step without cutoff keeps the loop facts: alpha stayed below beta after this move, and the first-reaching next_move carries over |
| Search.PrunedLoop | custom_chess/Classes/chessIA.py:217-232 | The loop restores the state; alpha and the best score never decrease; the best score is the maximum of its start and the children; every move searched but the last left alpha below beta, and the last one reached beta with a cutoff (then a killer) or the list ran out below beta; each child is the negated search of its move with the alpha of that moment, the loop's flags for the first move and cleared flags after, and the killer table the previous child left; at depth DEPTH next_move is the first move reaching the best score if it rose |
| Search.PrunedFold | custom_chess/Classes/chessIA.py:221-232 | The loop's step: given the negated windowed child search of move i from a game with key k and killer table `before.killers`, it raises best and alpha, stops with a killer at a cutoff and otherwise goes on below beta, and keeps the later children tied to their searches with cleared flags and the killer table move i left |
| Search.Deepen | custom_chess/Classes/chessIA.py:245-251 | The depth loop ends on the full-window pruned search of its last depth: that search ran from the root's persistent part (with the root's flags at the first depth, cleared once a move was searched), a permutation of the root list and next_move as it started; the decision is next_move as that search left it, unchanged unless DEPTH was reached |
| Search.FindMoveNegaAlphabeta | custom_chess/Classes/chessIA.py:238-254 | Restores the state; the list stays a permutation; the decision is None unless depth DEPTH was reached, and then it is the first move of the final search's list to reach that search's score (None if no move rose above −400); the score is the maximum of −400 and the children, each the negated search of its move as PrunedTied states, from the killer table the earlier depths left |

## Left out

- The pygame front end (`chessMain.py`) is not part of this model, and neither are the `print` calls.
- `multiprocessing.Queue` and the 30-second budget: the depth loop takes a `timeUp` sequence (one answer per depth) in place of the clock, and returns its decision instead of putting it on a queue.
- `random.shuffle` and `random.randint`: the searches take the shuffled list as a parameter that is a permutation of the moves, and `find_random` takes the drawn index.
- numpy and Python floats: scores are exact `real`s; no rounding is modelled.
- The commented-out transposition table and null-move code, and the unused `board_to_key`.
- `CastleRights` is not part of this model as a class; it is the record `Rights` of four booleans in the argument order of its construction.
- The misspelled `black_King_castle` attribute that the black-rook branch creates is not stored; only its effect (the real right is left alone) is modelled.
- Line 181's `current_castling_rights` attribute is not modelled: nothing reads it.
- Engine.Gamestate.MakeMove: the board writes and the field writes run as two helper calls, not interleaved as in the source; neither half reads what the other writes.
- Engine.Gamestate.UndoMove: the same split as make_move.
- Engine.Gamestate.TryMove: in the naive loop the list removal is made after the undo; it touches only the list.
- Naive.NaiveKeepsSafe: the naive filter is proved equal to "the moves that do not leave the mover in check" only with an empty pin list and cleared flags; with stale pins the generated list depends on the leftover entries.
- Naive.NaiveSafeMembers: the member-by-member form carries the same condition (an empty pin list and cleared flags); get_valid_moves_naive also runs with pins left over from an earlier double-check scan or with a flag set by an earlier call, and neither direction is promised there.
- Search.AlphaBeta: the searches are modelled on values (the game is threaded through and returned) rather than on one shared object, and they use the corrected killer reordering (see Findings).
- Search.AlphaBeta: a child's score is tied to a search from a game with the same persistent part and flags and from the same killer table; the counter and next_move that search starts with are left open, because its score does not read them (the same holds for next_move in the minimax and negamax ties).
- Search.Negamax: stated for `turn_multi` of 1 or −1 and depth at most DEPTH, the only values the source passes.
- Search.Minmax: a search that would play a move that is not well formed, or reach a position outside the engine's invariants, yields `Stuck`; properties are stated for searches that do not.
- Search.Negamax: not shown to avoid `Stuck` beyond one ply. `Search.EfficientPlays` shows that every generated move except a castle can be played. A king-side castle can carry a king standing on the rook's square (the black king-side right is cleared only by a black king move), and the king caches are then stale. So every property of the recursive searches is stated for a search that does not yield `Stuck`.
- Search.AlphaBeta: the same one-ply limit as negamax; its properties hold for a result other than `PrunedStuck`.
- Search.FindBetterMoveGreedy: the same one-ply limit; its properties hold for a result other than `GreedyStuck`.
- Search.Deepen: the same one-ply limit; its properties hold for a result other than `DecisionStuck`.
- Search.Play: the engine model is defined on positions whose king caches are on the board and in step with it, whose pawns are off their promotion rank and whose held castle rights have the king on its home square. Outside that domain the source would index off the board or wrap negative indices.
- Legality.CastleMoves: defined only when a held right's squares lie on the board. Under the engine invariants a held right has the king on its home square, so this always holds.

## Findings

| source | as written | input that shows it | evidently intended | confidence | as-written member | corrected member |
|---|---|---|---|---|---|---|
| custom_chess/Classes/chessIA.py:194-197 | The killer loop removes the list's move equal (by moveID) to the killer and inserts the killer object itself, which was recorded in another position and may carry other moved/captured pieces | List `[quiet rook e2-e4]`, killer slot `[rook e2xe4 recorded as capturing a black knight in a sibling position at the same depth, None]`: the list becomes `[killer]`, whose pieceCaptured differs, so a later make/undo writes a knight back on e4 | Move the list's own equal move to the front, keeping the list a permutation | not executed | Search.StaleKillerReplacesMove | Search.Reorder |

=== FILE: attacks.dfy ===
/**
 * Gamestate.check_pins_and_checks as a function of the board: from a king
 * square, scan the eight rays (four orthogonal, four diagonal) and the eight
 * knight offsets, collecting the squares of pinned allies and of checking
 * enemies as (row, col, dr, dc) rays.
 */
module Attacks {
  import opened Pieces

  /** The scan directions, in the engine's order: up, left, down, right,
      then the four diagonals. */
  const DirRows: seq<int> := [-1, 0, 1, 0, -1, -1, 1, 1]
  const DirCols: seq<int> := [0, -1, 0, 1, -1, 1, -1, 1]

  /** The knight offsets, in the engine's order. */
  const KnightRows: seq<int> := [-2, -2, -1, -1, 1, 1, 2, 2]
  const KnightCols: seq<int> := [-1, 1, -2, 2, -2, 2, -1, 1]

  /** The outcome of scanning one ray. */
  datatype Hit = NoHit | PinHit(pin: Ray) | CheckHit(check: Ray)

  /** What check_pins_and_checks returns. */
  datatype Scan = Scan(inCheck: bool, pins: seq<Ray>, checks: seq<Ray>)

  /** The square `d` steps from `king` along direction `i`, as a ray tuple. */
  function RayAt(king: Coord, i: int, d: int): Ray
    requires 0 <= i < 8
  {
    Ray(king.row + DirRows[i] * d, king.col + DirCols[i] * d, DirRows[i], DirCols[i])
  }

  /**
   * The engine's test for an enemy piece of kind `kind` at distance `j` along
   * direction `i` giving check. As written the pawn clause reads
   * "(white and i in 6..7) or (black and i == 3) or i == 5": a black pawn
   * beside the king on its right counts, one diagonally up-left does not.
   */
  predicate Attacks(i: int, j: int, kind: Kind, enemy: Color)
  {
    || (0 <= i <= 3 && kind == Rook)
    || (4 <= i <= 7 && kind == Bishop)
    || (j == 1 && kind == Pawn && ((enemy == White && 6 <= i <= 7) || (enemy == Black && i == 3) || i == 5))
    || kind == Queen
    || (j == 1 && kind == King)
  }

  /** A square the ray passes over: empty, or the scanning side's own king. */
  predicate Passable(s: Square, ally: Color)
  {
    s == Empty || s == Occupied(ally, King)
  }

  /** The inner loop over distances j..7 of one direction, with the ally
      piece seen so far (the "possible pin"). */
  function RayScan(g: Grid, king: Coord, ally: Color, i: int, j: int, possiblePin: Option<Ray>): Hit
    requires 0 <= i < 8 && 1 <= j
    decreases 8 - j
  {
    if j >= 8 then NoHit
    else
      var r := RayAt(king, i, j);
      if !OnBoard(r.row, r.col) then NoHit
      else
        var p := g[r.row][r.col];
        if p.Occupied? && p.color == ally && p.kind != King then
          if possiblePin.None? then RayScan(g, king, ally, i, j + 1, Some(r)) else NoHit
        else if p.Occupied? && p.color == Opponent(ally) then
          if Attacks(i, j, p.kind, Opponent(ally)) then
            if possiblePin.None? then CheckHit(r) else PinHit(possiblePin.value)
          else NoHit
        else RayScan(g, king, ally, i, j + 1, possiblePin)
  }

  /** The pins and checks of directions i..7, in scan order. */
  function ScanDirs(g: Grid, king: Coord, ally: Color, i: int): Scan
    requires 0 <= i <= 8
    decreases 8 - i
  {
    if i == 8 then Scan(false, [], [])
    else
      var rest := ScanDirs(g, king, ally, i + 1);
      match RayScan(g, king, ally, i, 1, None)
      case NoHit => rest
      case PinHit(p) => rest.(pins := [p] + rest.pins)
      case CheckHit(c) => rest.(checks := [c] + rest.checks)
  }

  /** The checks given by enemy knights at offsets n..7. */
  function KnightChecks(g: Grid, king: Coord, ally: Color, n: int): seq<Ray>
    requires 0 <= n <= 8
    decreases 8 - n
  {
    if n == 8 then []
    else
      var r := Ray(king.row + KnightRows[n], king.col + KnightCols[n], KnightRows[n], KnightCols[n]);
      var rest := KnightChecks(g, king, ally, n + 1);
      if OnBoard(r.row, r.col) && g[r.row][r.col] == Occupied(Opponent(ally), Knight) then [r] + rest
      else rest
  }

  /** check_pins_and_checks for the side `ally` whose king cache is `king`. */
  function PinsAndChecks(g: Grid, king: Coord, ally: Color): Scan
  {
    var rays := ScanDirs(g, king, ally, 0);
    var checks := rays.checks + KnightChecks(g, king, ally, 0);
    Scan(|checks| > 0, rays.pins, checks)
  }

  // ---------------------------------------------------------------------
  // A reference definition of a check along a ray

  /** The squares at distances 1..d-1 along direction `i` are all passable. */
  predicate ClearTo(g: Grid, king: Coord, ally: Color, i: int, d: int)
    requires 0 <= i < 8
  {
    forall t | 1 <= t < d ::
      var r := RayAt(king, i, t);
      OnBoard(r.row, r.col) && Passable(g[r.row][r.col], ally)
  }

  /** An enemy piece at distance d along direction i, which the engine's test
      accepts, with nothing but passable squares in between. */
  predicate RayCheck(g: Grid, king: Coord, ally: Color, i: int, d: int)
    requires 0 <= i < 8
  {
    var r := RayAt(king, i, d);
    && 1 <= d < 8 && OnBoard(r.row, r.col) && ClearTo(g, king, ally, i, d)
    && g[r.row][r.col].Occupied? && g[r.row][r.col].color == Opponent(ally)
    && Attacks(i, d, g[r.row][r.col].kind, Opponent(ally))
  }

  /** Scanning from distance j with no ally seen reports a check exactly when
      there is a checking piece at some distance d >= j reached over
      passable squares. */
  lemma {:induction false} RayScanCheck(g: Grid, king: Coord, ally: Color, i: int, j: int)
    requires 0 <= i < 8 && 1 <= j && ClearTo(g, king, ally, i, j)
    ensures RayScan(g, king, ally, i, j, None).CheckHit? <==>
            exists d :: j <= d && RayCheck(g, king, ally, i, d)
    ensures forall d :: j <= d && RayCheck(g, king, ally, i, d) ==>
            RayScan(g, king, ally, i, j, None) == CheckHit(RayAt(king, i, d))
    decreases 8 - j
  {
    if j >= 8 {
    } else {
      var r := RayAt(king, i, j);
      if !OnBoard(r.row, r.col) {
        forall d | j < d
          ensures !RayCheck(g, king, ally, i, d)
        {
          NotClearPast(g, king, ally, i, j, d);
        }
      } else {
        var p := g[r.row][r.col];
        if p.Occupied? && p.color == ally && p.kind != King {
          RayScanNoCheckAfterPin(g, king, ally, i, j + 1, r);
          forall d | j < d
            ensures !RayCheck(g, king, ally, i, d)
          {
            NotClearPast(g, king, ally, i, j, d);
          }
        } else if p.Occupied? && p.color == Opponent(ally) {
          if Attacks(i, j, p.kind, Opponent(ally)) {
            assert RayCheck(g, king, ally, i, j);
          }
          forall d | j < d
            ensures !RayCheck(g, king, ally, i, d)
          {
            NotClearPast(g, king, ally, i, j, d);
          }
        } else {
          assert ClearTo(g, king, ally, i, j + 1) by {
            forall t | 1 <= t < j + 1
              ensures var q := RayAt(king, i, t); OnBoard(q.row, q.col) && Passable(g[q.row][q.col], ally)
            {
              if t == j {
              }
            }
          }
          RayScanCheck(g, king, ally, i, j + 1);
        }
      }
    }
  }

  /** A square off the board or not passable at distance j blocks the ray
      beyond it. */
  lemma NotClearPast(g: Grid, king: Coord, ally: Color, i: int, j: int, d: int)
    requires 0 <= i < 8 && 1 <= j < d
    requires var r := RayAt(king, i, j); !(OnBoard(r.row, r.col) && Passable(g[r.row][r.col], ally))
    ensures !ClearTo(g, king, ally, i, d)
  {
  }

  /** Once an ally piece has been seen, the ray reports no check. */
  lemma {:induction false} RayScanNoCheckAfterPin(g: Grid, king: Coord, ally: Color, i: int, j: int, pin: Ray)
    requires 0 <= i < 8 && 1 <= j
    ensures !RayScan(g, king, ally, i, j, Some(pin)).CheckHit?
    ensures RayScan(g, king, ally, i, j, Some(pin)).PinHit? ==> RayScan(g, king, ally, i, j, Some(pin)).pin == pin
    decreases 8 - j
  {
    if j < 8 {
      RayScanNoCheckAfterPin(g, king, ally, i, j + 1, pin);
    }
  }

  /** A pin found along a ray is an ally piece other than the king. */
  lemma {:induction false} RayScanPin(g: Grid, king: Coord, ally: Color, i: int, j: int)
    requires 0 <= i < 8 && 1 <= j
    ensures var h := RayScan(g, king, ally, i, j, None);
      h.PinHit? ==> OnBoard(h.pin.row, h.pin.col) &&
                    g[h.pin.row][h.pin.col].Occupied? && g[h.pin.row][h.pin.col].color == ally &&
                    g[h.pin.row][h.pin.col].kind != King &&
                    h.pin.dr == DirRows[i] && h.pin.dc == DirCols[i]
    decreases 8 - j
  {
    if j < 8 {
      var r := RayAt(king, i, j);
      if OnBoard(r.row, r.col) {
        var p := g[r.row][r.col];
        if p.Occupied? && p.color == ally && p.kind != King {
          RayScanNoCheckAfterPin(g, king, ally, i, j + 1, r);
        } else if !(p.Occupied? && p.color == Opponent(ally)) {
          RayScanPin(g, king, ally, i, j + 1);
        }
      }
    }
  }

  /** Every pin is an on-board ally piece other than the king, recorded with
      the direction it lies in from the king; every ray check is an on-board
      enemy piece; each direction contributes at most one of either. */
  lemma {:induction false} ScanDirsShape(g: Grid, king: Coord, ally: Color, i: int)
    requires 0 <= i <= 8
    ensures var s := ScanDirs(g, king, ally, i);
      && |s.pins| + |s.checks| <= 8 - i
      && (forall p | p in s.pins ::
            OnBoard(p.row, p.col) && g[p.row][p.col].Occupied? && g[p.row][p.col].color == ally &&
            g[p.row][p.col].kind != King)
      && (forall c | c in s.checks ::
            OnBoard(c.row, c.col) && g[c.row][c.col].Occupied? && g[c.row][c.col].color == Opponent(ally))
    decreases 8 - i
  {
    if i < 8 {
      ScanDirsShape(g, king, ally, i + 1);
      RayScanPin(g, king, ally, i, 1);
      RayScanCheckSquare(g, king, ally, i, 1, None);
    }
  }

  /** A reported check is an on-board enemy piece. */
  lemma {:induction false} RayScanCheckSquare(g: Grid, king: Coord, ally: Color, i: int, j: int, pin: Option<Ray>)
    requires 0 <= i < 8 && 1 <= j
    ensures var h := RayScan(g, king, ally, i, j, pin);
      h.CheckHit? ==> OnBoard(h.check.row, h.check.col) &&
                      g[h.check.row][h.check.col].Occupied? &&
                      g[h.check.row][h.check.col].color == Opponent(ally)
    decreases 8 - j
  {
    if j < 8 {
      var r := RayAt(king, i, j);
      if OnBoard(r.row, r.col) {
        var p := g[r.row][r.col];
        if p.Occupied? && p.color == ally && p.kind != King {
          if pin.None? {
            RayScanCheckSquare(g, king, ally, i, j + 1, Some(r));
          }
        } else if !(p.Occupied? && p.color == Opponent(ally)) {
          RayScanCheckSquare(g, king, ally, i, j + 1, pin);
        }
      }
    }
  }

  /** Every check a direction's ray reports is in the scan's check list. */
  lemma {:induction false} ScanDirsChecks(g: Grid, king: Coord, ally: Color, i: int)
    requires 0 <= i <= 8
    ensures forall j | i <= j < 8 ::
      var h := RayScan(g, king, ally, j, 1, None);
      h.CheckHit? ==> h.check in ScanDirs(g, king, ally, i).checks
    decreases 8 - i
  {
    if i < 8 {
      ScanDirsChecks(g, king, ally, i + 1);
      var h := RayScan(g, king, ally, i, 1, None);
      var rest := ScanDirs(g, king, ally, i + 1).checks;
      assert ScanDirs(g, king, ally, i).checks == if h.CheckHit? then [h.check] + rest else rest;
    }
  }

  /** When no direction reports anything, the scan records no pin and no
      check. */
  lemma {:induction false} ScanDirsQuiet(g: Grid, king: Coord, ally: Color, i: int)
    requires 0 <= i <= 8
    requires forall j | i <= j < 8 :: RayScan(g, king, ally, j, 1, None) == NoHit
    ensures ScanDirs(g, king, ally, i) == Scan(false, [], [])
    decreases 8 - i
  {
    if i < 8 {
      ScanDirsQuiet(g, king, ally, i + 1);
    }
  }

  /** Every knight check is an enemy knight a knight's jump away. */
  lemma {:induction false} KnightChecksSound(g: Grid, king: Coord, ally: Color, n: int)
    requires 0 <= n <= 8
    ensures forall c | c in KnightChecks(g, king, ally, n) ::
      OnBoard(c.row, c.col) && g[c.row][c.col] == Occupied(Opponent(ally), Knight) &&
      c.row - king.row == c.dr && c.col - king.col == c.dc
    decreases 8 - n
  {
    if n < 8 {
      KnightChecksSound(g, king, ally, n + 1);
    }
  }

  /** An enemy knight at offset k, for n <= k, is reported. */
  lemma {:induction false} KnightCheckFound(g: Grid, king: Coord, ally: Color, n: int, k: int)
    requires 0 <= n <= k < 8
    requires OnBoard(king.row + KnightRows[k], king.col + KnightCols[k])
    requires g[king.row + KnightRows[k]][king.col + KnightCols[k]] == Occupied(Opponent(ally), Knight)
    ensures Ray(king.row + KnightRows[k], king.col + KnightCols[k], KnightRows[k], KnightCols[k]) in KnightChecks(g, king, ally, n)
    decreases k - n
  {
    if n < k {
      KnightCheckFound(g, king, ally, n + 1, k);
    }
  }

  /** Knight checks are exactly the enemy knights a knight's jump away. */
  lemma KnightChecksExact(g: Grid, king: Coord, ally: Color, n: int)
    requires 0 <= n <= 8
    ensures forall c | c in KnightChecks(g, king, ally, n) ::
      OnBoard(c.row, c.col) && g[c.row][c.col] == Occupied(Opponent(ally), Knight) &&
      c.row - king.row == c.dr && c.col - king.col == c.dc
    ensures forall k | n <= k < 8 ::
      var r := king.row + KnightRows[k];
      var c := king.col + KnightCols[k];
      OnBoard(r, c) && g[r][c] == Occupied(Opponent(ally), Knight) ==>
        Ray(r, c, KnightRows[k], KnightCols[k]) in KnightChecks(g, king, ally, n)
  {
    KnightChecksSound(g, king, ally, n);
    forall k | n <= k < 8 && OnBoard(king.row + KnightRows[k], king.col + KnightCols[k]) &&
               g[king.row + KnightRows[k]][king.col + KnightCols[k]] == Occupied(Opponent(ally), Knight)
      ensures Ray(king.row + KnightRows[k], king.col + KnightCols[k], KnightRows[k], KnightCols[k]) in KnightChecks(g, king, ally, n)
    {
      KnightCheckFound(g, king, ally, n, k);
    }
  }

  /** The side is in check exactly when some check was recorded, and every
      recorded pin and check has the shape described above. */
  lemma PinsAndChecksShape(g: Grid, king: Coord, ally: Color)
    ensures var s := PinsAndChecks(g, king, ally);
      && (s.inCheck <==> |s.checks| > 0)
      && |s.pins| <= 8
      && (forall p | p in s.pins ::
            OnBoard(p.row, p.col) && g[p.row][p.col].Occupied? && g[p.row][p.col].color == ally &&
            g[p.row][p.col].kind != King)
      && (forall c | c in s.checks ::
            OnBoard(c.row, c.col) && g[c.row][c.col].Occupied? && g[c.row][c.col].color == Opponent(ally))
  {
    ScanDirsShape(g, king, ally, 0);
    KnightChecksExact(g, king, ally, 0);
  }

  /** As written, a black pawn directly to the right of the white king is
      reported as a check (the pawn clause accepts direction 3, (0, 1)). */
  lemma PawnBesideKingChecks()
    ensures var g := Put(seq(8, _ => seq(8, _ => Empty)), 4, 5, Occupied(Black, Pawn));
            PinsAndChecks(g, Coord(4, 4), White).inCheck
  {
    var g := Put(seq(8, _ => seq(8, _ => Empty)), 4, 5, Occupied(Black, Pawn));
    assert RayScan(g, Coord(4, 4), White, 3, 1, None) == CheckHit(Ray(4, 5, 0, 1));
    ScanDirsChecks(g, Coord(4, 4), White, 0);
  }

  /** As written, a black pawn diagonally up-left of the white king, which
      does attack the king's square, is not reported (direction 4 is not in
      the pawn clause for black). */
  lemma PawnUpLeftMissed()
    ensures var g := Put(seq(8, _ => seq(8, _ => Empty)), 3, 3, Occupied(Black, Pawn));
            !PinsAndChecks(g, Coord(4, 4), White).inCheck
  {
    var g := Put(seq(8, _ => seq(8, _ => Empty)), 3, 3, Occupied(Black, Pawn));
    var k := Coord(4, 4);
    assert RayScan(g, k, White, 4, 1, None) == NoHit;
    forall i | 0 <= i < 8 && i != 4
      ensures RayScan(g, k, White, i, 1, None) == NoHit
    {
      EmptyRay(g, k, White, i, 1);
    }
    ScanDirsQuiet(g, k, White, 0);
    assert KnightChecks(g, k, White, 0) == [];
  }

  /** A ray that meets no piece ends without a hit. */
  lemma {:induction false} EmptyRay(g: Grid, king: Coord, ally: Color, i: int, j: int)
    requires 0 <= i < 8 && 1 <= j
    requires forall t | j <= t < 8 :: var r := RayAt(king, i, t); OnBoard(r.row, r.col) ==> g[r.row][r.col] == Empty
    ensures RayScan(g, king, ally, i, j, None) == NoHit
    decreases 8 - j
  {
    if j < 8 {
      EmptyRay(g, king, ally, i, j + 1);
    }
  }
}

=== FILE: evaluation.dfy ===
/**
 * The board evaluation of chessIA.py: the material values of piece_score,
 * the positional tables of piece_position_scores, scoreboard_simple (material
 * only, white minus black) and scoreboard_normal (material plus position, a
 * two-point adjustment for a side in check, and the checkmate / stalemate
 * values). The tables' decimal entries are exact reals.
 */
module Evaluation {
  import opened Pieces
  import opened Rules
  import opened Generation
  import opened Legality

  /** CHECKMATE and STALEMATE. */
  const CheckmateScore: real := 400.0
  const StalemateScore: real := 0.0

  /** piece_score: K = 0, Q = 9, R = 5, N = B = 3, p = 1. */
  function PieceScore(k: Kind): (s: int)
    ensures 0 <= s <= 9
    ensures s == 0 <==> k == King
  {
    match k
    case King => 0
    case Queen => 9
    case Rook => 5
    case Knight => 3
    case Bishop => 3
    case Pawn => 1
  }

  // ---------------------------------------------------------------------
  // Positional tables

  /** An 8x8 table of positional scores, indexed [row][col]. */
  type Table = t: seq<seq<real>> | |t| == 8 && forall r | 0 <= r < 8 :: |t[r]| == 8
    witness seq(8, _ => seq(8, _ => 0.0))

  const KnightScores: Table :=
    [[0.0, 0.1, 0.2, 0.2, 0.2, 0.2, 0.1, 0.0],
     [0.1, 0.3, 0.5, 0.5, 0.5, 0.5, 0.3, 0.1],
     [0.2, 0.5, 0.6, 0.65, 0.65, 0.6, 0.5, 0.2],
     [0.2, 0.55, 0.65, 0.7, 0.7, 0.65, 0.55, 0.2],
     [0.2, 0.5, 0.65, 0.7, 0.7, 0.65, 0.5, 0.2],
     [0.2, 0.55, 0.6, 0.65, 0.65, 0.6, 0.55, 0.2],
     [0.1, 0.3, 0.5, 0.55, 0.55, 0.5, 0.3, 0.1],
     [0.0, 0.1, 0.2, 0.2, 0.2, 0.2, 0.1, 0.0]]

  const BishopScores: Table :=
    [[0.0, 0.2, 0.2, 0.2, 0.2, 0.2, 0.2, 0.0],
     [0.2, 0.4, 0.4, 0.4, 0.4, 0.4, 0.4, 0.2],
     [0.2, 0.4, 0.5, 0.6, 0.6, 0.5, 0.4, 0.2],
     [0.2, 0.5, 0.5, 0.6, 0.6, 0.5, 0.5, 0.2],
     [0.2, 0.4, 0.6, 0.6, 0.6, 0.6, 0.4, 0.2],
     [0.2, 0.6, 0.6, 0.6, 0.6, 0.6, 0.6, 0.2],
     [0.2, 0.5, 0.4, 0.4, 0.4, 0.4, 0.5, 0.2],
     [0.0, 0.2, 0.2, 0.2, 0.2, 0.2, 0.2, 0.0]]

  const RookScores: Table :=
    [[0.25, 0.25, 0.25, 0.25, 0.25, 0.25, 0.25, 0.25],
     [0.5, 0.75, 0.75, 0.75, 0.75, 0.75, 0.75, 0.5],
     [0.0, 0.25, 0.25, 0.25, 0.25, 0.25, 0.25, 0.0],
     [0.0, 0.25, 0.25, 0.25, 0.25, 0.25, 0.25, 0.0],
     [0.0, 0.25, 0.25, 0.25, 0.25, 0.25, 0.25, 0.0],
     [0.0, 0.25, 0.25, 0.25, 0.25, 0.25, 0.25, 0.0],
     [0.0, 0.25, 0.25, 0.25, 0.25, 0.25, 0.25, 0.0],
     [0.25, 0.25, 0.25, 0.5, 0.5, 0.25, 0.25, 0.25]]

  const QueenScores: Table :=
    [[0.0, 0.2, 0.2, 0.3, 0.3, 0.2, 0.2, 0.0],
     [0.2, 0.4, 0.4, 0.4, 0.4, 0.4, 0.4, 0.2],
     [0.2, 0.4, 0.5, 0.5, 0.5, 0.5, 0.4, 0.2],
     [0.3, 0.4, 0.5, 0.5, 0.5, 0.5, 0.4, 0.3],
     [0.4, 0.4, 0.5, 0.5, 0.5, 0.5, 0.4, 0.3],
     [0.2, 0.5, 0.5, 0.5, 0.5, 0.5, 0.4, 0.2],
     [0.2, 0.4, 0.5, 0.4, 0.4, 0.4, 0.4, 0.2],
     [0.0, 0.2, 0.2, 0.3, 0.3, 0.2, 0.2, 0.0]]

  const PawnScores: Table :=
    [[0.8, 0.8, 0.8, 0.8, 0.8, 0.8, 0.8, 0.8],
     [0.7, 0.7, 0.7, 0.7, 0.7, 0.7, 0.7, 0.7],
     [0.3, 0.3, 0.4, 0.5, 0.5, 0.4, 0.3, 0.3],
     [0.25, 0.25, 0.3, 0.45, 0.45, 0.3, 0.25, 0.25],
     [0.2, 0.2, 0.2, 0.4, 0.4, 0.2, 0.2, 0.2],
     [0.25, 0.15, 0.1, 0.2, 0.2, 0.1, 0.15, 0.25],
     [0.25, 0.3, 0.3, 0.0, 0.0, 0.3, 0.3, 0.25],
     [0.2, 0.2, 0.2, 0.2, 0.2, 0.2, 0.2, 0.2]]

  /** The table white uses for a piece kind other than the king. */
  function WhiteTable(k: Kind): Table
    requires k != King
  {
    match k
    case Knight => KnightScores
    case Bishop => BishopScores
    case Rook => RookScores
    case Queen => QueenScores
    case Pawn => PawnScores
  }

  /** A table with its rows in reverse order, as the slice [::-1] gives. */
  function Reversed(t: Table): Table
  {
    seq(8, r requires 0 <= r < 8 => t[7 - r])
  }

  /** piece_position_scores: white pieces use their table, black pieces the
      row-reversed one; kings have none. */
  function PositionTable(c: Color, k: Kind): Table
    requires k != King
  {
    if c == White then WhiteTable(k) else Reversed(WhiteTable(k))
  }

  // ---------------------------------------------------------------------
  // scoreboard_simple

  /** One square's contribution to scoreboard_simple. */
  function SquareMaterial(s: Square): int
  {
    match s
    case Empty => 0
    case Occupied(c, k) => if c == White then PieceScore(k) else -PieceScore(k)
  }

  /** The squares of row r from column c on. */
  function RowMaterial(g: Grid, r: int, c: int): int
    requires 0 <= r < 8 && 0 <= c <= 8
    decreases |g[r]| - c
  {
    if c == |g[r]| then 0 else SquareMaterial(g[r][c]) + RowMaterial(g, r, c + 1)
  }

  /** Rows r..7. */
  function MaterialFrom(g: Grid, r: int): int
    requires 0 <= r <= 8
    decreases |g| - r
  {
    if r == |g| then 0 else RowMaterial(g, r, 0) + MaterialFrom(g, r + 1)
  }

  /** The squares of the board from (r, c) on, as a multiset. */
  function RowSquares(g: Grid, r: int, c: int): multiset<Square>
    requires 0 <= r < 8 && 0 <= c <= 8
    decreases |g[r]| - c
  {
    if c == |g[r]| then multiset{} else multiset{g[r][c]} + RowSquares(g, r, c + 1)
  }

  function SquaresFrom(g: Grid, r: int): multiset<Square>
    requires 0 <= r <= 8
    decreases |g| - r
  {
    if r == |g| then multiset{} else RowSquares(g, r, 0) + SquaresFrom(g, r + 1)
  }

  /** The material of colour c: each kind's value times the number of its
      pieces in `pieces`. */
  function Worth(pieces: multiset<Square>, c: Color): int
  {
    Weighted(pieces, c, King) + Weighted(pieces, c, Queen) + Weighted(pieces, c, Rook) +
    Weighted(pieces, c, Knight) + Weighted(pieces, c, Bishop) + Weighted(pieces, c, Pawn)
  }

  /** The number of pieces of one colour and kind, weighted by the kind's value. */
  function Weighted(pieces: multiset<Square>, c: Color, k: Kind): int
  {
    PieceScore(k) * pieces[Occupied(c, k)]
  }

  /** All 64 squares of the board, as a multiset. */
  function Squares(g: Grid): multiset<Square>
  {
    SquaresFrom(g, 0)
  }

  lemma WeightedUnion(a: multiset<Square>, b: multiset<Square>, c: Color, k: Kind)
    ensures Weighted(a + b, c, k) == Weighted(a, c, k) + Weighted(b, c, k)
  {
    var x, y := a[Occupied(c, k)], b[Occupied(c, k)];
    assert (a + b)[Occupied(c, k)] == x + y;
    var p := PieceScore(k);
    assert p * (x + y) == p * x + p * y;
  }

  lemma WorthUnion(a: multiset<Square>, b: multiset<Square>, c: Color)
    ensures Worth(a + b, c) == Worth(a, c) + Worth(b, c)
  {
    WeightedUnion(a, b, c, King);
    WeightedUnion(a, b, c, Queen);
    WeightedUnion(a, b, c, Rook);
    WeightedUnion(a, b, c, Knight);
    WeightedUnion(a, b, c, Bishop);
    WeightedUnion(a, b, c, Pawn);
  }

  lemma WorthOne(s: Square, c: Color)
    ensures Worth(multiset{s}, c) == if s.Occupied? && s.color == c then PieceScore(s.kind) else 0
  {
  }

  lemma WorthAdd(pieces: multiset<Square>, s: Square)
    ensures Worth(multiset{s} + pieces, White) - Worth(multiset{s} + pieces, Black) ==
            SquareMaterial(s) + Worth(pieces, White) - Worth(pieces, Black)
  {
    WorthUnion(multiset{s}, pieces, White);
    WorthUnion(multiset{s}, pieces, Black);
    WorthOne(s, White);
    WorthOne(s, Black);
  }

  lemma {:induction false} RowMaterialWorth(g: Grid, r: int, c: int)
    requires 0 <= r < 8 && 0 <= c <= 8
    ensures RowMaterial(g, r, c) == Worth(RowSquares(g, r, c), White) - Worth(RowSquares(g, r, c), Black)
    decreases 8 - c
  {
    if c < 8 {
      RowMaterialWorth(g, r, c + 1);
      WorthAdd(RowSquares(g, r, c + 1), g[r][c]);
    }
  }

  lemma {:induction false} MaterialFromWorth(g: Grid, r: int)
    requires 0 <= r <= 8
    ensures MaterialFrom(g, r) == Worth(SquaresFrom(g, r), White) - Worth(SquaresFrom(g, r), Black)
    decreases 8 - r
  {
    if r < 8 {
      MaterialFromWorth(g, r + 1);
      RowMaterialWorth(g, r, 0);
      WorthUnion(RowSquares(g, r, 0), SquaresFrom(g, r + 1), White);
      WorthUnion(RowSquares(g, r, 0), SquaresFrom(g, r + 1), Black);
    }
  }

  /** scoreboard_simple: the double loop over the board, as a sum. It is
      white's material minus black's material, each counted as value times
      number of pieces over all 64 squares. */
  function ScoreSimple(g: Grid): (score: int)
    ensures score == Worth(Squares(g), White) - Worth(Squares(g), Black)
  {
    MaterialFromWorth(g, 0);
    MaterialFrom(g, 0)
  }

  // ---------------------------------------------------------------------
  // The material-and-position sum of scoreboard_normal

  /** One square's contribution: the piece's value plus its table entry
      (nothing for a king), added for white and subtracted for black. */
  function SquareValue(s: Square, r: int, c: int): real
    requires OnBoard(r, c)
  {
    match s
    case Empty => 0.0
    case Occupied(color, k) =>
      var position := if k == King then 0.0 else PositionTable(color, k)[r][c];
      var value := PieceScore(k) as real + position;
      if color == White then value else -value
  }

  function RowValue(g: Grid, r: int, c: int): real
    requires 0 <= r < 8 && 0 <= c <= 8
    decreases |g[r]| - c
  {
    if c == |g[r]| then 0.0 else SquareValue(g[r][c], r, c) + RowValue(g, r, c + 1)
  }

  function ValueFrom(g: Grid, r: int): real
    requires 0 <= r <= 8
    decreases |g| - r
  {
    if r == |g| then 0.0 else RowValue(g, r, 0) + ValueFrom(g, r + 1)
  }

  /** The white-relative sum scoreboard_normal accumulates over the board. */
  function BoardValue(g: Grid): real
  {
    ValueFrom(g, 0)
  }

  // ---------------------------------------------------------------------
  // scoreboard_normal

  /** A score together with the state the evaluation leaves (is_check
      rewrites the pin list). */
  datatype Eval = Eval(score: real, state: Game)

  /**
   * scoreboard_normal. A checkmate scores -400 with white to move and +400
   * with black to move, a stalemate 0. Otherwise the board sum gains 2 if
   * is_check() holds with white to move, else loses 2 if a second is_check()
   * holds with black to move, and the result is the sum for white to move
   * and its negation for black.
   */
  function ScoreNormal(v: Game): Eval
    requires CanGenerate(v)
  {
    if v.checkmate then Eval(if v.whiteToMove then -CheckmateScore else CheckmateScore, v)
    else if v.stalemate then Eval(StalemateScore, v)
    else
      var sum := BoardValue(v.grid);
      var c1 := IsCheck(v);
      ThreatFrame(v, v.MoverKing().row, v.MoverKing().col);
      if c1.hit && v.whiteToMove then Eval(sum + 2.0, c1.state)
      else
        var c2 := IsCheck(c1.state);
        var adjusted := if c2.hit && !v.whiteToMove then sum - 2.0 else sum;
        Eval(if v.whiteToMove then adjusted else -adjusted, c2.state)
  }
}

=== FILE: evaluation_facts.dfy ===
/**
 * Properties of the evaluation: scoreboard_simple is white's material minus
 * black's, counted piece by piece; exchanging colours negates it; kings
 * score nothing; black's tables mirror white's, so mirroring the board
 * negates the material-and-position sum; and the values scoreboard_normal
 * returns in and out of checkmate and stalemate.
 */
module EvaluationFacts {
  import opened Pieces
  import opened Rules
  import opened Generation
  import opened Legality
  import opened Evaluation

  /** A square with its piece's colour exchanged. */
  function SwapColor(s: Square): (t: Square)
    ensures t.Occupied? == s.Occupied?
    ensures s.Occupied? ==> t.color == Opponent(s.color) && t.kind == s.kind
  {
    match s
    case Empty => Empty
    case Occupied(c, k) => Occupied(Opponent(c), k)
  }

  /** The board with every piece's colour exchanged, squares unmoved. */
  function ColorsSwapped(g: Grid): Grid
  {
    seq(8, r requires 0 <= r < 8 => seq(8, c requires 0 <= c < 8 => SwapColor(g[r][c])))
  }

  lemma {:induction false} RowMaterialSwapped(g: Grid, r: int, c: int)
    requires 0 <= r < 8 && 0 <= c <= 8
    ensures RowMaterial(ColorsSwapped(g), r, c) == -RowMaterial(g, r, c)
    decreases 8 - c
  {
    if c < 8 {
      RowMaterialSwapped(g, r, c + 1);
    }
  }

  lemma {:induction false} MaterialFromSwapped(g: Grid, r: int)
    requires 0 <= r <= 8
    ensures MaterialFrom(ColorsSwapped(g), r) == -MaterialFrom(g, r)
    decreases 8 - r
  {
    if r < 8 {
      MaterialFromSwapped(g, r + 1);
      RowMaterialSwapped(g, r, 0);
    }
  }

  /** Exchanging the colours of all pieces negates scoreboard_simple. */
  lemma ScoreSimpleSwapped(g: Grid)
    ensures ScoreSimple(ColorsSwapped(g)) == -ScoreSimple(g)
  {
    MaterialFromSwapped(g, 0);
  }

  /** Black's tables are white's with the rows reversed: a black piece on
      row r scores what a white piece of its kind scores on row 7 - r. */
  lemma BlackTablesReversed(k: Kind, r: int, c: int)
    requires k != King && OnBoard(r, c)
    ensures PositionTable(Black, k)[r][c] == PositionTable(White, k)[7 - r][c]
    ensures PositionTable(White, k)[r][c] == PositionTable(Black, k)[7 - r][c]
  {
  }

  /** A king scores nothing: its value is 0 and it has no table. */
  lemma KingScoresNothing(c: Color, r: int, col: int)
    requires OnBoard(r, col)
    ensures SquareValue(Occupied(c, King), r, col) == 0.0 && SquareMaterial(Occupied(c, King)) == 0
  {
  }

  lemma {:induction false} RowValueAgree(g: Grid, h: Grid, r: int, c: int)
    requires 0 <= r < 8 && 0 <= c <= 8
    requires forall j | c <= j < 8 :: SquareValue(g[r][j], r, j) == SquareValue(h[r][j], r, j)
    ensures RowValue(g, r, c) == RowValue(h, r, c)
    decreases 8 - c
  {
    if c < 8 {
      RowValueAgree(g, h, r, c + 1);
    }
  }

  lemma {:induction false} ValueFromAgree(g: Grid, h: Grid, r: int)
    requires 0 <= r <= 8
    requires forall i, j | r <= i < 8 && 0 <= j < 8 :: SquareValue(g[i][j], i, j) == SquareValue(h[i][j], i, j)
    ensures ValueFrom(g, r) == ValueFrom(h, r)
    decreases 8 - r
  {
    if r < 8 {
      RowValueAgree(g, h, r, 0);
      ValueFromAgree(g, h, r + 1);
    }
  }

  lemma {:induction false} RowMaterialAgree(g: Grid, h: Grid, r: int, c: int)
    requires 0 <= r < 8 && 0 <= c <= 8
    requires forall j | c <= j < 8 :: SquareMaterial(g[r][j]) == SquareMaterial(h[r][j])
    ensures RowMaterial(g, r, c) == RowMaterial(h, r, c)
    decreases 8 - c
  {
    if c < 8 {
      RowMaterialAgree(g, h, r, c + 1);
    }
  }

  lemma {:induction false} MaterialFromAgree(g: Grid, h: Grid, r: int)
    requires 0 <= r <= 8
    requires forall i, j | r <= i < 8 && 0 <= j < 8 :: SquareMaterial(g[i][j]) == SquareMaterial(h[i][j])
    ensures MaterialFrom(g, r) == MaterialFrom(h, r)
    decreases 8 - r
  {
    if r < 8 {
      RowMaterialAgree(g, h, r, 0);
      MaterialFromAgree(g, h, r + 1);
    }
  }

  /** Removing a king from the board changes neither score. */
  lemma KingsAddNothing(g: Grid, r: int, c: int)
    requires OnBoard(r, c) && g[r][c].Occupied? && g[r][c].kind == King
    ensures BoardValue(Put(g, r, c, Empty)) == BoardValue(g)
    ensures ScoreSimple(Put(g, r, c, Empty)) == ScoreSimple(g)
  {
    var h := Put(g, r, c, Empty);
    ValueFromAgree(g, h, 0);
    MaterialFromAgree(g, h, 0);
  }

  /** The board seen from the other side: rows reversed and colours
      exchanged. */
  function Mirrored(g: Grid): Grid
  {
    seq(8, r requires 0 <= r < 8 => seq(8, c requires 0 <= c < 8 => SwapColor(g[7 - r][c])))
  }

  lemma {:induction false} RowValueMirrored(g: Grid, r: int, c: int)
    requires 0 <= r < 8 && 0 <= c <= 8
    ensures RowValue(Mirrored(g), r, c) == -RowValue(g, 7 - r, c)
    decreases 8 - c
  {
    if c < 8 {
      RowValueMirrored(g, r, c + 1);
      var s := g[7 - r][c];
      if s.Occupied? && s.kind != King {
        BlackTablesReversed(s.kind, r, c);
      }
    }
  }

  /** Rows r..7 of the mirrored board are rows 0..7-r of the original with
      the sign flipped. */
  lemma {:induction false} ValueFromMirrored(g: Grid, r: int)
    requires 0 <= r <= 8
    ensures ValueFrom(Mirrored(g), r) == -(ValueFrom(g, 0) - ValueFrom(g, 8 - r))
    decreases 8 - r
  {
    if r < 8 {
      ValueFromMirrored(g, r + 1);
      RowValueMirrored(g, r, 0);
      assert ValueFrom(g, 7 - r) == RowValue(g, 7 - r, 0) + ValueFrom(g, 8 - r);
    }
  }

  /** Mirroring the board negates the material-and-position sum. */
  lemma BoardValueMirrored(g: Grid)
    ensures BoardValue(Mirrored(g)) == -BoardValue(g)
  {
    ValueFromMirrored(g, 0);
  }

  /** The terminal values: checkmate is scored from white's side whoever is
      to move, stalemate is 0. */
  lemma ScoreNormalTerminal(v: Game)
    requires CanGenerate(v) && (v.checkmate || v.stalemate)
    ensures var e := ScoreNormal(v);
      && (v.checkmate && v.whiteToMove ==> e.score == -400.0)
      && (v.checkmate && !v.whiteToMove ==> e.score == 400.0)
      && (!v.checkmate ==> e.score == 0.0)
      && e.state == v
  {
  }

  /** When no pin entry names an opponent's piece, is_check leaves the state
      as it found it, so both of scoreboard_normal's probes agree. */
  lemma IsCheckStable(v: Game)
    requires CanGenerate(v) && KingsCached(v) && NoPinOn(v, Opponent(SideColor(v.whiteToMove)))
    ensures IsCheck(v).state == v
  {
    var f := v.(whiteToMove := !v.whiteToMove);
    assert SideColor(f.whiteToMove) == Opponent(SideColor(v.whiteToMove));
    AllMovesNoPins(f);
  }

  /**
   * Away from checkmate and stalemate, scoreboard_normal is the board sum
   * seen from the side to move (the sum for white, its negation for black),
   * plus 2 whenever the side to move is in check.
   */
  lemma ScoreNormalValue(v: Game)
    requires CanGenerate(v) && KingsCached(v) && NoPinOn(v, Opponent(SideColor(v.whiteToMove)))
    requires !v.checkmate && !v.stalemate
    ensures var e := ScoreNormal(v);
      && e.score == (if v.whiteToMove then BoardValue(v.grid) else -BoardValue(v.grid)) +
                    (if IsCheck(v).hit then 2.0 else 0.0)
      && e.state == v
  {
    IsCheckStable(v);
  }

  /** The non-terminal score is symmetric: mirroring the board and handing
      the move to the other side leaves the side-to-move view of the board
      sum unchanged. */
  lemma MoverViewMirrored(v: Game)
    ensures var w := v.(grid := Mirrored(v.grid), whiteToMove := !v.whiteToMove);
      (if w.whiteToMove then BoardValue(w.grid) else -BoardValue(w.grid)) ==
      (if v.whiteToMove then BoardValue(v.grid) else -BoardValue(v.grid))
  {
    BoardValueMirrored(v.grid);
  }
}

=== FILE: gamestate.dfy ===
/**
 * chessEngine.py's Gamestate as a class: the board is an 8x8 array written
 * in place, the other attributes are fields the methods reassign. Every
 * method is proved to act as the function of the same name in Rules,
 * Attacks, Generation, Legality or Naive acts on Value(), the whole state
 * as a Game; the properties of those functions are proved there.
 */
module Engine {
  import opened Pieces
  import opened Moves
  import opened Rules
  import opened Attacks
  import opened Generation
  import opened Legality
  import opened Generated
  import opened Naive

  class Gamestate {
    const board: array2<Square>
    var whiteToMove: bool
    var moveLog: seq<Move>
    var whiteKingLocation: Coord
    var blackKingLocation: Coord
    var checkmate: bool
    var stalemate: bool
    var inCheck: bool
    var pins: seq<Ray>
    var checks: seq<Ray>
    var currentCastlingRight: Rights
    var enpassantPossible: Option<Coord>
    var enpassantLog: seq<Option<Coord>>
    var castleRightsLog: seq<Rights>

    /** The board is 8 by 8 (the array is never replaced). */
    predicate Valid()
    {
      board.Length0 == 8 && board.Length1 == 8
    }

    /** The board holds grid g, square by square. */
    predicate Holds(g: Grid)
      reads board
      requires Valid()
    {
      forall i, j | 0 <= i < 8 && 0 <= j < 8 :: board[i, j] == g[i][j]
    }

    /** The board as a grid of squares. */
    function Cells(): Grid
      reads board
      requires Valid()
    {
      seq(8, i requires 0 <= i < 8 reads board => seq(8, j requires 0 <= j < 8 reads board => board[i, j]))
    }

    /** The whole state. */
    function Value(): Game
      reads this, board
      requires Valid()
    {
      Game(Cells(), whiteToMove, moveLog, whiteKingLocation, blackKingLocation,
           checkmate, stalemate, inCheck, pins, checks, currentCastlingRight,
           enpassantPossible, enpassantLog, castleRightsLog)
    }

    /** __init__: the initial position, white to move, all four rights held. */
    constructor ()
      ensures Valid() && Value() == Initial()
    {
      board := new Square[8, 8]((i, j) requires 0 <= i < 8 && 0 <= j < 8 => StartGrid()[i][j]);
      whiteToMove := true;
      moveLog := [];
      blackKingLocation := Coord(0, 4);
      whiteKingLocation := Coord(7, 4);
      checkmate := false;
      stalemate := false;
      inCheck := false;
      pins := [];
      checks := [];
      currentCastlingRight := Rights(true, true, true, true);
      enpassantPossible := None;
      enpassantLog := [None];
      castleRightsLog := [Rights(true, true, true, true)];
      new;
      GridExt(Cells(), StartGrid());
    }

    /** One board write. */
    method Set(r: int, c: int, s: Square)
      requires Valid() && OnBoard(r, c)
      modifies board
      ensures Cells() == Put(old(Cells()), r, c, s)
    {
      board[r, c] := s;
      GridExt(Cells(), Put(old(Cells()), r, c, s));
    }

    /** make_move (chessEngine.py): the board writes and the bookkeeping touch
        disjoint state and neither reads what the other writes, so they are
        made in two steps. */
    method MakeMove(m: Move)
      requires Valid() && Applicable(m)
      modifies this, board
      ensures Value() == Rules.MakeMove(old(Value()), m)
    {
      RecordMove(m);
      PlaceMove(m);
    }

    /** The board writes of make_move, in the engine's order. */
    method PlaceMove(m: Move)
      requires Valid() && Applicable(m)
      modifies board
      ensures Cells() == ApplyGrid(old(Cells()), m)
    {
      Set(m.startRow, m.startCol, Empty);
      Set(m.endRow, m.endCol, m.pieceMoved);
      if m.isPawnPromotion {
        Set(m.endRow, m.endCol, Occupied(m.pieceMoved.color, Queen));
      }
      if m.isEnpassantMove {
        Set(m.startRow, m.endCol, Empty);
      }
      if m.isCastleMove {
        MoveRookAcross(m);
      }
    }

    /** The rook half of a castle in make_move. */
    method MoveRookAcross(m: Move)
      requires Valid() && Applicable(m) && m.isCastleMove
      modifies board
      ensures Cells() == RookAcross(old(Cells()), m)
    {
      if m.endCol - m.startCol == 2 {
        Set(m.endRow, m.endCol - 1, board[m.endRow, m.endCol + 1]);
        Set(m.endRow, m.endCol + 1, Empty);
      } else {
        Set(m.endRow, m.endCol + 1, board[m.endRow, m.endCol - 2]);
        Set(m.endRow, m.endCol - 2, Empty);
      }
    }

    /** The attribute updates of make_move: log, king caches, side to move,
        en-passant target and castling rights with their logs. */
    method RecordMove(m: Move)
      requires Applicable(m)
      modifies this`moveLog, this`whiteKingLocation, this`blackKingLocation, this`whiteToMove,
        this`enpassantPossible, this`enpassantLog, this`currentCastlingRight, this`castleRightsLog
      ensures moveLog == old(moveLog) + [m] && whiteToMove == !old(whiteToMove)
      ensures whiteKingLocation == if m.pieceMoved == Occupied(White, King) then m.End() else old(whiteKingLocation)
      ensures blackKingLocation == if m.pieceMoved == Occupied(Black, King) then m.End() else old(blackKingLocation)
      ensures enpassantPossible == EpTarget(m) && enpassantLog == old(enpassantLog) + [EpTarget(m)]
      ensures currentCastlingRight == Rules.UpdateCastleRights(old(currentCastlingRight), m)
      ensures castleRightsLog == old(castleRightsLog) + [currentCastlingRight]
    {
      moveLog := moveLog + [m];
      if m.pieceMoved == Occupied(White, King) {
        whiteKingLocation := m.End();
      } else if m.pieceMoved == Occupied(Black, King) {
        blackKingLocation := m.End();
      }
      whiteToMove := !whiteToMove;
      var ep := None;
      if m.pieceMoved.Occupied? && m.pieceMoved.kind == Pawn &&
         (m.startRow - m.endRow == 2 || m.endRow - m.startRow == 2) {
        ep := Some(Coord((m.startRow + m.endRow) / 2, m.endCol));
      }
      enpassantPossible, enpassantLog := ep, enpassantLog + [ep];
      UpdateCastleRights(m);
      castleRightsLog := castleRightsLog + [currentCastlingRight];
    }

    /** update_castle_rights: only the current rights change. */
    method UpdateCastleRights(m: Move)
      modifies this`currentCastlingRight
      ensures currentCastlingRight == Rules.UpdateCastleRights(old(currentCastlingRight), m)
    {
      if m.pieceMoved == Occupied(White, King) {
        currentCastlingRight := currentCastlingRight.(whiteKingCastle := false);
        currentCastlingRight := currentCastlingRight.(whiteQueenCastle := false);
      } else if m.pieceMoved == Occupied(Black, King) {
        currentCastlingRight := currentCastlingRight.(blackKingCastle := false);
        currentCastlingRight := currentCastlingRight.(blackQueenCastle := false);
      } else if m.pieceMoved == Occupied(White, Rook) || m.pieceCaptured == Occupied(White, Rook) {
        if m.startRow == 7 {
          if m.startCol == 0 {
            currentCastlingRight := currentCastlingRight.(whiteQueenCastle := false);
          } else if m.startCol == 7 {
            currentCastlingRight := currentCastlingRight.(whiteKingCastle := false);
          }
        }
      } else if m.pieceMoved == Occupied(Black, Rook) || m.pieceCaptured == Occupied(Black, Rook) {
        if m.startRow == 7 {
          if m.startCol == 0 {
            currentCastlingRight := currentCastlingRight.(blackQueenCastle := false);
          }
          // The king-side branch writes an attribute nothing reads.
        }
      }
    }

    /** undo_move: on an empty move log nothing changes. */
    method UndoMove()
      requires Valid() && Consistent(Value())
      modifies this, board
      ensures Value() == Rules.UndoMove(old(Value()))
    {
      ghost var v := Value();
      if |moveLog| != 0 {
        var m := moveLog[|moveLog| - 1];
        assert Applicable(m);
        UnrecordMove(m);
        TakeBackMove(m);
        assert Cells() == RevertGrid(v.grid, m);
      }
    }

    /** The board writes of undo_move for the popped move, in the engine's order. */
    method TakeBackMove(m: Move)
      requires Valid() && Applicable(m)
      modifies board
      ensures Cells() == RevertGrid(old(Cells()), m)
    {
      Set(m.startRow, m.startCol, m.pieceMoved);
      Set(m.endRow, m.endCol, m.pieceCaptured);
      if m.isEnpassantMove {
        Set(m.endRow, m.endCol, Empty);
        Set(m.startRow, m.endCol, m.pieceCaptured);
      }
      if m.isCastleMove {
        MoveRookBack(m);
      }
    }

    /** The rook half of a castle in undo_move. */
    method MoveRookBack(m: Move)
      requires Valid() && Applicable(m) && m.isCastleMove
      modifies board
      ensures Cells() == RookBack(old(Cells()), m)
    {
      if m.endCol - m.startCol == 2 {
        Set(m.endRow, m.endCol + 1, board[m.endRow, m.endCol - 1]);
        Set(m.endRow, m.endCol - 1, Empty);
      } else {
        Set(m.endRow, m.endCol - 2, board[m.endRow, m.endCol + 1]);
        Set(m.endRow, m.endCol + 1, Empty);
      }
    }

    /** The attribute updates of undo_move: the logs are popped and the state
        they snapshot restored, the side to move flips back, the end flags clear. */
    method UnrecordMove(m: Move)
      requires |moveLog| > 0 && m == moveLog[|moveLog| - 1]
      requires |enpassantLog| == |castleRightsLog| == |moveLog| + 1
      modifies this`moveLog, this`whiteKingLocation, this`blackKingLocation, this`whiteToMove,
        this`enpassantPossible, this`enpassantLog, this`currentCastlingRight, this`castleRightsLog,
        this`checkmate, this`stalemate
      ensures moveLog == old(moveLog)[..|old(moveLog)| - 1] && whiteToMove == !old(whiteToMove)
      ensures whiteKingLocation == if m.pieceMoved == Occupied(White, King) then m.Start() else old(whiteKingLocation)
      ensures blackKingLocation == if m.pieceMoved == Occupied(Black, King) then m.Start() else old(blackKingLocation)
      ensures enpassantLog == old(enpassantLog)[..|old(enpassantLog)| - 1]
      ensures enpassantPossible == enpassantLog[|enpassantLog| - 1]
      ensures castleRightsLog == old(castleRightsLog)[..|old(castleRightsLog)| - 1]
      ensures currentCastlingRight == castleRightsLog[|castleRightsLog| - 1]
      ensures !checkmate && !stalemate
    {
      var epLog := enpassantLog[..|enpassantLog| - 1];
      var rightsLog := castleRightsLog[..|castleRightsLog| - 1];
      moveLog := moveLog[..|moveLog| - 1];
      whiteToMove := !whiteToMove;
      if m.pieceMoved == Occupied(White, King) {
        whiteKingLocation := m.Start();
      } else if m.pieceMoved == Occupied(Black, King) {
        blackKingLocation := m.Start();
      }
      enpassantLog, enpassantPossible := epLog, epLog[|epLog| - 1];
      castleRightsLog, currentCastlingRight := rightsLog, rightsLog[|rightsLog| - 1];
      checkmate := false;
      stalemate := false;
    }

    /** The cached square of the king of the side to move. */
    function MoverKing(): Coord
      reads this
    {
      if whiteToMove then whiteKingLocation else blackKingLocation
    }

    /** check_pins_and_checks: reads the board, the side to move and its king
        cache, and changes nothing. The board is read through a snapshot,
        which nothing writes while the scan runs. */
    method CheckPinsAndChecks() returns (s: Scan)
      requires Valid()
      ensures s == PinsAndChecks(Cells(), MoverKing(), SideColor(whiteToMove))
    {
      var g := Cells();
      var ally := SideColor(whiteToMove);
      var king := MoverKing();
      var pinList: seq<Ray> := [];
      var checkList: seq<Ray> := [];
      var inCheck := false;
      ghost var rays := ScanDirs(g, king, ally, 0);
      var i := 0;
      while i < 8
        invariant 0 <= i <= 8
        invariant pinList + ScanDirs(g, king, ally, i).pins == rays.pins
        invariant checkList + ScanDirs(g, king, ally, i).checks == rays.checks
        invariant inCheck <==> |checkList| > 0
      {
        var hit := ScanDirection(g, king, ally, i);
        ghost var rest := ScanDirs(g, king, ally, i + 1);
        match hit {
          case NoHit =>
          case PinHit(p) =>
            AppendAssoc(pinList, [p], rest.pins);
            pinList := pinList + [p];
          case CheckHit(c) =>
            AppendAssoc(checkList, [c], rest.checks);
            inCheck := true;
            checkList := checkList + [c];
        }
        i := i + 1;
      }
      assert checkList == rays.checks;
      checkList, inCheck := ScanKnights(g, king, ally, checkList, inCheck);
      s := Scan(inCheck, pinList, checkList);
    }

    /** The inner loop of check_pins_and_checks for direction i: walks out
        from the king, remembers the first ally piece as a possible pin, and
        stops at the edge, a second ally piece or the first enemy piece. */
    method ScanDirection(g: Grid, king: Coord, ally: Color, i: int) returns (hit: Hit)
      requires 0 <= i < 8
      ensures hit == RayScan(g, king, ally, i, 1, None)
    {
      var enemy := Opponent(ally);
      ghost var result := RayScan(g, king, ally, i, 1, None);
      var possiblePin: Option<Ray> := None;
      hit := NoHit;
      var j := 1;
      while j < 8
        invariant 1 <= j <= 8
        invariant RayScan(g, king, ally, i, j, possiblePin) == result
      {
        var r := RayAt(king, i, j);
        if OnBoard(r.row, r.col) {
          var p := g[r.row][r.col];
          if p.Occupied? && p.color == ally && p.kind != King {
            if possiblePin == None {
              possiblePin := Some(r);
            } else {
              break;
            }
          } else if p.Occupied? && p.color == enemy {
            if Attacks.Attacks(i, j, p.kind, enemy) {
              if possiblePin == None {
                hit := CheckHit(r);
                break;
              } else {
                hit := PinHit(possiblePin.value);
                break;
              }
            } else {
              break;
            }
          }
        } else {
          break;
        }
        j := j + 1;
      }
    }

    /** The knight loop of check_pins_and_checks: each enemy knight a
        knight's jump from the king is appended to the checks and sets the
        in-check flag. */
    method ScanKnights(g: Grid, king: Coord, ally: Color, checks0: seq<Ray>, inCheck0: bool)
      returns (checkList: seq<Ray>, inCheck: bool)
      requires inCheck0 <==> |checks0| > 0
      ensures checkList == checks0 + KnightChecks(g, king, ally, 0)
      ensures inCheck <==> |checkList| > 0
    {
      checkList, inCheck := checks0, inCheck0;
      ghost var full := checks0 + KnightChecks(g, king, ally, 0);
      var n := 0;
      while n < 8
        invariant 0 <= n <= 8
        invariant checkList + KnightChecks(g, king, ally, n) == full
        invariant inCheck <==> |checkList| > 0
      {
        checkList, inCheck := KnightProbe(g, king, ally, n, checkList, inCheck);
        n := n + 1;
      }
    }

    /** Offset n of the knight scan: an enemy knight there is a check. */
    static method KnightProbe(g: Grid, king: Coord, ally: Color, n: int, checks0: seq<Ray>, inCheck0: bool)
      returns (checkList: seq<Ray>, inCheck: bool)
      requires 0 <= n < 8 && (inCheck0 <==> |checks0| > 0)
      ensures checkList + KnightChecks(g, king, ally, n + 1) == checks0 + KnightChecks(g, king, ally, n)
      ensures inCheck <==> |checkList| > 0
    {
      var enemy := Opponent(ally);
      checkList, inCheck := checks0, inCheck0;
      var r := Ray(king.row + KnightRows[n], king.col + KnightCols[n], KnightRows[n], KnightCols[n]);
      if OnBoard(r.row, r.col) {
        var p := g[r.row][r.col];
        if p.Occupied? && p.color == enemy && p.kind == Knight {
          AppendAssoc(checkList, [r], KnightChecks(g, king, ally, n + 1));
          inCheck := true;
          checkList := checkList + [r];
        }
      }
    }

    // -------------------------------------------------------------------
    // The move generators: each appends to the caller's list (modelled as
    // the list passed in and the longer list returned) and consumes the
    // entry for its square from the pin list.

    /** The pin lookup that opens get_pawn_moves, get_rook_moves,
        get_knight_moves and get_bishop_moves: the pin list is searched from
        its end for square (r, c); the entry found gives the pin direction,
        and is removed (list.remove: its first equal goes) when `remove`
        holds. */
    method LookUpPin(r: int, c: int, remove: bool) returns (pinned: bool, dr: int, dc: int)
      modifies this`pins
      ensures PinLookup(pinned, dr, dc, pins) == TakePin(old(pins), r, c, remove)
    {
      pinned, dr, dc := false, 0, 0;
      var i := |pins| - 1;
      while i >= 0
        invariant -1 <= i < |pins| && pins == old(pins)
        invariant LastPinIndex(pins, r, c, |pins|) == LastPinIndex(pins, r, c, i + 1)
      {
        if pins[i].row == r && pins[i].col == c {
          pinned, dr, dc := true, pins[i].dr, pins[i].dc;
          if remove {
            pins := RemoveFirst(pins, pins[i]);
          }
          break;
        }
        i := i - 1;
      }
    }

    /** get_pawn_moves: the pin lookup, then the moves it allows. */
    method GetPawnMoves(r: int, c: int, moves: seq<Move>) returns (out: seq<Move>)
      requires Valid() && OnBoard(r, c)
      requires whiteToMove ==> r >= 1
      requires !whiteToMove ==> r <= 6
      modifies this`pins
      ensures var gen := PawnMoves(old(Value()), r, c); out == moves + gen.moves && Value() == gen.state
    {
      ghost var v := Value();
      var pinned, dr, dc := LookUpPin(r, c, true);
      out := PawnTargets(v, r, c, pinned, dr, dc, moves);
    }

    /** The body of get_pawn_moves after the pin lookup. */
    method PawnTargets(ghost v: Game, r: int, c: int, pinned: bool, dr: int, dc: int, moves: seq<Move>) returns (out: seq<Move>)
      requires Valid() && v.grid == Cells() && v.whiteToMove == whiteToMove && v.ep == enpassantPossible
      requires OnBoard(r, c)
      requires whiteToMove ==> r >= 1
      requires !whiteToMove ==> r <= 6
      ensures out == moves + PawnList(v, r, c, PinLookup(pinned, dr, dc, pins))
    {
      var g := Cells();
      var f := if whiteToMove then -1 else 1;
      var ok := !pinned || (dr == f && dc == 0);
      // Both colours' en-passant captures test the white forward direction.
      var okEp := !pinned || (dr == -1 && dc == 0);
      out := PushPawn(g, r, c, f, if whiteToMove then 6 else 1, ok, moves);
      ghost var push := PawnPush(g, r, c, f, if whiteToMove then 6 else 1, ok);
      ghost var left: seq<Move> := [];
      if c - 1 >= 0 {
        left := PawnCapture(v, r, c, f, c - 1, ok, okEp);
        out := CapturePawn(v, g, whiteToMove, enpassantPossible, r, c, f, c - 1, ok, okEp, out);
        AppendAssoc(moves, push, left);
      } else {
        AppendEmpty(push);
      }
      assert out == moves + (push + left);
      ghost var right: seq<Move> := [];
      if c + 1 <= 7 {
        right := PawnCapture(v, r, c, f, c + 1, ok, okEp);
        out := CapturePawn(v, g, whiteToMove, enpassantPossible, r, c, f, c + 1, ok, okEp, out);
        AppendAssoc(moves, push + left, right);
      } else {
        AppendEmpty(push + left);
      }
      assert out == moves + (push + left + right);
      assert PawnList(v, r, c, PinLookup(pinned, dr, dc, pins)) == push + left + right;
    }

    /** The forward steps of get_pawn_moves: one square if it is empty and
        the pin allows it, then two from the home row if that is empty too. */
    static method PushPawn(g: Grid, r: int, c: int, f: int, home: int, ok: bool, moves: seq<Move>) returns (out: seq<Move>)
      requires OnBoard(r, c) && OnBoard(r + f, c) && (f == 1 || f == -1)
      requires r == home ==> OnBoard(r + 2 * f, c)
      ensures out == moves + PawnPush(g, r, c, f, home, ok)
    {
      out := moves;
      if g[r + f][c] == Empty {
        if ok {
          out := out + [Mv(g, r, c, r + f, c)];
          if r == home && g[r + 2 * f][c] == Empty {
            out := out + [Mv(g, r, c, r + 2 * f, c)];
          }
        }
      }
    }

    /** The two diagonal captures of get_pawn_moves onto column cc: an enemy
        piece there, then the en-passant target. */
    static method CapturePawn(ghost v: Game, g: Grid, white: bool, ep: Option<Coord>, r: int, c: int, f: int, cc: int,
                              ok: bool, okEp: bool, moves: seq<Move>)
      returns (out: seq<Move>)
      requires v.grid == g && v.whiteToMove == white && v.ep == ep
      requires OnBoard(r, c) && OnBoard(r + f, cc)
      ensures out == moves + PawnCapture(v, r, c, f, cc, ok, okEp)
    {
      out := moves;
      if IsColor(g[r + f][cc], EnemyOf(white)) {
        if ok {
          out := out + [Mv(g, r, c, r + f, cc)];
        }
      }
      if ep == Some(Coord(r + f, cc)) {
        if okEp {
          out := out + [Create(Coord(r, c), Coord(r + f, cc), g, true, false)];
        }
      }
    }

    /** One direction of get_rook_moves / get_bishop_moves: the inner
        `for k in range(1, 8)` loop. An off-board square is passed over
        without leaving the loop; a direction the pin forbids ends at its
        first on-board square. */
    method SlideDirection(g: Grid, r: int, c: int, i: int, allowed: bool, enemy: Color, moves: seq<Move>) returns (out: seq<Move>)
      requires OnBoard(r, c) && 0 <= i < 8
      ensures out == moves + SlideRay(g, r, c, i, 1, allowed, enemy)
    {
      ghost var full := moves + SlideRay(g, r, c, i, 1, allowed, enemy);
      out := moves;
      var k := 1;
      while k < 8
        invariant 1 <= k <= 8
        invariant out + SlideRay(g, r, c, i, k, allowed, enemy) == full
      {
        var stop;
        out, stop := SlideSquare(g, r, c, i, k, allowed, enemy, out);
        if stop {
          break;
        }
        k := k + 1;
      }
      AppendEmpty(out);
    }

    /** Square k of direction i: an empty square is collected and the ray
        goes on; an enemy piece is collected and ends the ray; an own piece,
        or any square when the pin forbids the direction, ends it; a square
        off the board is passed over. */
    static method SlideSquare(g: Grid, r: int, c: int, i: int, k: int, allowed: bool, enemy: Color, moves: seq<Move>)
      returns (out: seq<Move>, stop: bool)
      requires OnBoard(r, c) && 0 <= i < 8 && 1 <= k < 8
      ensures stop ==> out == moves + SlideRay(g, r, c, i, k, allowed, enemy)
      ensures !stop ==> out + SlideRay(g, r, c, i, k + 1, allowed, enemy) == moves + SlideRay(g, r, c, i, k, allowed, enemy)
    {
      out, stop := moves, false;
      var er := r + DirRows[i] * k;
      var ec := c + DirCols[i] * k;
      if 0 <= er < 8 && 0 <= ec < 8 {
        if allowed {
          var endPiece := g[er][ec];
          if endPiece == Empty {
            AppendAssoc(out, [Mv(g, r, c, er, ec)], SlideRay(g, r, c, i, k + 1, allowed, enemy));
            out := out + [Mv(g, r, c, er, ec)];
          } else if IsColor(endPiece, enemy) {
            out, stop := out + [Mv(g, r, c, er, ec)], true;
          } else {
            AppendEmpty(out);
            stop := true;
          }
        } else {
          AppendEmpty(out);
          stop := true;
        }
      } else {
        SlideRayOff(g, r, c, i, k, allowed, enemy);
      }
    }

    /** The directions lo..hi-1 of a slider, each as far as the pin allows. */
    method SlideAlong(g: Grid, r: int, c: int, lo: int, hi: int, pinned: bool, dr: int, dc: int, enemy: Color, moves: seq<Move>)
      returns (out: seq<Move>)
      requires OnBoard(r, c) && 0 <= lo <= hi <= 8
      ensures out == moves + SlideDirs(g, r, c, lo, hi, PinLookup(pinned, dr, dc, pins), enemy)
    {
      ghost var p := PinLookup(pinned, dr, dc, pins);
      ghost var full := moves + SlideDirs(g, r, c, lo, hi, p, enemy);
      out := moves;
      var i := lo;
      while i < hi
        invariant lo <= i <= hi
        invariant out + SlideDirs(g, r, c, i, hi, p, enemy) == full
      {
        out := SlideStep(g, r, c, i, hi, pinned, dr, dc, enemy, out, p);
        i := i + 1;
      }
      AppendEmpty(out);
    }

    /** Direction i of the slider loop, appended to `moves`: a pinned piece
        moves only along the pin, either way. */
    method SlideStep(g: Grid, r: int, c: int, i: int, hi: int, pinned: bool, dr: int, dc: int, enemy: Color,
                     moves: seq<Move>, ghost p: PinLookup) returns (out: seq<Move>)
      requires OnBoard(r, c) && 0 <= i < hi <= 8 && p.pinned == pinned && p.dr == dr && p.dc == dc
      ensures out + SlideDirs(g, r, c, i + 1, hi, p, enemy) == moves + SlideDirs(g, r, c, i, hi, p, enemy)
    {
      var allowed := !pinned || (dr == DirRows[i] && dc == DirCols[i]) || (dr == -DirRows[i] && dc == -DirCols[i]);
      assert allowed == AlongPin(p, i);
      out := SlideDirection(g, r, c, i, allowed, enemy, moves);
      AppendStep(out, moves, SlideRay(g, r, c, i, 1, allowed, enemy), SlideDirs(g, r, c, i + 1, hi, p, enemy),
                 SlideDirs(g, r, c, i, hi, p, enemy), moves + SlideDirs(g, r, c, i, hi, p, enemy));
    }

    /** get_rook_moves: the pin entry stays when the piece is a queen. */
    method GetRookMoves(r: int, c: int, moves: seq<Move>) returns (out: seq<Move>)
      requires Valid() && OnBoard(r, c)
      modifies this`pins
      ensures var gen := RookMoves(old(Value()), r, c); out == moves + gen.moves && Value() == gen.state
    {
      var g := Cells();
      var pinned, dr, dc := LookUpPin(r, c, !(g[r][c].Occupied? && g[r][c].kind == Queen));
      out := SlideAlong(g, r, c, 0, 4, pinned, dr, dc, EnemyOf(whiteToMove), moves);
    }

    /** get_bishop_moves. */
    method GetBishopMoves(r: int, c: int, moves: seq<Move>) returns (out: seq<Move>)
      requires Valid() && OnBoard(r, c)
      modifies this`pins
      ensures var gen := BishopMoves(old(Value()), r, c); out == moves + gen.moves && Value() == gen.state
    {
      var g := Cells();
      var pinned, dr, dc := LookUpPin(r, c, true);
      out := SlideAlong(g, r, c, 4, 8, pinned, dr, dc, EnemyOf(whiteToMove), moves);
    }

    /** get_queen_moves: the bishop generator, then the rook generator. */
    method GetQueenMoves(r: int, c: int, moves: seq<Move>) returns (out: seq<Move>)
      requires Valid() && OnBoard(r, c)
      modifies this`pins
      ensures var gen := QueenMoves(old(Value()), r, c); out == moves + gen.moves && Value() == gen.state
    {
      ghost var v := Value();
      out := GetBishopMoves(r, c, moves);
      ghost var b := BishopMoves(v, r, c);
      ghost var q := RookMoves(b.state, r, c);
      out := GetRookMoves(r, c, out);
      AppendAssoc(moves, b.moves, q.moves);
    }

    /** The inner loop of get_knight_moves for one target (er, ec), which
        does not change with k. */
    method KnightDirection(g: Grid, r: int, c: int, er: int, ec: int, pinned: bool, enemy: Color, moves: seq<Move>)
      returns (out: seq<Move>)
      requires OnBoard(r, c)
      ensures out == moves + KnightRepeat(g, r, c, er, ec, 1, pinned, enemy)
    {
      ghost var full := moves + KnightRepeat(g, r, c, er, ec, 1, pinned, enemy);
      out := moves;
      var k := 1;
      while k < 8
        invariant 1 <= k <= 8
        invariant out + KnightRepeat(g, r, c, er, ec, k, pinned, enemy) == full
      {
        if 0 <= er < 8 && 0 <= ec < 8 {
          if !pinned {
            var endPiece := g[er][ec];
            if endPiece == Empty {
              AppendAssoc(out, [Mv(g, r, c, er, ec)], KnightRepeat(g, r, c, er, ec, k + 1, pinned, enemy));
              out := out + [Mv(g, r, c, er, ec)];
            } else if IsColor(endPiece, enemy) {
              out := out + [Mv(g, r, c, er, ec)];
              break;
            } else {
              AppendEmpty(out);
              break;
            }
          } else {
            AppendEmpty(out);
            break;
          }
        }
        k := k + 1;
      }
    }

    /** get_knight_moves: a pinned knight has no moves. */
    method GetKnightMoves(r: int, c: int, moves: seq<Move>) returns (out: seq<Move>)
      requires Valid() && OnBoard(r, c)
      modifies this`pins
      ensures var gen := KnightMoves(old(Value()), r, c); out == moves + gen.moves && Value() == gen.state
    {
      ghost var v := Value();
      var g := Cells();
      var pinned, _, _ := LookUpPin(r, c, true);
      assert pinned == TakePin(v.pins, r, c, true).pinned;
      out := KnightAll(g, r, c, 0, pinned, EnemyOf(whiteToMove), moves);
      assert Value() == v.(pins := pins);
    }

    /** The outer loop of get_knight_moves over the offsets lo..7. */
    method KnightAll(g: Grid, r: int, c: int, lo: int, pinned: bool, enemy: Color, moves: seq<Move>) returns (out: seq<Move>)
      requires OnBoard(r, c) && 0 <= lo <= 8
      ensures out == moves + KnightTargets(g, r, c, lo, pinned, enemy)
    {
      ghost var full := moves + KnightTargets(g, r, c, lo, pinned, enemy);
      out := moves;
      var n := lo;
      while n < 8
        invariant lo <= n <= 8
        invariant out + KnightTargets(g, r, c, n, pinned, enemy) == full
      {
        var er, ec := r + KnightRows[n], c + KnightCols[n];
        AppendAssoc(out, KnightRepeat(g, r, c, er, ec, 1, pinned, enemy), KnightTargets(g, r, c, n + 1, pinned, enemy));
        out := KnightDirection(g, r, c, er, ec, pinned, enemy, out);
        n := n + 1;
      }
      AppendEmpty(out);
    }

    /** get_king_moves: each on-board target not holding an own piece is
        probed by moving the mover's king cache there and running the pin and
        check scan; the cache is then set back to (r, c). */
    method GetKingMoves(r: int, c: int, moves: seq<Move>) returns (out: seq<Move>)
      requires Valid() && OnBoard(r, c)
      modifies this`whiteKingLocation, this`blackKingLocation
      ensures var gen := KingMoves(old(Value()), r, c); out == moves + gen.moves && Value() == gen.state
    {
      ghost var v := Value();
      var g := Cells();
      var ally := SideColor(whiteToMove);
      out := KingProbe(g, ally, r, c, 0, moves, KingVerdicts(g, ally, r, c));
      assert Value() == if KingProbes(g, ally, r, c, 0) then v.WithKing(ally, Coord(r, c)) else v;
    }

    /** The loop of get_king_moves over targets lo..7, whose verdicts are
        `verdicts`. */
    method KingProbe(g: Grid, ally: Color, r: int, c: int, lo: int, moves: seq<Move>, ghost verdicts: seq<bool>)
        returns (out: seq<Move>)
      requires Valid() && Holds(g) && ally == SideColor(whiteToMove) && OnBoard(r, c) && 0 <= lo <= 8
      requires VerdictsOf(g, ally, r, c, verdicts)
      modifies this`whiteKingLocation, this`blackKingLocation
      ensures out == moves + KingTargets(g, ally, r, c, lo, verdicts)
      ensures whiteKingLocation == if ally == White && KingProbes(g, ally, r, c, lo) then Coord(r, c) else old(whiteKingLocation)
      ensures blackKingLocation == if ally == Black && KingProbes(g, ally, r, c, lo) then Coord(r, c) else old(blackKingLocation)
    {
      ghost var full := moves + KingTargets(g, ally, r, c, lo, verdicts);
      ghost var probed := false;
      out := moves;
      var k := lo;
      while k < 8
        invariant lo <= k <= 8
        invariant Holds(g)
        invariant out + KingTargets(g, ally, r, c, k, verdicts) == full
        invariant KingProbes(g, ally, r, c, lo) == (probed || KingProbes(g, ally, r, c, k))
        invariant whiteKingLocation == if ally == White && probed then Coord(r, c) else old(whiteKingLocation)
        invariant blackKingLocation == if ally == Black && probed then Coord(r, c) else old(blackKingLocation)
      {
        ghost var now;
        out, now := KingTarget(g, ally, r, c, k, out, verdicts);
        probed := probed || now;
        k := k + 1;
      }
    }

    /** Target k of get_king_moves, appended to `moves`: a square on the
        board that holds no ally piece is probed, and collected when the
        probe finds no check. */
    method KingTarget(g: Grid, ally: Color, r: int, c: int, k: int, moves: seq<Move>, ghost verdicts: seq<bool>)
        returns (out: seq<Move>, ghost probed: bool)
      requires Valid() && Holds(g) && ally == SideColor(whiteToMove) && OnBoard(r, c) && 0 <= k < 8
      requires VerdictsOf(g, ally, r, c, verdicts)
      modifies this`whiteKingLocation, this`blackKingLocation
      ensures out + KingTargets(g, ally, r, c, k + 1, verdicts) == moves + KingTargets(g, ally, r, c, k, verdicts)
      ensures KingProbes(g, ally, r, c, k) == (probed || KingProbes(g, ally, r, c, k + 1))
      ensures whiteKingLocation == if ally == White && probed then Coord(r, c) else old(whiteKingLocation)
      ensures blackKingLocation == if ally == Black && probed then Coord(r, c) else old(blackKingLocation)
    {
      var er := r + KingRows[k];
      var ec := c + KingCols[k];
      out := moves;
      probed := false;
      var safe := false;
      if 0 <= er < 8 && 0 <= ec < 8 {
        var endPiece := g[er][ec];
        if !IsColor(endPiece, ally) {
          safe := ProbeTarget(g, ally, r, c, er, ec);
          assert safe == KingVerdictAt(g, ally, r, c, k);
          if safe {
            out := out + [Mv(g, r, c, er, ec)];
          }
          probed := true;
        }
      }
      KingStep(g, ally, r, c, k, verdicts, safe);
      ghost var added := if KingCandidate(g, ally, er, ec) && safe then [Mv(g, r, c, er, ec)] else [];
      if added == [] {
        AppendEmpty(moves);
      }
      AppendStep(out, moves, added, KingTargets(g, ally, r, c, k + 1, verdicts), KingTargets(g, ally, r, c, k, verdicts),
                 moves + KingTargets(g, ally, r, c, k, verdicts));
    }

    /** One probe of get_king_moves: the mover's cache is moved to (er, ec),
        the scan runs, and the cache is set to (r, c). */
    method ProbeTarget(g: Grid, ally: Color, r: int, c: int, er: int, ec: int) returns (safe: bool)
      requires Valid() && Holds(g) && ally == SideColor(whiteToMove) && OnBoard(er, ec)
      modifies this`whiteKingLocation, this`blackKingLocation
      ensures safe == !PinsAndChecks(g, Coord(er, ec), ally).inCheck
      ensures whiteKingLocation == if ally == White then Coord(r, c) else old(whiteKingLocation)
      ensures blackKingLocation == if ally == Black then Coord(r, c) else old(blackKingLocation)
    {
      if ally == White {
        whiteKingLocation := Coord(er, ec);
      } else {
        blackKingLocation := Coord(er, ec);
      }
      assert Cells() == g by {
        forall i | 0 <= i < 8
          ensures Cells()[i] == g[i]
        {
          assert forall j | 0 <= j < 8 :: Cells()[i][j] == g[i][j];
        }
      }
      var scan := CheckPinsAndChecks();
      safe := !scan.inCheck;
      if ally == White {
        whiteKingLocation := Coord(r, c);
      } else {
        blackKingLocation := Coord(r, c);
      }
    }

    /** The moveFunctions table of __init__: the generator for the letter of
        the piece on (r, c). */
    method MoveFunction(r: int, c: int, moves: seq<Move>) returns (out: seq<Move>)
      requires Valid() && OnBoard(r, c) && board[r, c].Occupied?
      requires board[r, c].kind == Pawn ==> (whiteToMove ==> r >= 1) && (!whiteToMove ==> r <= 6)
      modifies this`pins, this`whiteKingLocation, this`blackKingLocation
      ensures var gen := PieceMoves(old(Value()), r, c); out == moves + gen.moves && Value() == gen.state
    {
      match board[r, c].kind {
        case Pawn => out := GetPawnMoves(r, c, moves);
        case Rook => out := GetRookMoves(r, c, moves);
        case Knight => out := GetKnightMoves(r, c, moves);
        case Bishop => out := GetBishopMoves(r, c, moves);
        case Queen => out := GetQueenMoves(r, c, moves);
        case King => out := GetKingMoves(r, c, moves);
      }
    }

    /** get_all_possible_moves: every piece of the side to move, row by row,
        adds its moves to one list. */
    method GetAllPossibleMoves() returns (moves: seq<Move>)
      requires Valid() && CanGenerate(Value())
      modifies this`pins, this`whiteKingLocation, this`blackKingLocation
      ensures var gen := AllMoves(old(Value())); moves == gen.moves && Value() == gen.state
    {
      moves := AllRows(0, []);
    }

    /** The outer loop of get_all_possible_moves, from row lo on. */
    method AllRows(lo: int, moves0: seq<Move>) returns (moves: seq<Move>)
      requires Valid() && CanGenerate(Value()) && 0 <= lo <= 8
      modifies this`pins, this`whiteKingLocation, this`blackKingLocation
      ensures var gen := AllFrom(old(Value()), lo, 0); moves == moves0 + gen.moves && Value() == gen.state
    {
      ghost var full := AllFrom(Value(), lo, 0);
      moves := moves0;
      var i := lo;
      while i < 8
        invariant lo <= i <= 8 && CanGenerate(Value())
        invariant moves + AllFrom(Value(), i, 0).moves == moves0 + full.moves
        invariant AllFrom(Value(), i, 0).state == full.state
      {
        moves := RowMoves(i, moves);
        i := i + 1;
      }
      assert AllFrom(Value(), 8, 0).moves == [];
      AppendEmpty(moves);
    }

    /** The inner loop of get_all_possible_moves over row i. */
    method RowMoves(i: int, moves0: seq<Move>) returns (moves: seq<Move>)
      requires Valid() && CanGenerate(Value()) && 0 <= i < 8
      modifies this`pins, this`whiteKingLocation, this`blackKingLocation
      ensures CanGenerate(Value())
      ensures moves + AllFrom(Value(), i + 1, 0).moves == moves0 + AllFrom(old(Value()), i, 0).moves
      ensures AllFrom(Value(), i + 1, 0).state == AllFrom(old(Value()), i, 0).state
    {
      ghost var full := AllFrom(Value(), i, 0);
      moves := moves0;
      var j := 0;
      while j < 8
        invariant 0 <= j <= 8 && CanGenerate(Value()) && Cells() == old(Cells())
        invariant moves + AllFrom(Value(), i, j).moves == moves0 + full.moves
        invariant AllFrom(Value(), i, j).state == full.state
      {
        ghost var v := Value();
        var sq := board[i, j];
        if (sq.Occupied? && sq.color == White && whiteToMove) || (sq.Occupied? && sq.color == Black && !whiteToMove) {
          ghost var p := PieceMoves(v, i, j);
          GenStateGrid(v, i, j);
          ghost var rest := AllFrom(p.state, i, j + 1);
          assert AllFrom(v, i, j) == Gen(p.moves + rest.moves, rest.state);
          AppendAssoc(moves, p.moves, rest.moves);
          moves := MoveFunction(i, j, moves);
        }
        j := j + 1;
      }
    }

    /** square_threatened: the side is flipped, all the opponent's moves are
        generated, the side is flipped back, and the answer is whether one of
        them ends on (r, c). */
    method SquareThreatened(r: int, c: int) returns (hit: bool)
      requires Valid() && CanGenerate(Value())
      modifies this`whiteToMove, this`pins, this`whiteKingLocation, this`blackKingLocation
      ensures var t := Legality.SquareThreatened(old(Value()), r, c); hit == t.hit && Value() == t.state
    {
      whiteToMove := !whiteToMove;
      var opponentMoves := GetAllPossibleMoves();
      whiteToMove := !whiteToMove;
      hit := EndsOn(opponentMoves, r, c);
    }

    /** The closing loop of square_threatened: whether some move of the list
        ends on (r, c); the first such move answers. */
    static method EndsOn(moves: seq<Move>, r: int, c: int) returns (hit: bool)
      ensures hit == EndsAt(moves, r, c)
    {
      var t := 0;
      while t < |moves|
        invariant 0 <= t <= |moves|
        invariant forall u | 0 <= u < t :: !(moves[u].endRow == r && moves[u].endCol == c)
      {
        if moves[t].endRow == r && moves[t].endCol == c {
          return true;
        }
        t := t + 1;
      }
      return false;
    }

    /** is_check: whether the mover's cached king square is threatened. */
    method IsCheck() returns (hit: bool)
      requires Valid() && CanGenerate(Value())
      modifies this`whiteToMove, this`pins, this`whiteKingLocation, this`blackKingLocation
      ensures var t := Legality.IsCheck(old(Value())); hit == t.hit && Value() == t.state
    {
      if whiteToMove {
        hit := SquareThreatened(whiteKingLocation.row, whiteKingLocation.col);
      } else {
        hit := SquareThreatened(blackKingLocation.row, blackKingLocation.col);
      }
    }

    /** get_castle_moves: nothing when the king square (r, c) is threatened;
        otherwise the king side, then the queen side, each when the side to
        move holds that right. */
    method GetCastleMoves(r: int, c: int, moves: seq<Move>) returns (out: seq<Move>)
      requires Valid() && CanGenerate(Value()) && CastleReady(Value(), r, c)
      modifies this`pins, this`whiteKingLocation, this`blackKingLocation, this`whiteToMove
      ensures var gen := CastleMoves(old(Value()), r, c); out == moves + gen.moves && Value() == gen.state
    {
      ghost var v := Value();
      out := moves;
      var threatened := SquareThreatened(r, c);
      if threatened {
        AppendEmpty(moves);
        return;
      }
      ThreatFrame(v, r, c);
      ghost var t := Value();
      if (whiteToMove && currentCastlingRight.whiteKingCastle) || (!whiteToMove && currentCastlingRight.blackKingCastle) {
        out := GetKingSideCastleMoves(r, c, out);
      } else {
        AppendEmpty(moves);
      }
      CastleSideFrame(t, r, c);
      ghost var ks := Value();
      ghost var kmoves := out[|moves|..];
      assert out == moves + kmoves;
      if (whiteToMove && currentCastlingRight.whiteQueenCastle) || (!whiteToMove && currentCastlingRight.blackQueenCastle) {
        ghost var qs := QueenSideCastle(ks, r, c);
        out := GetQueenSideCastleMoves(r, c, out);
        AppendAssoc(moves, kmoves, qs.moves);
      } else {
        AppendEmpty(kmoves);
      }
    }

    /** get_king_side_castle_moves: the two squares right of the king empty
        and neither threatened (the second is asked only when the first is
        not). */
    method GetKingSideCastleMoves(r: int, c: int, moves: seq<Move>) returns (out: seq<Move>)
      requires Valid() && CanGenerate(Value()) && OnBoard(r, c) && c + 2 <= 7
      modifies this`pins, this`whiteKingLocation, this`blackKingLocation, this`whiteToMove
      ensures var gen := KingSideCastle(old(Value()), r, c); out == moves + gen.moves && Value() == gen.state
    {
      ghost var v := Value();
      var g := Cells();
      out := moves;
      if g[r][c + 1] == Empty && g[r][c + 2] == Empty {
        var first := SquareThreatened(r, c + 1);
        ThreatFrame(v, r, c + 1);
        if !first {
          var second := SquareThreatened(r, c + 2);
          if !second {
            out := out + [Create(Coord(r, c), Coord(r, c + 2), g, false, true)];
            return;
          }
        }
      }
      AppendEmpty(moves);
    }

    /** get_queen_side_castle_moves: the three squares left of the king
        empty and the two nearest not threatened. */
    method GetQueenSideCastleMoves(r: int, c: int, moves: seq<Move>) returns (out: seq<Move>)
      requires Valid() && CanGenerate(Value()) && OnBoard(r, c) && c - 3 >= 0
      modifies this`pins, this`whiteKingLocation, this`blackKingLocation, this`whiteToMove
      ensures var gen := QueenSideCastle(old(Value()), r, c); out == moves + gen.moves && Value() == gen.state
    {
      ghost var v := Value();
      var g := Cells();
      out := moves;
      if g[r][c - 1] == Empty && g[r][c - 2] == Empty && g[r][c - 3] == Empty {
        var first := SquareThreatened(r, c - 1);
        ThreatFrame(v, r, c - 1);
        if !first {
          var second := SquareThreatened(r, c - 2);
          if !second {
            out := out + [Create(Coord(r, c), Coord(r, c - 2), g, false, true)];
            return;
          }
        }
      }
      AppendEmpty(moves);
    }

    /** get_valid_moves_efficient. The copy of the castling rights it takes
        at the start is written back, at the end, to an attribute of a
        different name that nothing reads, so it changes nothing and is not
        modelled. */
    method GetValidMovesEfficient() returns (moves: seq<Move>)
      requires Valid() && Generable(Value())
      modifies this`inCheck, this`pins, this`checks, this`whiteKingLocation, this`blackKingLocation
      modifies this`whiteToMove, this`checkmate, this`stalemate
      ensures var gen := ValidMovesEfficient(old(Value())); moves == gen.moves && Value() == gen.state
    {
      ghost var v := Value();
      moves := EfficientMoves();
      EfficientBodyFrame(v);
      SettleFlags(EfficientBody(v), moves);
    }

    /** The checkmate and stalemate bookkeeping that closes
        get_valid_moves_efficient: no moves means checkmate when the mover is
        in check and stalemate otherwise; some moves clear both flags. */
    method SettleFlags(ghost body: Gen, moves: seq<Move>)
      requires Valid() && Value() == body.state && moves == body.moves && CanGenerate(body.state)
      modifies this`pins, this`whiteKingLocation, this`blackKingLocation, this`whiteToMove, this`checkmate, this`stalemate
      ensures Value() == Settle(body).state
    {
      if |moves| == 0 {
        var check := IsCheck();
        if check {
          checkmate := true;
        } else {
          stalemate := true;
        }
      } else {
        checkmate := false;
        stalemate := false;
      }
    }

    /** get_valid_moves_efficient up to the checkmate and stalemate flags:
        the pin and check scan from the mover's king, then the single-check
        filter, the king's moves under double check, or all moves and the
        castles. */
    method EfficientMoves() returns (moves: seq<Move>)
      requires Valid() && Generable(Value())
      modifies this`inCheck, this`pins, this`checks, this`whiteKingLocation, this`blackKingLocation, this`whiteToMove
      ensures var gen := EfficientBody(old(Value())); moves == gen.moves && Value() == gen.state
    {
      ghost var v := Value();
      var scan := CheckPinsAndChecks();
      StoreScan(scan);
      var kingRow, kingCol;
      if whiteToMove {
        kingRow, kingCol := whiteKingLocation.row, whiteKingLocation.col;
      } else {
        kingRow, kingCol := blackKingLocation.row, blackKingLocation.col;
      }
      moves := CheckBranches(v, kingRow, kingCol);
    }

    /** self.in_check, self.pins, self.checks = check_for_pins_and_checks(). */
    method StoreScan(scan: Scan)
      requires Valid()
      modifies this`inCheck, this`pins, this`checks
      ensures Value() == old(Value()).(inCheck := scan.inCheck, pins := scan.pins, checks := scan.checks)
    {
      inCheck, pins, checks := scan.inCheck, scan.pins, scan.checks;
    }

    /** The branches of get_valid_moves_efficient on the scan's result. */
    method CheckBranches(ghost v: Game, kingRow: int, kingCol: int) returns (moves: seq<Move>)
      requires Valid() && Generable(v) && Value() == Scanned(v) && Coord(kingRow, kingCol) == v.MoverKing()
      modifies this`pins, this`whiteKingLocation, this`blackKingLocation, this`whiteToMove
      ensures var gen := EfficientBody(v); moves == gen.moves && Value() == gen.state
    {
      EfficientBodyBranches(v);
      if inCheck {
        if |checks| == 1 {
          moves := SingleCheckMoves(v, kingRow, kingCol);
        } else {
          moves := GetKingMoves(kingRow, kingCol, []);
        }
      } else {
        moves := QuietMoves(v);
      }
    }

    /** The single-check branch of get_valid_moves_efficient: all moves, then
        the downward filter keeping king moves and moves that end on a valid
        square. */
    method SingleCheckMoves(ghost v: Game, kingRow: int, kingCol: int) returns (moves: seq<Move>)
      requires Valid() && Generable(v) && Value() == Scanned(v) && |checks| == 1
      requires Coord(kingRow, kingCol) == v.MoverKing()
      modifies this`pins, this`whiteKingLocation, this`blackKingLocation
      ensures var a := AllMoves(Scanned(v));
        moves == FilterDown(a.moves, |a.moves| - 1, DropBy(CheckSquares(v))) && Value() == a.state
    {
      PinsAndChecksShape(v.grid, v.MoverKing(), SideColor(v.whiteToMove));
      var g := Cells();
      moves := GetAllPossibleMoves();
      var check := checks[0];
      var validSquares := CheckValidSquares(check, kingRow, kingCol, g);
      moves := FilterMoves(moves, validSquares);
    }

    /** valid_squares of the single-check branch: the checker's square when
        the checker is a king, else the squares from the king up to it. */
    static method CheckValidSquares(check: Ray, kingRow: int, kingCol: int, g: Grid) returns (validSquares: seq<Coord>)
      requires OnBoard(check.row, check.col)
      ensures validSquares == ValidSquares(g, Coord(kingRow, kingCol), check)
    {
      var pieceChecking := g[check.row][check.col];
      if pieceChecking.Occupied? && pieceChecking.kind == King {
        validSquares := [Coord(check.row, check.col)];
      } else {
        validSquares := SquaresToChecker(Coord(kingRow, kingCol), check, 1);
      }
    }

    /** The loop building valid_squares: the squares from the king along the
        check direction, from step lo, up to and including the checker's. */
    static method SquaresToChecker(king: Coord, check: Ray, lo: int) returns (validSquares: seq<Coord>)
      requires 1 <= lo
      ensures validSquares == Segment(king, check, lo)
    {
      ghost var full := Segment(king, check, lo);
      validSquares := [];
      var i := lo;
      while i < 8
        invariant lo <= i && (lo <= 8 ==> i <= 8)
        invariant validSquares + Segment(king, check, i) == full
      {
        var validSquare := Coord(king.row + check.dr * i, king.col + check.dc * i);
        ghost var before := validSquares;
        validSquares := validSquares + [validSquare];
        if validSquare.row == check.row && validSquare.col == check.col {
          AppendEmpty([validSquare]);
          AppendAssoc(before, [validSquare], []);
          AppendEmpty(validSquares);
          break;
        }
        SegmentNext(king, check, i);
        AppendAssoc(before, [validSquare], Segment(king, check, i + 1));
        i := i + 1;
      }
    }

    /** The downward filtering loop of the single-check branch: a move that
        is not a king move and does not end on a valid square is removed by
        value (list.remove, which takes the first equal move). */
    static method FilterMoves(moves0: seq<Move>, validSquares: seq<Coord>) returns (moves: seq<Move>)
      ensures moves == FilterDown(moves0, |moves0| - 1, DropBy(validSquares))
    {
      moves := moves0;
      var i := |moves| - 1;
      while i >= 0
        invariant -1 <= i < |moves|
        invariant FilterDown(moves, i, DropBy(validSquares)) == FilterDown(moves0, |moves0| - 1, DropBy(validSquares))
      {
        if !(moves[i].pieceMoved.Occupied? && moves[i].pieceMoved.kind == King) {
          if moves[i].End() !in validSquares {
            moves := RemoveSame(moves, moves[i]);
          }
        }
        i := i - 1;
      }
    }

    /** The branch of get_valid_moves_efficient out of check: all moves, then
        the castles from the mover's king cache. */
    method QuietMoves(ghost v: Game) returns (moves: seq<Move>)
      requires Valid() && Generable(v) && Value() == Scanned(v)
      modifies this`pins, this`whiteKingLocation, this`blackKingLocation, this`whiteToMove
      ensures var cs := CastlesAfter(v); moves == AllMoves(Scanned(v)).moves + cs.moves && Value() == cs.state
    {
      moves := GetAllPossibleMoves();
      AllMovesState(Scanned(v));
      if whiteToMove {
        moves := GetCastleMoves(whiteKingLocation.row, whiteKingLocation.col, moves);
      } else {
        moves := GetCastleMoves(blackKingLocation.row, blackKingLocation.col, moves);
      }
    }

    /** get_valid_moves_naive: all moves, the downward loop that makes each
        one and asks is_check, then the flags: no moves sets checkmate when
        the mover is in check and stalemate otherwise; some moves clear
        checkmate when the mover is in check and stalemate otherwise. */
    method GetValidMovesNaive() returns (moves: seq<Move>)
      requires Valid() && Playable(Value()) && Consistent(Value())
      modifies this, board
      ensures var gen := ValidMovesNaive(old(Value())); moves == gen.moves && Value() == gen.state
    {
      ghost var v := Value();
      ValidMovesNaiveSteps(v);
      moves := GetAllPossibleMoves();
      moves := NaiveRest(AllMoves(v), moves);
    }

    /** get_valid_moves_naive after get_all_possible_moves returned the moves
        of `a`: the loop, then the flags. */
    method NaiveRest(ghost a: Gen, moves0: seq<Move>) returns (moves: seq<Move>)
      requires Valid() && Value() == a.state && moves0 == a.moves
      requires Ready(a.state, a.moves)
      modifies this, board
      ensures var l := NaiveLoop(a.state, a.moves, |a.moves| - 1);
        CanGenerate(l.state) && moves == l.moves && Value() == NaiveSettle(l)
    {
      moves := NaiveFilter(moves0);
      ghost var l := NaiveLoop(a.state, a.moves, |a.moves| - 1);
      NaiveLoopState(a.state, a.moves, |a.moves| - 1);
      SetNaiveFlags(l, moves);
    }

    /** The flags at the end of get_valid_moves_naive. */
    method SetNaiveFlags(ghost l: Gen, moves: seq<Move>)
      requires Valid() && Value() == l.state && moves == l.moves && CanGenerate(l.state)
      modifies this`pins, this`whiteKingLocation, this`blackKingLocation, this`whiteToMove, this`checkmate, this`stalemate
      ensures Value() == NaiveSettle(l)
    {
      var check := IsCheck();
      if |moves| == 0 {
        if check {
          checkmate := true;
        } else {
          stalemate := true;
        }
      } else {
        if check {
          checkmate := false;
        } else {
          stalemate := false;
        }
      }
    }

    /** The loop of get_valid_moves_naive, from the last position down: a
        move after which the mover is in check is removed by value. */
    method NaiveFilter(moves0: seq<Move>) returns (moves: seq<Move>)
      requires Valid() && Ready(Value(), moves0)
      modifies this, board
      ensures var l := NaiveLoop(old(Value()), moves0, |moves0| - 1); moves == l.moves && Value() == l.state
    {
      ghost var full := NaiveLoop(Value(), moves0, |moves0| - 1);
      moves := moves0;
      var i := |moves| - 1;
      while i >= 0
        invariant -1 <= i < |moves| && Valid()
        invariant Ready(Value(), moves)
        invariant NaiveLoop(Value(), moves, i) == full
      {
        ghost var v := Value();
        StepGood(v, moves, i);
        var hit := TryMove(moves[i]);
        if hit {
          moves := RemoveSame(moves, moves[i]);
        }
        i := i - 1;
      }
    }

    /** One pass of the naive loop: make the move, hand the turn back to the
        mover, ask is_check, flip the turn again and undo. (The engine
        removes a failing move from the list between is_check and the undo;
        the removal touches only the list, so it is made by the caller.) */
    method TryMove(m: Move) returns (hit: bool)
      requires Valid() && Playable(Value()) && Consistent(Value()) && Good(Value(), m)
      modifies this, board
      ensures var st := NaiveStep(old(Value()), m); hit == st.hit && Value() == st.state
    {
      NaiveStepStages(Value(), m);
      MakeMove(m);
      hit := CheckWithTurnBack();
      UndoMove();
    }

    /** The middle of one pass of the naive loop: the turn handed back to the
        side that moved, is_check asked, and the turn flipped again. */
    method CheckWithTurnBack() returns (hit: bool)
      requires Valid() && CanGenerate(Value())
      modifies this`whiteToMove, this`pins, this`whiteKingLocation, this`blackKingLocation
      ensures var t := Legality.IsCheck(old(Value()).(whiteToMove := !old(whiteToMove)));
        hit == t.hit && Value() == t.state.(whiteToMove := !t.state.whiteToMove)
    {
      whiteToMove := !whiteToMove;
      hit := IsCheck();
      whiteToMove := !whiteToMove;
    }
  }
}

=== FILE: generated.dfy ===
/**
 * The moves the generators produce are moves make_move and undo_move handle
 * exactly: each is built from the current board, leaves its origin, and
 * meets the conditions of Rules.WellFormed; all but castles also keep the
 * state playable.
 */
module Generated {
  import opened Pieces
  import opened Moves
  import opened Rules
  import opened Attacks
  import opened Generation
  import opened Legality

  /** A plain move from (r, c) built on `g`. */
  predicate Plain(g: Grid, m: Move, r: int, c: int)
  {
    Constructed(m, g) && m.Start() == Coord(r, c) && m.End() != m.Start() &&
    !m.isEnpassantMove && !m.isCastleMove
  }

  /** A pawn move sideways onto an empty square: the shape only an
      en-passant capture has among generated moves. */
  predicate EpShape(v: Game, m: Move)
    requires OnBoard(m.endRow, m.endCol)
  {
    m.pieceMoved.Occupied? && m.pieceMoved.kind == Pawn && m.startCol != m.endCol &&
    v.grid[m.endRow][m.endCol] == Empty
  }

  /** A pseudo-legal move as the piece generators build it: make_move can
      play it from `v` and undo it exactly, leaving a playable state; it is
      no castle, and its en-passant flag is set exactly for the en-passant
      shape. */
  predicate Good(v: Game, m: Move)
  {
    && WellFormed(v, m) && KeepsPlayable(v, m) && !m.isCastleMove
    && (m.isEnpassantMove <==> EpShape(v, m))
  }

  lemma {:induction false} SlideRayPlain(g: Grid, r: int, c: int, i: int, k: int, allowed: bool, enemy: Color)
    requires OnBoard(r, c) && 0 <= i < 8 && 1 <= k
    ensures forall m | m in SlideRay(g, r, c, i, k, allowed, enemy) :: Plain(g, m, r, c)
    decreases 8 - k
  {
    if k < 8 {
      SlideRayPlain(g, r, c, i, k + 1, allowed, enemy);
    }
  }

  lemma {:induction false} SlideDirsPlain(g: Grid, r: int, c: int, i: int, hi: int, p: PinLookup, enemy: Color)
    requires OnBoard(r, c) && 0 <= i <= hi <= 8
    ensures forall m | m in SlideDirs(g, r, c, i, hi, p, enemy) :: Plain(g, m, r, c)
    decreases hi - i
  {
    if i < hi {
      SlideRayPlain(g, r, c, i, 1, AlongPin(p, i), enemy);
      SlideDirsPlain(g, r, c, i + 1, hi, p, enemy);
    }
  }

  lemma {:induction false} KnightRepeatPlain(g: Grid, r: int, c: int, n: int, k: int, pinned: bool, enemy: Color)
    requires OnBoard(r, c) && 0 <= n < 8
    ensures forall m | m in KnightRepeat(g, r, c, r + KnightRows[n], c + KnightCols[n], k, pinned, enemy) ::
      Plain(g, m, r, c)
    decreases 8 - k
  {
    if k < 8 {
      KnightRepeatPlain(g, r, c, n, k + 1, pinned, enemy);
    }
  }

  lemma {:induction false} KnightTargetsPlain(g: Grid, r: int, c: int, n: int, pinned: bool, enemy: Color)
    requires OnBoard(r, c) && 0 <= n <= 8
    ensures forall m | m in KnightTargets(g, r, c, n, pinned, enemy) :: Plain(g, m, r, c)
    decreases 8 - n
  {
    if n < 8 {
      KnightRepeatPlain(g, r, c, n, 1, pinned, enemy);
      KnightTargetsPlain(g, r, c, n + 1, pinned, enemy);
    }
  }

  lemma {:induction false} KingTargetsPlain(g: Grid, ally: Color, r: int, c: int, k: int, verdicts: seq<bool>)
    requires OnBoard(r, c) && 0 <= k <= 8 && |verdicts| == 8
    ensures forall m | m in KingTargets(g, ally, r, c, k, verdicts) :: Plain(g, m, r, c)
    decreases 8 - k
  {
    if k < 8 {
      KingTargetsPlain(g, ally, r, c, k + 1, verdicts);
    }
  }

  /** A plain move of a piece other than a pawn is good in a generable state. */
  lemma PlainGood(v: Game, m: Move, r: int, c: int)
    requires Generable(v) && Plain(v.grid, m, r, c)
    requires !(v.grid[r][c].Occupied? && v.grid[r][c].kind == Pawn)
    ensures Good(v, m)
  {
  }

  /** Every move of a non-pawn generator at (r, c) is plain. */
  lemma PiecePlain(v: Game, r: int, c: int)
    requires OnBoard(r, c) && v.grid[r][c].Occupied? && v.grid[r][c].kind != Pawn
    ensures forall m | m in PieceMoves(v, r, c).moves :: Plain(v.grid, m, r, c)
  {
    var g := v.grid;
    var enemy := EnemyOf(v.whiteToMove);
    match g[r][c].kind
    case Rook =>
      SlideDirsPlain(g, r, c, 0, 4, TakePin(v.pins, r, c, true), enemy);
      SlideDirsPlain(g, r, c, 0, 4, TakePin(v.pins, r, c, false), enemy);
    case Bishop =>
      SlideDirsPlain(g, r, c, 4, 8, TakePin(v.pins, r, c, true), enemy);
    case Queen =>
      var b := BishopMoves(v, r, c);
      SlideDirsPlain(g, r, c, 4, 8, TakePin(v.pins, r, c, true), enemy);
      SlideDirsPlain(g, r, c, 0, 4, TakePin(b.state.pins, r, c, false), enemy);
    case Knight =>
      KnightTargetsPlain(g, r, c, 0, TakePin(v.pins, r, c, true).pinned, enemy);
    case King =>
      KingTargetsPlain(g, SideColor(v.whiteToMove), r, c, 0, KingVerdicts(g, SideColor(v.whiteToMove), r, c));
  }

  /** Pawn pushes are plain, and a double step passes an empty square. */
  lemma PushGood(v: Game, r: int, c: int, f: int, home: int, ok: bool)
    requires Playable(v) && OnBoard(r, c) && OnBoard(r + f, c) && (f == 1 || f == -1)
    requires r == home ==> OnBoard(r + 2 * f, c)
    requires v.grid[r][c].Occupied? && v.grid[r][c].kind == Pawn
    ensures forall m | m in PawnPush(v.grid, r, c, f, home, ok) :: Good(v, m)
  {
    var g := v.grid;
    if g[r + f][c] == Empty && ok {
      var m1 := Mv(g, r, c, r + f, c);
      assert Good(v, m1);
      if r == home && g[r + 2 * f][c] == Empty {
        var m2 := Mv(g, r, c, r + 2 * f, c);
        assert (m2.startRow + m2.endRow) / 2 == r + f;
        assert Good(v, m2);
      }
    }
  }

  /** Pawn captures are plain, and an en-passant capture lands diagonally on
      the empty en-passant target. */
  lemma CaptureGood(v: Game, r: int, c: int, f: int, cc: int, ok: bool, okEp: bool)
    requires Playable(v) && OnBoard(r, c) && OnBoard(r + f, cc) && (f == 1 || f == -1) && cc != c
    requires v.grid[r][c].Occupied? && v.grid[r][c].kind == Pawn
    ensures forall m | m in PawnCapture(v, r, c, f, cc, ok, okEp) :: Good(v, m)
  {
    var g := v.grid;
    if IsColor(g[r + f][cc], EnemyOf(v.whiteToMove)) && ok {
      assert Good(v, Mv(g, r, c, r + f, cc));
    }
    if v.ep == Some(Coord(r + f, cc)) && okEp {
      var m := Create(Coord(r, c), Coord(r + f, cc), g, true, false);
      CreateFlags(Coord(r, c), Coord(r + f, cc), g, true, false);
      assert Good(v, m);
    }
  }

  /** Every pawn move is good in a playable state. */
  lemma PawnGood(v: Game, r: int, c: int)
    requires Playable(v) && OnBoard(r, c) && v.grid[r][c] == Occupied(SideColor(v.whiteToMove), Pawn)
    requires v.whiteToMove ==> r >= 1
    requires !v.whiteToMove ==> r <= 6
    ensures forall m | m in PawnMoves(v, r, c).moves :: Good(v, m)
  {
    PawnListGood(v, r, c, TakePin(v.pins, r, c, true));
  }

  /** The same, whatever the pin lookup found. */
  lemma PawnListGood(v: Game, r: int, c: int, lk: PinLookup)
    requires Playable(v) && OnBoard(r, c) && v.grid[r][c] == Occupied(SideColor(v.whiteToMove), Pawn)
    requires v.whiteToMove ==> r >= 1
    requires !v.whiteToMove ==> r <= 6
    ensures forall m | m in PawnList(v, r, c, lk) :: Good(v, m)
  {
    var f := if v.whiteToMove then -1 else 1;
    var ok := !lk.pinned || (lk.dr == f && lk.dc == 0);
    var okEp := !lk.pinned || (lk.dr == -1 && lk.dc == 0);
    PushGood(v, r, c, f, if v.whiteToMove then 6 else 1, ok);
    if c - 1 >= 0 {
      CaptureGood(v, r, c, f, c - 1, ok, okEp);
    }
    if c + 1 <= 7 {
      CaptureGood(v, r, c, f, c + 1, ok, okEp);
    }
  }

  /** Every move of the generator at an own piece's square is good. */
  lemma PieceGood(v: Game, r: int, c: int)
    requires Playable(v) && OnBoard(r, c) && IsColor(v.grid[r][c], SideColor(v.whiteToMove))
    requires v.grid[r][c].kind == Pawn ==> (v.whiteToMove ==> r >= 1) && (!v.whiteToMove ==> r <= 6)
    ensures forall m | m in PieceMoves(v, r, c).moves :: Good(v, m)
  {
    if v.grid[r][c].kind == Pawn {
      PawnGood(v, r, c);
    } else {
      PiecePlain(v, r, c);
      forall m | m in PieceMoves(v, r, c).moves
        ensures Good(v, m)
      {
        PlainGood(v, m, r, c);
      }
    }
  }

  /** Goodness depends on the board, the caches and the en-passant target only. */
  lemma GoodPins(v: Game, w: Game, m: Move)
    requires w == v.(pins := w.pins) && Good(v, m)
    ensures Good(w, m)
  {
  }

  /** Every move get_all_possible_moves produces from square (i, j) on is good. */
  lemma {:induction false} AllFromGood(v: Game, i: int, j: int)
    requires 0 <= i <= 8 && 0 <= j <= 8 && Playable(v)
    ensures forall m | m in AllFrom(v, i, j).moves :: Good(v, m)
    decreases 8 - i, 8 - j
  {
    if i < 8 {
      if j == 8 {
        AllFromGood(v, i + 1, 0);
      } else if IsColor(v.grid[i][j], SideColor(v.whiteToMove)) {
        var p := PieceMoves(v, i, j);
        PieceGood(v, i, j);
        PieceState(v, i, j);
        var w := p.state;
        assert Playable(w);
        AllFromGood(w, i, j + 1);
        var rest := AllFrom(w, i, j + 1);
        assert AllFrom(v, i, j) == Gen(p.moves + rest.moves, rest.state);
        forall m | m in rest.moves
          ensures Good(v, m)
        {
          GoodPins(w, v, m);
        }
      } else {
        AllFromGood(v, i, j + 1);
      }
    }
  }

  lemma AllMovesGood(v: Game)
    requires Playable(v)
    ensures forall m | m in AllMoves(v).moves :: Good(v, m)
  {
    AllFromGood(v, 0, 0);
  }
}

=== FILE: generation.dfy ===
/**
 * The per-piece move generators of chessEngine.py and get_all_possible_moves,
 * as functions of the game state. A generator reads the board, the side to
 * move and the en-passant target; it consumes the entry for its square from
 * the pin list, and the king generator overwrites the king cache while it
 * probes each target. So each function returns the moves it appends together
 * with the state it leaves behind.
 */
module Generation {
  import opened Pieces
  import opened Moves
  import opened Rules
  import opened Attacks

  /** The moves a generator appends, and the state after it. */
  datatype Gen = Gen(moves: seq<Move>, state: Game)

  /** The outcome of the pin lookup at the head of a generator. */
  datatype PinLookup = PinLookup(pinned: bool, dr: int, dc: int, pins: seq<Ray>)

  /** The colour whose pieces the side to move may capture. */
  function EnemyOf(whiteToMove: bool): Color
  {
    if whiteToMove then Black else White
  }

  /** A plain (not en passant, not castling) move built from the board. */
  function Mv(g: Grid, r: int, c: int, er: int, ec: int): (m: Move)
    requires OnBoard(r, c) && OnBoard(er, ec)
    ensures Constructed(m, g) && m.Start() == Coord(r, c) && m.End() == Coord(er, ec)
    ensures !m.isEnpassantMove && !m.isCastleMove
  {
    CreateFlags(Coord(r, c), Coord(er, ec), g, false, false);
    Create(Coord(r, c), Coord(er, ec), g, false, false)
  }

  // ---------------------------------------------------------------------
  // The pin list

  /** The index of the last pin among the first n entries that names square
      (r, c), or -1: the downward search loop that opens each generator. */
  function LastPinIndex(pins: seq<Ray>, r: int, c: int, n: int): (k: int)
    requires 0 <= n <= |pins|
    ensures -1 <= k < n
    ensures k >= 0 ==> pins[k].row == r && pins[k].col == c
    ensures forall t | k < t < n :: !(pins[t].row == r && pins[t].col == c)
    decreases n
  {
    if n == 0 then -1
    else if pins[n - 1].row == r && pins[n - 1].col == c then n - 1
    else LastPinIndex(pins, r, c, n - 1)
  }

  /** The position of the first element equal to x. */
  function FirstIndex<T(==)>(s: seq<T>, x: T): (k: nat)
    requires x in s
    ensures k < |s| && s[k] == x && x !in s[..k]
  {
    if s[0] == x then 0
    else
      var k := FirstIndex(s[1..], x);
      assert s[..k + 1] == [s[0]] + s[1..][..k];
      k + 1
  }

  /** Python's list.remove: the first element equal to x is taken out. */
  function RemoveFirst<T(==)>(s: seq<T>, x: T): (t: seq<T>)
    requires x in s
    ensures |t| == |s| - 1 && multiset(t) == multiset(s) - multiset{x}
    ensures t == s[..FirstIndex(s, x)] + s[FirstIndex(s, x) + 1..]
  {
    var k := FirstIndex(s, x);
    assert s == s[..k] + [s[k]] + s[k + 1..];
    s[..k] + s[k + 1..]
  }

  /** The pin lookup: the last pin on (r, c) gives the pin direction, and is
      removed from the list when `remove` holds (the first equal entry goes). */
  function TakePin(pins: seq<Ray>, r: int, c: int, remove: bool): (p: PinLookup)
    ensures !p.pinned ==> p.pins == pins
    ensures p.pinned ==> Ray(r, c, p.dr, p.dc) in pins
    ensures p.pinned && remove ==> multiset(p.pins) == multiset(pins) - multiset{Ray(r, c, p.dr, p.dc)}
    ensures p.pinned && !remove ==> p.pins == pins
    ensures !p.pinned <==> forall t | 0 <= t < |pins| :: !(pins[t].row == r && pins[t].col == c)
  {
    var k := LastPinIndex(pins, r, c, |pins|);
    if k < 0 then PinLookup(false, 0, 0, pins)
    else
      assert pins[k] == Ray(r, c, pins[k].dr, pins[k].dc);
      PinLookup(true, pins[k].dr, pins[k].dc, if remove then RemoveFirst(pins, pins[k]) else pins)
  }

  // ---------------------------------------------------------------------
  // Pawns

  /** The forward steps of a pawn at (r, c) moving in row direction f: one
      square if it is empty, and a second from the home row if that is empty
      too. */
  function PawnPush(g: Grid, r: int, c: int, f: int, home: int, ok: bool): seq<Move>
    requires OnBoard(r, c) && OnBoard(r + f, c) && (f == 1 || f == -1)
    requires r == home ==> OnBoard(r + 2 * f, c)
  {
    if g[r + f][c] == Empty && ok then
      [Mv(g, r, c, r + f, c)] +
      (if r == home && g[r + 2 * f][c] == Empty then [Mv(g, r, c, r + 2 * f, c)] else [])
    else []
  }

  /** The captures of a pawn at (r, c) onto (r + f, cc): an ordinary capture of
      an enemy piece, then an en-passant capture if (r + f, cc) is the target. */
  function PawnCapture(v: Game, r: int, c: int, f: int, cc: int, ok: bool, okEp: bool): seq<Move>
    requires OnBoard(r, c) && OnBoard(r + f, cc)
  {
    var g := v.grid;
    (if IsColor(g[r + f][cc], EnemyOf(v.whiteToMove)) && ok then [Mv(g, r, c, r + f, cc)] else []) +
    (if v.ep == Some(Coord(r + f, cc)) && okEp then [Create(Coord(r, c), Coord(r + f, cc), g, true, false)] else [])
  }

  /** The moves of get_pawn_moves once the pin lookup `lk` is made, for the
      side to move. White pawns step to row - 1 and black pawns to row + 1;
      a pinned pawn steps or captures only along the pin, except that both
      colours' en-passant captures test the white forward direction (-1, 0). */
  function PawnList(v: Game, r: int, c: int, lk: PinLookup): seq<Move>
    requires OnBoard(r, c)
    requires v.whiteToMove ==> r >= 1
    requires !v.whiteToMove ==> r <= 6
  {
    var f := if v.whiteToMove then -1 else 1;
    var ok := !lk.pinned || (lk.dr == f && lk.dc == 0);
    var okEp := !lk.pinned || (lk.dr == -1 && lk.dc == 0);
    var push := PawnPush(v.grid, r, c, f, if v.whiteToMove then 6 else 1, ok);
    var left := if c - 1 >= 0 then PawnCapture(v, r, c, f, c - 1, ok, okEp) else [];
    var right := if c + 1 <= 7 then PawnCapture(v, r, c, f, c + 1, ok, okEp) else [];
    push + left + right
  }

  /** get_pawn_moves: the pin lookup removes the pawn's entry. */
  function PawnMoves(v: Game, r: int, c: int): (gen: Gen)
    requires OnBoard(r, c)
    requires v.whiteToMove ==> r >= 1
    requires !v.whiteToMove ==> r <= 6
  {
    var lk := TakePin(v.pins, r, c, true);
    Gen(PawnList(v, r, c, lk), v.(pins := lk.pins))
  }

  // ---------------------------------------------------------------------
  // Sliding pieces

  /** One direction of get_rook_moves / get_bishop_moves from distance k:
      empty squares are collected, the first enemy piece is collected and
      ends the ray, an own piece or the board's edge ends it; a direction the
      pin forbids ends at its first on-board square. */
  function SlideRay(g: Grid, r: int, c: int, i: int, k: int, allowed: bool, enemy: Color): seq<Move>
    requires OnBoard(r, c) && 0 <= i < 8 && 1 <= k
    decreases 8 - k
  {
    if k >= 8 then []
    else
      var er := r + DirRows[i] * k;
      var ec := c + DirCols[i] * k;
      if !OnBoard(er, ec) then []
      else if !allowed then []
      else if g[er][ec] == Empty then [Mv(g, r, c, er, ec)] + SlideRay(g, r, c, i, k + 1, allowed, enemy)
      else if IsColor(g[er][ec], enemy) then [Mv(g, r, c, er, ec)]
      else []
  }

  /** Once a ray has left the board it stays off it: the square one step
      further is off the board too, so the rest of the ray is empty. */
  lemma SlideRayOff(g: Grid, r: int, c: int, i: int, k: int, allowed: bool, enemy: Color)
    requires OnBoard(r, c) && 0 <= i < 8 && 1 <= k
    requires !OnBoard(r + DirRows[i] * k, c + DirCols[i] * k)
    ensures SlideRay(g, r, c, i, k + 1, allowed, enemy) == []
  {
    var dr, dc := DirRows[i], DirCols[i];
    assert dr * (k + 1) == dr * k + dr && dc * (k + 1) == dc * k + dc;
    assert dr in {-1, 0, 1} && dc in {-1, 0, 1};
    assert dr == -1 ==> dr * k == -k;
    assert dr == 1 ==> dr * k == k;
    assert dc == -1 ==> dc * k == -k;
    assert dc == 1 ==> dc * k == k;
    assert !OnBoard(r + dr * (k + 1), c + dc * (k + 1));
  }

  /** A pinned slider may move along the pin or straight back against it. */
  predicate AlongPin(p: PinLookup, i: int)
    requires 0 <= i < 8
  {
    !p.pinned || (p.dr == DirRows[i] && p.dc == DirCols[i]) || (p.dr == -DirRows[i] && p.dc == -DirCols[i])
  }

  /** Directions i..hi-1 of a slider, in order. */
  function SlideDirs(g: Grid, r: int, c: int, i: int, hi: int, p: PinLookup, enemy: Color): seq<Move>
    requires OnBoard(r, c) && 0 <= i <= hi <= 8
    decreases hi - i
  {
    if i == hi then []
    else SlideRay(g, r, c, i, 1, AlongPin(p, i), enemy) + SlideDirs(g, r, c, i + 1, hi, p, enemy)
  }

  /** get_rook_moves: the four orthogonal directions (0..3). The pin entry is
      left in place when the piece on (r, c) is a queen. */
  function RookMoves(v: Game, r: int, c: int): Gen
    requires OnBoard(r, c)
  {
    var lk := TakePin(v.pins, r, c, !(v.grid[r][c].Occupied? && v.grid[r][c].kind == Queen));
    Gen(SlideDirs(v.grid, r, c, 0, 4, lk, EnemyOf(v.whiteToMove)), v.(pins := lk.pins))
  }

  /** get_bishop_moves: the four diagonal directions (4..7). */
  function BishopMoves(v: Game, r: int, c: int): Gen
    requires OnBoard(r, c)
  {
    var lk := TakePin(v.pins, r, c, true);
    Gen(SlideDirs(v.grid, r, c, 4, 8, lk, EnemyOf(v.whiteToMove)), v.(pins := lk.pins))
  }

  /** get_queen_moves: the bishop generator, then the rook generator on the
      pin list the bishop generator left. */
  function QueenMoves(v: Game, r: int, c: int): Gen
    requires OnBoard(r, c)
  {
    var b := BishopMoves(v, r, c);
    var q := RookMoves(b.state, r, c);
    Gen(b.moves + q.moves, q.state)
  }

  // ---------------------------------------------------------------------
  // Knights

  /** The inner `for k in range(1, 8)` loop of get_knight_moves for one
      target: it recomputes the same target every time, so an empty target
      is collected on each of the remaining passes; an enemy piece is
      collected once; an off-board target is skipped without leaving the loop. */
  function KnightRepeat(g: Grid, r: int, c: int, er: int, ec: int, k: int, pinned: bool, enemy: Color): seq<Move>
    requires OnBoard(r, c)
    decreases 8 - k
  {
    if k >= 8 then []
    else if !OnBoard(er, ec) then KnightRepeat(g, r, c, er, ec, k + 1, pinned, enemy)
    else if pinned then []
    else if g[er][ec] == Empty then [Mv(g, r, c, er, ec)] + KnightRepeat(g, r, c, er, ec, k + 1, pinned, enemy)
    else if IsColor(g[er][ec], enemy) then [Mv(g, r, c, er, ec)]
    else []
  }

  /** Knight offsets n..7. */
  function KnightTargets(g: Grid, r: int, c: int, n: int, pinned: bool, enemy: Color): seq<Move>
    requires OnBoard(r, c) && 0 <= n <= 8
    decreases 8 - n
  {
    if n == 8 then []
    else KnightRepeat(g, r, c, r + KnightRows[n], c + KnightCols[n], 1, pinned, enemy) +
         KnightTargets(g, r, c, n + 1, pinned, enemy)
  }

  /** get_knight_moves. */
  function KnightMoves(v: Game, r: int, c: int): Gen
    requires OnBoard(r, c)
  {
    var lk := TakePin(v.pins, r, c, true);
    Gen(KnightTargets(v.grid, r, c, 0, lk.pinned, EnemyOf(v.whiteToMove)), v.(pins := lk.pins))
  }

  // ---------------------------------------------------------------------
  // Kings

  const KingRows: seq<int> := [-1, -1, -1, 0, 0, 1, 1, 1]
  const KingCols: seq<int> := [-1, 0, 1, -1, 1, -1, 0, 1]

  /** A square the king generator probes: on the board and not holding a
      piece of the side to move. */
  predicate KingCandidate(g: Grid, ally: Color, er: int, ec: int)
  {
    OnBoard(er, ec) && !IsColor(g[er][ec], ally)
  }

  /** The verdict of get_king_moves on a probed square (er, ec): the pin and
      check scan, run with the side's king cache moved there, finds no check;
      one verdict per target around (r, c). */
  function KingVerdictAt(g: Grid, ally: Color, r: int, c: int, k: int): bool
    requires 0 <= k < 8
  {
    !PinsAndChecks(g, Coord(r + KingRows[k], c + KingCols[k]), ally).inCheck
  }

  function KingVerdicts(g: Grid, ally: Color, r: int, c: int): (s: seq<bool>)
    ensures VerdictsOf(g, ally, r, c, s)
  {
    seq(8, k requires 0 <= k < 8 => KingVerdictAt(g, ally, r, c, k))
  }

  /** `verdicts` holds the verdict on each of the eight targets around (r, c).
      The quantifier is instantiated only where a verdict is named, so proofs
      about the sequence alone never unfold the scan. */
  predicate VerdictsOf(g: Grid, ally: Color, r: int, c: int, verdicts: seq<bool>)
  {
    && |verdicts| == 8
    && forall k {:trigger KingVerdictAt(g, ally, r, c, k)} | 0 <= k < 8 :: verdicts[k] == KingVerdictAt(g, ally, r, c, k)
  }

  /** Target k of get_king_moves: a candidate is collected when its verdict
      (for the generator, from KingVerdicts) says so. */
  function KingTargetAt(g: Grid, ally: Color, r: int, c: int, k: int, verdicts: seq<bool>): seq<Move>
    requires OnBoard(r, c) && 0 <= k < 8 && |verdicts| == 8
  {
    var er := r + KingRows[k];
    var ec := c + KingCols[k];
    if KingCandidate(g, ally, er, ec) && verdicts[k] then [Mv(g, r, c, er, ec)] else []
  }

  /** Targets k..7 of get_king_moves, in order. */
  function KingTargets(g: Grid, ally: Color, r: int, c: int, k: int, verdicts: seq<bool>): seq<Move>
    requires OnBoard(r, c) && 0 <= k <= 8 && |verdicts| == 8
    decreases 8 - k
  {
    if k == 8 then [] else KingTargetAt(g, ally, r, c, k, verdicts) + KingTargets(g, ally, r, c, k + 1, verdicts)
  }

  /** Whether any of targets k..7 is probed (and so the cache rewritten). */
  predicate KingProbes(g: Grid, ally: Color, r: int, c: int, k: int)
    requires 0 <= k <= 8
    decreases 8 - k
  {
    k < 8 && (KingCandidate(g, ally, r + KingRows[k], c + KingCols[k]) || KingProbes(g, ally, r, c, k + 1))
  }

  /** One step of the king generator's targets, stated with the scan
      result named so that callers need not unfold the scan. */
  lemma KingStep(g: Grid, ally: Color, r: int, c: int, k: int, verdicts: seq<bool>, safe: bool)
    requires OnBoard(r, c) && 0 <= k < 8 && |verdicts| == 8
    requires KingCandidate(g, ally, r + KingRows[k], c + KingCols[k]) ==> safe == verdicts[k]
    ensures KingTargets(g, ally, r, c, k, verdicts) ==
      (if KingCandidate(g, ally, r + KingRows[k], c + KingCols[k]) && safe
       then [Mv(g, r, c, r + KingRows[k], c + KingCols[k])] else []) + KingTargets(g, ally, r, c, k + 1, verdicts)
    ensures KingProbes(g, ally, r, c, k) ==
      (KingCandidate(g, ally, r + KingRows[k], c + KingCols[k]) || KingProbes(g, ally, r, c, k + 1))
  {
  }

  /** get_king_moves: after the probes the mover's cache is set to (r, c). */
  function KingMoves(v: Game, r: int, c: int): Gen
    requires OnBoard(r, c)
  {
    var ally := SideColor(v.whiteToMove);
    Gen(KingTargets(v.grid, ally, r, c, 0, KingVerdicts(v.grid, ally, r, c)),
        if KingProbes(v.grid, ally, r, c, 0) then v.WithKing(ally, Coord(r, c)) else v)
  }

  // ---------------------------------------------------------------------
  // All pseudo-legal moves

  /** The moveFunctions dispatch on the piece letter. */
  function PieceMoves(v: Game, r: int, c: int): Gen
    requires OnBoard(r, c) && v.grid[r][c].Occupied?
    requires v.grid[r][c].kind == Pawn ==> (v.whiteToMove ==> r >= 1) && (!v.whiteToMove ==> r <= 6)
  {
    match v.grid[r][c].kind
    case Pawn => PawnMoves(v, r, c)
    case Rook => RookMoves(v, r, c)
    case Knight => KnightMoves(v, r, c)
    case Bishop => BishopMoves(v, r, c)
    case Queen => QueenMoves(v, r, c)
    case King => KingMoves(v, r, c)
  }

  /** The pieces a side can move from: its own pawns never stand on the row
      they promote on. */
  predicate CanGenerate(v: Game)
  {
    PawnsInRange(v.grid)
  }

  /** get_all_possible_moves from square (i, j) on, row by row: the rest of
      row i from column j, then rows i+1..7. */
  function AllFrom(v: Game, i: int, j: int): Gen
    requires 0 <= i <= 8 && 0 <= j <= 8 && CanGenerate(v)
    decreases 8 - i, 8 - j
  {
    if i == 8 then Gen([], v)
    else if j == 8 then AllFrom(v, i + 1, 0)
    else if IsColor(v.grid[i][j], SideColor(v.whiteToMove)) then
      var p := PieceMoves(v, i, j);
      GenStateGrid(v, i, j);
      assert p.state.grid == v.grid;
      var rest := AllFrom(p.state, i, j + 1);
      Gen(p.moves + rest.moves, rest.state)
    else AllFrom(v, i, j + 1)
  }

  /** get_all_possible_moves. */
  function AllMoves(v: Game): Gen
    requires CanGenerate(v)
  {
    AllFrom(v, 0, 0)
  }

  /** A generator changes nothing but the pin list and the mover's king cache. */
  lemma GenStateGrid(v: Game, r: int, c: int)
    requires OnBoard(r, c) && v.grid[r][c].Occupied?
    requires v.grid[r][c].kind == Pawn ==> (v.whiteToMove ==> r >= 1) && (!v.whiteToMove ==> r <= 6)
    ensures var w := PieceMoves(v, r, c).state;
      w == v.(pins := w.pins, whiteKing := w.whiteKing, blackKing := w.blackKing)
    ensures PieceMoves(v, r, c).state.KingOf(Opponent(SideColor(v.whiteToMove))) ==
            v.KingOf(Opponent(SideColor(v.whiteToMove)))
  {
    match v.grid[r][c].kind
    case Pawn =>
    case Rook =>
    case Knight =>
    case Bishop =>
    case Queen =>
    case King =>
  }

  /** With the king caches in step with the board, a generator changes
      nothing but the pin list: the king generator runs from the cached
      square and puts the cache back where it was. */
  lemma PieceState(v: Game, r: int, c: int)
    requires OnBoard(r, c) && IsColor(v.grid[r][c], SideColor(v.whiteToMove)) && KingsCached(v)
    requires v.grid[r][c].kind == Pawn ==> (v.whiteToMove ==> r >= 1) && (!v.whiteToMove ==> r <= 6)
    ensures PieceMoves(v, r, c).state == v.(pins := PieceMoves(v, r, c).state.pins)
  {
    if v.grid[r][c].kind == King {
      assert v.grid[r][c] == Occupied(SideColor(v.whiteToMove), King);
    }
  }

  /** A square holding a piece of the mover: its generator changes only the
      pin list, and the scan goes on from the state it leaves. */
  lemma AllFromPiece(v: Game, i: int, j: int)
    requires 0 <= i < 8 && 0 <= j < 8 && CanGenerate(v) && KingsCached(v)
    requires IsColor(v.grid[i][j], SideColor(v.whiteToMove))
    ensures var w := PieceMoves(v, i, j).state;
      w == v.(pins := w.pins) && CanGenerate(w) && KingsCached(w) &&
      AllFrom(v, i, j).state == AllFrom(w, i, j + 1).state
  {
    PieceState(v, i, j);
    var w := PieceMoves(v, i, j).state;
    assert w.grid == v.grid && w.whiteKing == v.whiteKing && w.blackKing == v.blackKing;
  }

  /** get_all_possible_moves leaves everything but the pin list as it found
      it, when the king caches are in step with the board. */
  lemma {:induction false} AllFromState(v: Game, i: int, j: int)
    requires 0 <= i <= 8 && 0 <= j <= 8 && CanGenerate(v) && KingsCached(v)
    ensures AllFrom(v, i, j).state == v.(pins := AllFrom(v, i, j).state.pins)
    decreases 8 - i, 8 - j
  {
    if i < 8 {
      if j == 8 {
        AllFromState(v, i + 1, 0);
      } else if IsColor(v.grid[i][j], SideColor(v.whiteToMove)) {
        AllFromPiece(v, i, j);
        var w := PieceMoves(v, i, j).state;
        AllFromState(w, i, j + 1);
      } else {
        AllFromState(v, i, j + 1);
      }
    }
  }

  lemma AllMovesState(v: Game)
    requires CanGenerate(v) && KingsCached(v)
    ensures AllMoves(v).state == v.(pins := AllMoves(v).state.pins)
  {
    AllFromState(v, 0, 0);
  }

  /** No entry of the pin list names a square holding a piece of colour `c`. */
  predicate NoPinOn(v: Game, c: Color)
  {
    forall t | 0 <= t < |v.pins| ::
      !(OnBoard(v.pins[t].row, v.pins[t].col) && IsColor(v.grid[v.pins[t].row][v.pins[t].col], c))
  }

  /** A generator consumes only the pin entry for its own square: when no
      entry names a square of the side to move, the pin list is untouched. */
  lemma PieceNoPins(v: Game, r: int, c: int)
    requires OnBoard(r, c) && IsColor(v.grid[r][c], SideColor(v.whiteToMove))
    requires NoPinOn(v, SideColor(v.whiteToMove))
    requires v.grid[r][c].kind == Pawn ==> (v.whiteToMove ==> r >= 1) && (!v.whiteToMove ==> r <= 6)
    ensures PieceMoves(v, r, c).state.pins == v.pins
  {
    assert forall t | 0 <= t < |v.pins| :: !(v.pins[t].row == r && v.pins[t].col == c);
  }

  /** With no pin entry on a square of the side to move and the caches in
      step with the board, get_all_possible_moves leaves the state exactly as
      it found it. */
  lemma {:induction false} AllFromNoPins(v: Game, i: int, j: int)
    requires 0 <= i <= 8 && 0 <= j <= 8 && CanGenerate(v) && KingsCached(v)
    requires NoPinOn(v, SideColor(v.whiteToMove))
    ensures AllFrom(v, i, j).state == v
    decreases 8 - i, 8 - j
  {
    if i < 8 {
      if j == 8 {
        AllFromNoPins(v, i + 1, 0);
      } else if IsColor(v.grid[i][j], SideColor(v.whiteToMove)) {
        PieceState(v, i, j);
        PieceNoPins(v, i, j);
        assert PieceMoves(v, i, j).state == v;
        AllFromNoPins(v, i, j + 1);
      } else {
        AllFromNoPins(v, i, j + 1);
      }
    }
  }

  lemma AllMovesNoPins(v: Game)
    requires CanGenerate(v) && KingsCached(v) && NoPinOn(v, SideColor(v.whiteToMove))
    ensures AllMoves(v).state == v
  {
    AllFromNoPins(v, 0, 0);
  }

  /** Changing only the pins and caches twice changes only those. */
  lemma FrameTrans(u: Game, v: Game, w: Game)
    requires v == u.(pins := v.pins, whiteKing := v.whiteKing, blackKing := v.blackKing)
    requires w == v.(pins := w.pins, whiteKing := w.whiteKing, blackKing := w.blackKing)
    ensures w == u.(pins := w.pins, whiteKing := w.whiteKing, blackKing := w.blackKing)
  {
  }

  /** Whatever the caches, generation changes only the pin list and the
      king caches. */
  lemma {:induction false} AllFromFrame(v: Game, i: int, j: int)
    requires 0 <= i <= 8 && 0 <= j <= 8 && CanGenerate(v)
    ensures var w := AllFrom(v, i, j).state;
      w == v.(pins := w.pins, whiteKing := w.whiteKing, blackKing := w.blackKing)
    decreases 8 - i, 8 - j
  {
    if i < 8 {
      if j == 8 {
        AllFromFrame(v, i + 1, 0);
      } else if IsColor(v.grid[i][j], SideColor(v.whiteToMove)) {
        var p := PieceMoves(v, i, j);
        GenStateGrid(v, i, j);
        var w := p.state;
        assert w.grid == v.grid && CanGenerate(w);
        AllFromFrame(w, i, j + 1);
        var rest := AllFrom(w, i, j + 1);
        assert AllFrom(v, i, j) == Gen(p.moves + rest.moves, rest.state);
        var x := rest.state;
        FrameTrans(v, w, x);
      } else {
        AllFromFrame(v, i, j + 1);
      }
    }
  }
}

=== FILE: legalfacts.dfy ===
/**
 * What get_valid_moves_efficient and its parts promise: the downward
 * remove-by-value filter equals an order-preserving filter, the king
 * generator emits exactly the unchecked targets, castling emits only from an
 * unthreatened king over empty squares, and the result depends on the check
 * state as the engine intends, with the checkmate / stalemate flags set
 * accordingly.
 */
module LegalFacts {
  import opened Pieces
  import opened Moves
  import opened Rules
  import opened Attacks
  import opened Generation
  import opened Legality
  import opened Generated

  // ---------------------------------------------------------------------
  // The filter

  /** The reference filter: the moves that pass the test, in order. */
  function Kept(s: seq<Move>, drop: Move -> bool): (t: seq<Move>)
    ensures |t| <= |s|
  {
    if |s| == 0 then []
    else (if drop(s[0]) then [] else [s[0]]) + Kept(s[1..], drop)
  }

  /** Moves with equal identities pass or fail the test together. */
  predicate SameConsistent(s: seq<Move>, drop: Move -> bool)
  {
    forall a, b | a in s && b in s && Same(a, b) :: drop(a) == drop(b)
  }

  lemma {:induction false} KeptConcat(a: seq<Move>, b: seq<Move>, drop: Move -> bool)
    ensures Kept(a + b, drop) == Kept(a, drop) + Kept(b, drop)
    decreases |a|
  {
    if |a| > 0 {
      assert (a + b)[0] == a[0] && (a + b)[1..] == a[1..] + b;
      KeptConcat(a[1..], b, drop);
    } else {
      assert a + b == b;
    }
  }

  /** Kept keeps exactly the passing moves of the input. */
  lemma {:induction false} KeptMembers(s: seq<Move>, drop: Move -> bool)
    ensures forall m | m in Kept(s, drop) :: m in s && !drop(m)
    ensures forall m | m in s && !drop(m) :: m in Kept(s, drop)
    decreases |s|
  {
    if |s| > 0 {
      KeptMembers(s[1..], drop);
      assert s == [s[0]] + s[1..];
    }
  }

  /** When every move passes, Kept is the identity. */
  lemma {:induction false} KeptAll(s: seq<Move>, drop: Move -> bool)
    requires forall t | 0 <= t < |s| :: !drop(s[t])
    ensures Kept(s, drop) == s
    decreases |s|
  {
    if |s| > 0 {
      KeptAll(s[1..], drop);
      assert s == [s[0]] + s[1..];
    }
  }

  /** A failing move in front adds nothing. */
  lemma KeptDropHead(y: Move, q: seq<Move>, drop: Move -> bool)
    requires drop(y)
    ensures Kept([y] + q, drop) == Kept(q, drop)
  {
    assert ([y] + q)[0] == y && ([y] + q)[1..] == q;
  }

  /** Removing a failing move by value does not change what Kept keeps. */
  lemma RemoveDropped(s: seq<Move>, x: Move, drop: Move -> bool)
    requires x in s && drop(x) && SameConsistent(s, drop)
    ensures Kept(RemoveSame(s, x), drop) == Kept(s, drop)
  {
    var k := FirstSame(s, x);
    var p, q := s[..k], s[k + 1..];
    assert drop(s[k]) by {
      assert s[k] in s && Same(s[k], x);
    }
    assert s == p + ([s[k]] + q);
    KeptConcat(p, [s[k]] + q, drop);
    KeptDropHead(s[k], q, drop);
    KeptConcat(p, q, drop);
  }

  /** Removing by value keeps equal moves judged alike. */
  lemma RemoveConsistent(s: seq<Move>, x: Move, drop: Move -> bool)
    requires x in s && SameConsistent(s, drop)
    ensures SameConsistent(RemoveSame(s, x), drop)
  {
    var s' := RemoveSame(s, x);
    forall y | y in s'
      ensures y in s
    {
      assert multiset(s')[y] > 0;
    }
  }

  /** Removing the first equal of position i shifts the positions above i
      down by one. */
  lemma RemoveShift(s: seq<Move>, i: int)
    requires 0 <= i < |s|
    ensures var s' := RemoveSame(s, s[i]);
      forall t | i <= t < |s'| :: s'[t] == s[t + 1]
  {
    var k := FirstSame(s, s[i]);
    assert Same(s[i], s[i]);
  }

  /** One removal of the downward loop keeps what the reference filter keeps
      and the conditions the rest of the loop needs. */
  lemma RemoveStep(s: seq<Move>, i: int, drop: Move -> bool)
    requires 0 <= i < |s| && drop(s[i]) && SameConsistent(s, drop)
    requires forall t | i < t < |s| :: !drop(s[t])
    ensures var s' := RemoveSame(s, s[i]);
      Kept(s', drop) == Kept(s, drop) && SameConsistent(s', drop) &&
      forall t | i - 1 < t < |s'| :: !drop(s'[t])
  {
    RemoveDropped(s, s[i], drop);
    RemoveConsistent(s, s[i], drop);
    RemoveShift(s, i);
  }

  /** The downward loop computes the reference filter, provided the moves
      beyond position i already pass and equal moves are judged alike. */
  lemma {:induction false} FilterDownKept(s: seq<Move>, i: int, drop: Move -> bool)
    requires -1 <= i < |s| && SameConsistent(s, drop)
    requires forall t | i < t < |s| :: !drop(s[t])
    ensures FilterDown(s, i, drop) == Kept(s, drop)
    decreases i + 1
  {
    if i < 0 {
      KeptAll(s, drop);
    } else if drop(s[i]) {
      RemoveStep(s, i, drop);
      FilterDownKept(RemoveSame(s, s[i]), i - 1, drop);
    } else {
      FilterDownKept(s, i - 1, drop);
    }
  }

  /** The filter keeps a sub-multiset of its input. */
  lemma {:induction false} FilterDownSub(s: seq<Move>, i: int, drop: Move -> bool)
    requires -1 <= i < |s|
    ensures multiset(FilterDown(s, i, drop)) <= multiset(s)
    decreases i + 1
  {
    if i >= 0 {
      if drop(s[i]) {
        var s' := RemoveSame(s, s[i]);
        FilterDownSub(s', i - 1, drop);
        var f := FilterDown(s', i - 1, drop);
        assert FilterDown(s, i, drop) == f;
        assert forall x :: multiset(f)[x] <= multiset(s')[x] <= multiset(s)[x];
      } else {
        FilterDownSub(s, i - 1, drop);
      }
    }
  }

  /** Moves built on one board are judged alike when equal: equal identities
      mean the same squares and so the same moved piece. */
  lemma ConstructedConsistent(s: seq<Move>, g: Grid, valid: seq<Coord>)
    requires forall m | m in s :: Constructed(m, g)
    ensures SameConsistent(s, DropBy(valid))
  {
    forall a, b | a in s && b in s && Same(a, b)
      ensures Drop(a, valid) == Drop(b, valid)
    {
      SameIffSameSquares(a, g, b, g);
    }
  }

  // ---------------------------------------------------------------------
  // Kings

  /** A square get_king_moves accepts: a candidate from which the pin and
      check scan finds no check. */
  predicate KingSafe(g: Grid, ally: Color, er: int, ec: int)
  {
    KingCandidate(g, ally, er, ec) && !PinsAndChecks(g, Coord(er, ec), ally).inCheck
  }

  /** get_king_moves emits, from (r, c), only moves to targets t >= k that
      are candidates with a favourable verdict. */
  lemma {:induction false} KingTargetsSound(g: Grid, ally: Color, r: int, c: int, k: int, verdicts: seq<bool>)
    requires OnBoard(r, c) && 0 <= k <= 8 && |verdicts| == 8
    ensures forall m | m in KingTargets(g, ally, r, c, k, verdicts) ::
      exists t | k <= t < 8 :: KingHit(g, ally, r, c, t, verdicts, m)
    decreases 8 - k
  {
    if k < 8 {
      KingTargetsSound(g, ally, r, c, k + 1, verdicts);
      forall m | m in KingTargetAt(g, ally, r, c, k, verdicts)
        ensures KingHit(g, ally, r, c, k, verdicts, m)
      {
      }
    }
  }

  /** Move m is the move to target t, a candidate with a favourable verdict. */
  predicate KingHit(g: Grid, ally: Color, r: int, c: int, t: int, verdicts: seq<bool>, m: Move)
    requires OnBoard(r, c) && 0 <= t < 8 && |verdicts| == 8
  {
    var er, ec := r + KingRows[t], c + KingCols[t];
    KingCandidate(g, ally, er, ec) && verdicts[t] && m == Mv(g, r, c, er, ec)
  }

  /** get_king_moves emits, from (r, c), the move to every candidate target
      t >= k with a favourable verdict. */
  lemma {:induction false} KingTargetsComplete(g: Grid, ally: Color, r: int, c: int, k: int, t: int,
                                                verdicts: seq<bool>)
    requires OnBoard(r, c) && 0 <= k <= t < 8 && |verdicts| == 8
    requires KingCandidate(g, ally, r + KingRows[t], c + KingCols[t]) && verdicts[t]
    ensures Mv(g, r, c, r + KingRows[t], c + KingCols[t]) in KingTargets(g, ally, r, c, k, verdicts)
    decreases t - k
  {
    if t > k {
      KingTargetsComplete(g, ally, r, c, k + 1, t, verdicts);
    } else {
      assert KingTargetAt(g, ally, r, c, k, verdicts) == [Mv(g, r, c, r + KingRows[t], c + KingCols[t])];
    }
  }

  /** get_king_moves started on the mover's cached square leaves both king
      caches as they were. */
  lemma KingMovesKeepCaches(v: Game, r: int, c: int)
    requires OnBoard(r, c) && v.MoverKing() == Coord(r, c)
    ensures KingMoves(v, r, c).state.whiteKing == v.whiteKing
    ensures KingMoves(v, r, c).state.blackKing == v.blackKing
  {
  }

  // ---------------------------------------------------------------------
  // Castling

  /** A castle from (r, c) to (r, ec) as get_castle_moves builds it. */
  predicate CastleShape(v: Game, m: Move, r: int, c: int, ec: int)
  {
    && m.isCastleMove && !m.isEnpassantMove && m.Start() == Coord(r, c) && m.End() == Coord(r, ec)
    && Constructed(m, v.grid)
  }

  /** The king-side generator emits at most a castle two files right, with
      both squares between empty and neither threatened. */
  lemma KingSideFacts(v: Game, r: int, c: int)
    requires CanGenerate(v) && OnBoard(r, c) && c + 2 <= 7
    ensures forall m | m in KingSideCastle(v, r, c).moves ::
      && CastleShape(v, m, r, c, c + 2) && v.grid[r][c + 1] == Empty && v.grid[r][c + 2] == Empty
      && Unthreatened(v, r, c + 1, c + 2)
  {
    CreateFlags(Coord(r, c), Coord(r, c + 2), v.grid, false, true);
  }

  /** The queen-side generator emits at most a castle two files left, with
      the three squares between the king and the corner empty and the two
      nearest the king not threatened. */
  lemma QueenSideFacts(v: Game, r: int, c: int)
    requires CanGenerate(v) && OnBoard(r, c) && c - 3 >= 0
    ensures forall m | m in QueenSideCastle(v, r, c).moves ::
      && CastleShape(v, m, r, c, c - 2)
      && v.grid[r][c - 1] == Empty && v.grid[r][c - 2] == Empty && v.grid[r][c - 3] == Empty
      && Unthreatened(v, r, c - 1, c - 2)
  {
    CreateFlags(Coord(r, c), Coord(r, c - 2), v.grid, false, true);
  }

  /** get_castle_moves emits nothing when the king square is threatened, and
      otherwise only castles two files along the king's row, each with its
      right held and the squares between empty. */
  lemma CastleConditions(v: Game, r: int, c: int)
    requires CanGenerate(v) && CastleReady(v, r, c)
    ensures SquareThreatened(v, r, c).hit ==> CastleMoves(v, r, c).moves == []
    ensures forall m | m in CastleMoves(v, r, c).moves ::
      || (CastleShape(v, m, r, c, c + 2) && KingSideRight(v) &&
          v.grid[r][c + 1] == Empty && v.grid[r][c + 2] == Empty)
      || (CastleShape(v, m, r, c, c - 2) && QueenSideRight(v) &&
          v.grid[r][c - 1] == Empty && v.grid[r][c - 2] == Empty && v.grid[r][c - 3] == Empty)
  {
    ThreatFrame(v, r, c);
    var t := SquareThreatened(v, r, c);
    if !t.hit {
      var u := t.state;
      var ks := if KingSideRight(u) then KingSideCastle(u, r, c) else Gen([], u);
      CastleSideFrame(u, r, c);
      if KingSideRight(u) {
        KingSideFacts(u, r, c);
      }
      if QueenSideRight(ks.state) {
        QueenSideFacts(ks.state, r, c);
      }
    }
  }

  /** The two squares a castle of get_castle_moves makes the king cross are
      not threatened: square_threatened reports neither on the board, side
      to move and rights of `v`, with the pin list and king caches as the
      earlier probes left them. */
  lemma CastleCrossing(v: Game, r: int, c: int)
    requires CanGenerate(v) && CastleReady(v, r, c)
    ensures forall m | m in CastleMoves(v, r, c).moves ::
      exists w: Game | w == v.(pins := w.pins, whiteKing := w.whiteKing, blackKing := w.blackKing) ::
        if m.endCol == c + 2 then Unthreatened(w, r, c + 1, c + 2) else Unthreatened(w, r, c - 1, c - 2)
  {
    ThreatFrame(v, r, c);
    var t := SquareThreatened(v, r, c);
    if !t.hit {
      var u := t.state;
      var ks := if KingSideRight(u) then KingSideCastle(u, r, c) else Gen([], u);
      CastleSideFrame(u, r, c);
      if KingSideRight(u) {
        KingSideFacts(u, r, c);
      }
      var qs := if QueenSideRight(ks.state) then QueenSideCastle(ks.state, r, c) else Gen([], ks.state);
      if QueenSideRight(ks.state) {
        QueenSideFacts(ks.state, r, c);
      }
      forall m | m in CastleMoves(v, r, c).moves
        ensures exists w: Game | w == v.(pins := w.pins, whiteKing := w.whiteKing, blackKing := w.blackKing) ::
          if m.endCol == c + 2 then Unthreatened(w, r, c + 1, c + 2) else Unthreatened(w, r, c - 1, c - 2)
      {
        if m in ks.moves {
          assert Unthreatened(u, r, c + 1, c + 2);
        } else {
          assert Unthreatened(ks.state, r, c - 1, c - 2);
        }
      }
    }
  }

  // ---------------------------------------------------------------------
  // get_valid_moves_efficient

  /** The flags: a non-empty list clears both; an empty one sets checkmate
      if the side is in check and stalemate otherwise, leaving the other flag
      as it was. */
  lemma SettleFlags(b: Gen)
    requires CanGenerate(b.state) && KingsCached(b.state)
    ensures var r := Settle(b);
      && r.moves == b.moves
      && (|b.moves| > 0 ==> r.state == b.state.(checkmate := false, stalemate := false))
      && (|b.moves| == 0 ==>
            var t := IsCheck(b.state);
            r.state.grid == b.state.grid &&
            (if t.hit then r.state.checkmate && r.state.stalemate == b.state.stalemate
             else r.state.stalemate && r.state.checkmate == b.state.checkmate))
  {
    if |b.moves| == 0 {
      ThreatState(b.state, b.state.MoverKing().row, b.state.MoverKing().col);
    }
  }

  /** get_valid_moves_efficient clears both flags when it returns moves;
      when it returns none it sets checkmate if is_check holds on the game
      the body leaves and stalemate otherwise, the other flag staying as the
      input had it. */
  lemma EfficientFlags(v: Game)
    requires Generable(v)
    ensures var r := ValidMovesEfficient(v);
      && (|r.moves| > 0 ==> !r.state.checkmate && !r.state.stalemate)
      && (|r.moves| == 0 ==>
            && CanGenerate(EfficientBody(v).state)
            && if IsCheck(EfficientBody(v).state).hit then r.state.checkmate && r.state.stalemate == v.stalemate
               else r.state.stalemate && r.state.checkmate == v.checkmate)
  {
    var b := EfficientBody(v);
    EfficientBodyState(v);
    SettleFlags(b);
  }

  /** The flags leave the moves of the body as they are. */
  lemma EfficientMoves(v: Game)
    requires Generable(v)
    ensures ValidMovesEfficient(v).moves == EfficientBody(v).moves
  {
    EfficientBodyState(v);
    SettleFlags(EfficientBody(v));
  }

  lemma BodyDoubleCheck(v: Game)
    requires Generable(v) && |Scanned(v).checks| >= 2
    ensures EfficientBody(v).moves ==
      KingTargets(v.grid, SideColor(v.whiteToMove), v.MoverKing().row, v.MoverKing().col, 0,
                  KingVerdicts(v.grid, SideColor(v.whiteToMove), v.MoverKing().row, v.MoverKing().col))
  {
    PinsAndChecksShape(v.grid, v.MoverKing(), SideColor(v.whiteToMove));
  }

  lemma BodySingleCheck(v: Game)
    requires Generable(v) && |Scanned(v).checks| == 1
    ensures var a := AllMoves(Scanned(v)).moves;
      EfficientBody(v).moves == FilterDown(a, |a| - 1, DropBy(CheckSquares(v)))
  {
    PinsAndChecksShape(v.grid, v.MoverKing(), SideColor(v.whiteToMove));
  }

  lemma BodyNoCheck(v: Game)
    requires Generable(v) && !Scanned(v).inCheck
    ensures EfficientBody(v).moves == AllMoves(Scanned(v)).moves + CastlesAfter(v).moves
  {
  }

  /** Under two or more checks only the king moves: every move starts on the
      mover's cached king square and goes to an accepted square. */
  lemma EfficientDoubleCheck(v: Game)
    requires Generable(v) && |Scanned(v).checks| >= 2
    ensures forall m | m in ValidMovesEfficient(v).moves ::
      && m.Start() == v.MoverKing() && m.pieceMoved == v.grid[v.MoverKing().row][v.MoverKing().col]
      && KingSafe(v.grid, SideColor(v.whiteToMove), m.endRow, m.endCol)
  {
    var k := v.MoverKing();
    var ally := SideColor(v.whiteToMove);
    EfficientMoves(v);
    BodyDoubleCheck(v);
    var verdicts := KingVerdicts(v.grid, ally, k.row, k.col);
    KingTargetsSound(v.grid, ally, k.row, k.col, 0, verdicts);
    KingTargetsPlain(v.grid, ally, k.row, k.col, 0, verdicts);
    forall m | m in ValidMovesEfficient(v).moves
      ensures KingSafe(v.grid, ally, m.endRow, m.endCol)
    {
      var t :| 0 <= t < 8 && KingHit(v.grid, ally, k.row, k.col, t, verdicts, m);
    }
  }

  /** Under two or more checks every accepted square around the king is
      reached. */
  lemma EfficientDoubleCheckComplete(v: Game, t: int)
    requires Generable(v) && |Scanned(v).checks| >= 2 && 0 <= t < 8
    requires KingSafe(v.grid, SideColor(v.whiteToMove),
                      v.MoverKing().row + KingRows[t], v.MoverKing().col + KingCols[t])
    ensures var k := v.MoverKing();
      Mv(v.grid, k.row, k.col, k.row + KingRows[t], k.col + KingCols[t]) in ValidMovesEfficient(v).moves
  {
    var k := v.MoverKing();
    EfficientMoves(v);
    BodyDoubleCheck(v);
    KingTargetsComplete(v.grid, SideColor(v.whiteToMove), k.row, k.col, 0, t, KingVerdicts(v.grid, SideColor(v.whiteToMove), k.row, k.col));
  }

  /** Under a single check the result is the pseudo-legal list with every
      non-king move that does not end on the king-to-checker segment (or on a
      checking king's square) filtered out, order kept. */
  lemma EfficientSingleCheck(v: Game)
    requires Playable(v) && |Scanned(v).checks| == 1
    ensures ValidMovesEfficient(v).moves == Kept(AllMoves(Scanned(v)).moves, DropBy(CheckSquares(v)))
    ensures forall m | m in ValidMovesEfficient(v).moves ::
      (m.pieceMoved.Occupied? && m.pieceMoved.kind == King) || m.End() in CheckSquares(v)
  {
    var v1 := Scanned(v);
    var valid := CheckSquares(v);
    var a := AllMoves(v1).moves;
    EfficientMoves(v);
    BodySingleCheck(v);
    AllMovesGood(v1);
    ConstructedConsistent(a, v.grid, valid);
    FilterDownKept(a, |a| - 1, DropBy(valid));
    KeptMembers(a, DropBy(valid));
  }

  /** Out of check the result is the pseudo-legal list followed by the castle
      moves generated from the mover's cached king square. */
  lemma EfficientNoCheck(v: Game)
    requires Generable(v) && !Scanned(v).inCheck
    ensures ValidMovesEfficient(v).moves == AllMoves(Scanned(v)).moves + CastlesAfter(v).moves
    ensures AllMoves(Scanned(v)).state.MoverKing() == v.MoverKing()
  {
    EfficientMoves(v);
    BodyNoCheck(v);
    AllMovesState(Scanned(v));
  }

  /** Goodness does not depend on the pin and check lists. */
  lemma GoodScanned(v: Game, m: Move)
    ensures Good(Scanned(v), m) == Good(v, m)
  {
  }

  lemma SingleCheckGood(v: Game)
    requires Playable(v) && |Scanned(v).checks| == 1
    ensures forall m | m in ValidMovesEfficient(v).moves :: Good(v, m)
  {
    var v1 := Scanned(v);
    var a := AllMoves(v1).moves;
    EfficientMoves(v);
    BodySingleCheck(v);
    AllMovesGood(v1);
    FilterDownSub(a, |a| - 1, DropBy(CheckSquares(v)));
    forall m | m in ValidMovesEfficient(v).moves
      ensures Good(v, m)
    {
      assert multiset(FilterDown(a, |a| - 1, DropBy(CheckSquares(v))))[m] > 0;
      GoodScanned(v, m);
    }
  }

  /** The mover's king stands on its cached square. */
  predicate MoverKingHome(v: Game)
  {
    var k := v.MoverKing();
    OnBoard(k.row, k.col) && v.grid[k.row][k.col] == Occupied(SideColor(v.whiteToMove), King)
  }

  lemma KingTargetsGood(v: Game, r: int, c: int)
    requires Generable(v) && OnBoard(r, c) && v.grid[r][c] == Occupied(SideColor(v.whiteToMove), King)
    ensures forall m | m in KingMoves(v, r, c).moves :: Good(v, m)
  {
    var verdicts := KingVerdicts(v.grid, SideColor(v.whiteToMove), r, c);
    KingTargetsPlain(v.grid, SideColor(v.whiteToMove), r, c, 0, verdicts);
    forall m | m in KingTargets(v.grid, SideColor(v.whiteToMove), r, c, 0, verdicts)
      ensures Good(v, m)
    {
      PlainGood(v, m, r, c);
    }
  }

  lemma DoubleCheckGood(v: Game)
    requires Playable(v) && MoverKingHome(v) && |Scanned(v).checks| >= 2
    ensures forall m | m in ValidMovesEfficient(v).moves :: Good(v, m)
  {
    var k := v.MoverKing();
    EfficientMoves(v);
    BodyDoubleCheck(v);
    KingTargetsGood(v, k.row, k.col);
  }

  /** The castles generated out of check are well formed: the king stands
      on its home file, so each lands on file 2 or 6 with its rook square free. */
  lemma CastlesWellFormed(v: Game)
    requires Generable(v)
    ensures forall m | m in CastlesAfter(v).moves :: m.isCastleMove && WellFormed(v, m)
  {
    var v1 := Scanned(v);
    var a := AllMoves(v1);
    var k := v.MoverKing();
    AllMovesState(v1);
    CastleConditions(a.state, k.row, k.col);
    forall m | m in CastlesAfter(v).moves
      ensures m.isCastleMove && WellFormed(v, m)
    {
      CreateFlags(m.Start(), m.End(), v.grid, false, true);
    }
  }

  lemma NoCheckWellFormed(v: Game)
    requires Playable(v) && !Scanned(v).inCheck
    ensures forall m | m in ValidMovesEfficient(v).moves ::
      WellFormed(v, m) && (!m.isCastleMove ==> KeepsPlayable(v, m))
  {
    var v1 := Scanned(v);
    var a := AllMoves(v1).moves;
    var cs := CastlesAfter(v).moves;
    EfficientNoCheck(v);
    AllMovesGood(v1);
    CastlesWellFormed(v);
    forall m | m in a + cs
      ensures WellFormed(v, m) && (!m.isCastleMove ==> KeepsPlayable(v, m))
    {
      if m in a {
        GoodScanned(v, m);
      }
    }
  }

  /** Every move get_valid_moves_efficient returns can be played by
      make_move and undone exactly; all but castles keep the state playable. */
  lemma EfficientWellFormed(v: Game)
    requires Playable(v) && MoverKingHome(v)
    ensures forall m | m in ValidMovesEfficient(v).moves ::
      WellFormed(v, m) && (!m.isCastleMove ==> KeepsPlayable(v, m))
  {
    PinsAndChecksShape(v.grid, v.MoverKing(), SideColor(v.whiteToMove));
    if Scanned(v).inCheck {
      if |Scanned(v).checks| == 1 {
        SingleCheckGood(v);
      } else {
        DoubleCheckGood(v);
      }
    } else {
      NoCheckWellFormed(v);
    }
  }
}

=== FILE: legality.dfy ===
/**
 * Threat detection, castling generation and the two legal-move filters of
 * chessEngine.py (get_valid_moves_efficient and get_valid_moves_naive), as
 * functions of the game state that return the moves and the state left.
 */
module Legality {
  import opened Pieces
  import opened Moves
  import opened Rules
  import opened Attacks
  import opened Generation

  /** A yes/no answer together with the state the question leaves behind. */
  datatype Probe = Probe(hit: bool, state: Game)

  /** Some move of the list ends on (r, c). */
  predicate EndsAt(moves: seq<Move>, r: int, c: int)
  {
    exists t | 0 <= t < |moves| :: moves[t].endRow == r && moves[t].endCol == c
  }

  /** square_threatened: the side is flipped, every opponent move generated,
      the side flipped back, and the answer is whether one of them ends on
      (r, c). */
  function SquareThreatened(v: Game, r: int, c: int): Probe
    requires CanGenerate(v)
  {
    var a := AllMoves(v.(whiteToMove := !v.whiteToMove));
    Probe(EndsAt(a.moves, r, c), a.state.(whiteToMove := v.whiteToMove))
  }

  /** square_threatened changes only the pin list and the king caches. */
  lemma ThreatFrame(v: Game, r: int, c: int)
    requires CanGenerate(v)
    ensures var w := SquareThreatened(v, r, c).state;
      w == v.(pins := w.pins, whiteKing := w.whiteKing, blackKing := w.blackKing)
  {
    AllFromFrame(v.(whiteToMove := !v.whiteToMove), 0, 0);
  }

  /** With the caches in step with the board, square_threatened changes only
      the pin list. */
  lemma ThreatState(v: Game, r: int, c: int)
    requires CanGenerate(v) && KingsCached(v)
    ensures var w := SquareThreatened(v, r, c).state; w == v.(pins := w.pins)
  {
    AllMovesState(v.(whiteToMove := !v.whiteToMove));
  }

  /** is_check: whether the mover's cached king square is threatened. */
  function IsCheck(v: Game): Probe
    requires CanGenerate(v)
  {
    SquareThreatened(v, v.MoverKing().row, v.MoverKing().col)
  }

  // ---------------------------------------------------------------------
  // Castling

  predicate KingSideRight(v: Game)
  {
    if v.whiteToMove then v.rights.whiteKingCastle else v.rights.blackKingCastle
  }

  predicate QueenSideRight(v: Game)
  {
    if v.whiteToMove then v.rights.whiteQueenCastle else v.rights.blackQueenCastle
  }

  /** get_king_side_castle_moves: both squares to the right empty, then
      neither threatened (the second is not asked when the first is). */
  function KingSideCastle(v: Game, r: int, c: int): Gen
    requires CanGenerate(v) && OnBoard(r, c) && c + 2 <= 7
  {
    if v.grid[r][c + 1] == Empty && v.grid[r][c + 2] == Empty then
      var t1 := SquareThreatened(v, r, c + 1);
      ThreatFrame(v, r, c + 1);
      if t1.hit then Gen([], t1.state)
      else
        var t2 := SquareThreatened(t1.state, r, c + 2);
        if t2.hit then Gen([], t2.state)
        else Gen([Create(Coord(r, c), Coord(r, c + 2), v.grid, false, true)], t2.state)
    else Gen([], v)
  }

  /** get_queen_side_castle_moves: three squares to the left empty, the two
      nearest not threatened. */
  function QueenSideCastle(v: Game, r: int, c: int): Gen
    requires CanGenerate(v) && OnBoard(r, c) && c - 3 >= 0
  {
    if v.grid[r][c - 1] == Empty && v.grid[r][c - 2] == Empty && v.grid[r][c - 3] == Empty then
      var t1 := SquareThreatened(v, r, c - 1);
      ThreatFrame(v, r, c - 1);
      if t1.hit then Gen([], t1.state)
      else
        var t2 := SquareThreatened(t1.state, r, c - 2);
        if t2.hit then Gen([], t2.state)
        else Gen([Create(Coord(r, c), Coord(r, c - 2), v.grid, false, true)], t2.state)
    else Gen([], v)
  }

  /** square_threatened reports neither square c1 nor c2 of row r, the
      second probed on the game the first probe left (the pin list as the
      first probe's move generation left it). */
  predicate Unthreatened(v: Game, r: int, c1: int, c2: int)
    requires CanGenerate(v)
  {
    var t1 := SquareThreatened(v, r, c1);
    ThreatFrame(v, r, c1);
    !t1.hit && !SquareThreatened(t1.state, r, c2).hit
  }

  /** What castle generation needs of the king square it is given. */
  predicate CastleReady(v: Game, r: int, c: int)
  {
    && OnBoard(r, c)
    && (KingSideRight(v) ==> c + 2 <= 7)
    && (QueenSideRight(v) ==> c - 3 >= 0)
  }

  /** get_castle_moves: nothing when the king square is threatened; else the
      king side, then the queen side, each when its right is held. */
  function CastleMoves(v: Game, r: int, c: int): Gen
    requires CanGenerate(v) && CastleReady(v, r, c)
  {
    var t := SquareThreatened(v, r, c);
    ThreatFrame(v, r, c);
    if t.hit then Gen([], t.state)
    else
      var ks := if KingSideRight(t.state) then KingSideCastle(t.state, r, c) else Gen([], t.state);
      CastleSideFrame(t.state, r, c);
      var qs := if QueenSideRight(ks.state) then QueenSideCastle(ks.state, r, c) else Gen([], ks.state);
      Gen(ks.moves + qs.moves, qs.state)
  }

  /** King-side castle generation changes only the pin list and king caches. */
  lemma CastleSideFrame(v: Game, r: int, c: int)
    requires CanGenerate(v) && CastleReady(v, r, c)
    ensures var w := (if KingSideRight(v) then KingSideCastle(v, r, c) else Gen([], v)).state;
      w == v.(pins := w.pins, whiteKing := w.whiteKing, blackKing := w.blackKing)
  {
    if KingSideRight(v) && v.grid[r][c + 1] == Empty && v.grid[r][c + 2] == Empty {
      ThreatFrame(v, r, c + 1);
      ThreatFrame(SquareThreatened(v, r, c + 1).state, r, c + 2);
    }
  }

  // ---------------------------------------------------------------------
  // get_valid_moves_efficient

  /** The squares from the king along the check direction, up to and
      including the checker (or seven steps, whichever comes first). */
  function Segment(k: Coord, ch: Ray, i: int): seq<Coord>
    requires 1 <= i
    decreases 8 - i
  {
    if i >= 8 then []
    else
      var sq := Coord(k.row + ch.dr * i, k.col + ch.dc * i);
      [sq] + (if sq == Coord(ch.row, ch.col) then [] else Segment(k, ch, i + 1))
  }

  /** A square short of the checker is followed by the rest of the segment. */
  lemma SegmentNext(k: Coord, ch: Ray, i: int)
    requires 1 <= i < 8
    requires k.row + ch.dr * i != ch.row || k.col + ch.dc * i != ch.col
    ensures Segment(k, ch, i) == [Coord(k.row + ch.dr * i, k.col + ch.dc * i)] + Segment(k, ch, i + 1)
  {
  }

  /** The squares a non-king move may end on to meet a single check: the
      checker's square if the checker is a king, else the segment. */
  function ValidSquares(g: Grid, k: Coord, ch: Ray): seq<Coord>
    requires OnBoard(ch.row, ch.col)
  {
    if g[ch.row][ch.col].Occupied? && g[ch.row][ch.col].kind == King then [Coord(ch.row, ch.col)]
    else Segment(k, ch, 1)
  }

  /** The filter's test: a non-king move that does not end on a valid square. */
  predicate Drop(m: Move, valid: seq<Coord>)
  {
    !(m.pieceMoved.Occupied? && m.pieceMoved.kind == King) && m.End() !in valid
  }

  /** The position of the first move equal (by moveID) to x. */
  function FirstSame(s: seq<Move>, x: Move): (k: nat)
    requires x in s
    ensures k < |s| && Same(s[k], x) && forall t | 0 <= t < k :: !Same(s[t], x)
  {
    if Same(s[0], x) then 0 else 1 + FirstSame(s[1..], x)
  }

  /** list.remove with Move.__eq__: the first move with x's moveID goes. */
  function RemoveSame(s: seq<Move>, x: Move): (t: seq<Move>)
    requires x in s
    ensures |t| == |s| - 1 && multiset(t) <= multiset(s)
    ensures t == s[..FirstSame(s, x)] + s[FirstSame(s, x) + 1..]
  {
    var k := FirstSame(s, x);
    assert s == s[..k] + [s[k]] + s[k + 1..];
    s[..k] + s[k + 1..]
  }

  /** The filter's test as a function of the move. */
  function DropBy(valid: seq<Coord>): Move -> bool
  {
    m => Drop(m, valid)
  }

  /** The downward filtering loop: position i is tested, and a failing move
      is removed by value (its first equal is what goes). */
  function FilterDown(moves: seq<Move>, i: int, drop: Move -> bool): seq<Move>
    requires -1 <= i < |moves|
    decreases i + 1
  {
    if i < 0 then moves
    else if drop(moves[i]) then FilterDown(RemoveSame(moves, moves[i]), i - 1, drop)
    else FilterDown(moves, i - 1, drop)
  }

  /** The checkmate / stalemate bookkeeping at the end of
      get_valid_moves_efficient. */
  function Settle(body: Gen): Gen
    requires CanGenerate(body.state)
  {
    if |body.moves| == 0 then
      var t := IsCheck(body.state);
      Gen([], if t.hit then t.state.(checkmate := true) else t.state.(stalemate := true))
    else Gen(body.moves, body.state.(checkmate := false, stalemate := false))
  }

  /** The pins-and-checks state get_valid_moves_efficient works from. */
  function Scanned(v: Game): Game
  {
    var s := PinsAndChecks(v.grid, v.MoverKing(), SideColor(v.whiteToMove));
    v.(inCheck := s.inCheck, pins := s.pins, checks := s.checks)
  }

  /** The squares a non-king move may end on under a single check. */
  function CheckSquares(v: Game): seq<Coord>
    requires |Scanned(v).checks| >= 1
  {
    PinsAndChecksShape(v.grid, v.MoverKing(), SideColor(v.whiteToMove));
    ValidSquares(v.grid, v.MoverKing(), Scanned(v).checks[0])
  }

  /** The castle moves generated out of check, after the pseudo-legal moves,
      from the mover's king cache as it then stands. */
  function CastlesAfter(v: Game): Gen
    requires Generable(v)
  {
    var v1 := Scanned(v);
    var a := AllMoves(v1);
    AllMovesState(v1);
    var kk := a.state.MoverKing();
    CastleMoves(a.state, kk.row, kk.col)
  }

  /** The moves of get_valid_moves_efficient before the flags are set. */
  function EfficientBody(v: Game): Gen
    requires Generable(v)
  {
    var v1 := Scanned(v);
    var k := v.MoverKing();
    if v1.inCheck then
      if |v1.checks| == 1 then
        var a := AllMoves(v1);
        Gen(FilterDown(a.moves, |a.moves| - 1, DropBy(CheckSquares(v))), a.state)
      else KingMoves(v1, k.row, k.col)
    else
      var cs := CastlesAfter(v);
      Gen(AllMoves(v1).moves + cs.moves, cs.state)
  }

  /** The three branches of get_valid_moves_efficient, one equation each. */
  lemma EfficientBodyBranches(v: Game)
    requires Generable(v)
    ensures var v1 := Scanned(v); var k := v.MoverKing();
      && (v1.inCheck && |v1.checks| == 1 ==>
            var a := AllMoves(v1);
            EfficientBody(v) == Gen(FilterDown(a.moves, |a.moves| - 1, DropBy(CheckSquares(v))), a.state))
      && (v1.inCheck && |v1.checks| != 1 ==> EfficientBody(v) == KingMoves(v1, k.row, k.col))
      && (!v1.inCheck ==>
            EfficientBody(v) == Gen(AllMoves(v1).moves + CastlesAfter(v).moves, CastlesAfter(v).state))
  {
  }

  /** get_valid_moves_efficient. */
  function ValidMovesEfficient(v: Game): Gen
    requires Generable(v)
  {
    EfficientBodyFrame(v);
    Settle(EfficientBody(v))
  }

  /** Two steps that each change only the pin list change only the pin list. */
  lemma PinsTrans(u: Game, v: Game, w: Game)
    requires v == u.(pins := v.pins) && w == v.(pins := w.pins)
    ensures w == u.(pins := w.pins)
  {
  }

  lemma KingSideState(v: Game, r: int, c: int)
    requires CanGenerate(v) && OnBoard(r, c) && c + 2 <= 7 && KingsCached(v)
    ensures var w := KingSideCastle(v, r, c).state; w == v.(pins := w.pins)
  {
    if v.grid[r][c + 1] == Empty && v.grid[r][c + 2] == Empty {
      ThreatState(v, r, c + 1);
      var t1 := SquareThreatened(v, r, c + 1);
      if !t1.hit {
        var u := t1.state;
        assert u.grid == v.grid && u.whiteKing == v.whiteKing && u.blackKing == v.blackKing && u.whiteToMove == v.whiteToMove;
        ThreatState(u, r, c + 2);
        PinsTrans(v, u, SquareThreatened(u, r, c + 2).state);
      }
    }
  }

  lemma QueenSideState(v: Game, r: int, c: int)
    requires CanGenerate(v) && OnBoard(r, c) && c - 3 >= 0 && KingsCached(v)
    ensures var w := QueenSideCastle(v, r, c).state; w == v.(pins := w.pins)
  {
    if v.grid[r][c - 1] == Empty && v.grid[r][c - 2] == Empty && v.grid[r][c - 3] == Empty {
      ThreatState(v, r, c - 1);
      var t1 := SquareThreatened(v, r, c - 1);
      if !t1.hit {
        var u := t1.state;
        assert u.grid == v.grid && u.whiteKing == v.whiteKing && u.blackKing == v.blackKing && u.whiteToMove == v.whiteToMove;
        ThreatState(u, r, c - 2);
        PinsTrans(v, u, SquareThreatened(u, r, c - 2).state);
        assert QueenSideCastle(v, r, c).state == SquareThreatened(u, r, c - 2).state;
      } else {
        assert QueenSideCastle(v, r, c).state == t1.state;
      }
    }
  }

  /** With the caches in step with the board, castle generation changes only
      the pin list. */
  lemma CastleState(v: Game, r: int, c: int)
    requires CanGenerate(v) && CastleReady(v, r, c) && KingsCached(v)
    ensures var w := CastleMoves(v, r, c).state; w == v.(pins := w.pins)
  {
    var t := SquareThreatened(v, r, c);
    ThreatState(v, r, c);
    if !t.hit {
      var u := t.state;
      var ks := if KingSideRight(u) then KingSideCastle(u, r, c) else Gen([], u);
      if KingSideRight(u) {
        KingSideState(u, r, c);
      }
      PinsTrans(v, u, ks.state);
      var x := ks.state;
      if QueenSideRight(x) {
        QueenSideState(x, r, c);
        PinsTrans(v, x, QueenSideCastle(x, r, c).state);
      }
    }
  }

  /** get_king_moves run from the mover's cached square leaves the caches
      as they were. */
  lemma KingMovesState(v: Game)
    requires OnBoard(v.MoverKing().row, v.MoverKing().col)
    ensures KingMoves(v, v.MoverKing().row, v.MoverKing().col).state == v
  {
  }

  /** Before the flags, get_valid_moves_efficient changes only the pin and
      check lists and the in-check flag. */
  lemma EfficientBodyState(v: Game)
    requires Generable(v)
    ensures var w := EfficientBody(v).state;
      w == v.(pins := w.pins, checks := w.checks, inCheck := w.inCheck)
  {
    var v1 := Scanned(v);
    if v1.inCheck {
      if |v1.checks| == 1 {
        AllMovesState(v1);
      } else {
        KingMovesState(v1);
      }
    } else {
      AllMovesState(v1);
      var a := AllMoves(v1);
      var kk := a.state.MoverKing();
      CastleState(a.state, kk.row, kk.col);
      PinsTrans(v1, a.state, CastleMoves(a.state, kk.row, kk.col).state);
    }
  }

  lemma EfficientBodyFrame(v: Game)
    requires Generable(v)
    ensures EfficientBody(v).state.grid == v.grid
  {
    EfficientBodyState(v);
  }
}

=== FILE: move.dfy ===
/**
 * The Move value of MoveClass.py: origin and destination, the pieces moved
 * and captured, the promotion / en-passant / castle flags, the integer
 * identity `moveID` used for equality, and the file/rank rendering.
 */
module Moves {
  import opened Pieces

  datatype Move = Move(
    startRow: int, startCol: int, endRow: int, endCol: int,
    pieceMoved: Square, pieceCaptured: Square,
    moveID: int,
    isPawnPromotion: bool, isCastleMove: bool,
    promotionChoice: char, isEnpassantMove: bool)
  {
    function Start(): Coord { Coord(startRow, startCol) }
    function End(): Coord { Coord(endRow, endCol) }
  }

  function MoveID(sr: int, sc: int, er: int, ec: int): int
  {
    sr * 1000 + sc * 100 + er * 10 + ec
  }

  /** Move.__init__: all fields are read from `g` once, at construction. */
  function Create(start: Coord, end: Coord, g: Grid, enpassant: bool, castle: bool): (m: Move)
    requires OnBoard(start.row, start.col) && OnBoard(end.row, end.col)
    ensures m.Start() == start && m.End() == end
    ensures m.pieceMoved == g[start.row][start.col]
  {
    var moved := g[start.row][start.col];
    var promotion :=
      if moved == Occupied(White, Pawn) && end.row == 0 then true
      else if moved == Occupied(Black, Pawn) && end.row == 7 then true
      else false;
    Move(start.row, start.col, end.row, end.col,
         moved,
         if enpassant then g[start.row][end.col] else g[end.row][end.col],
         MoveID(start.row, start.col, end.row, end.col),
         promotion, castle, 'Q', enpassant)
  }

  /** Move.__eq__: two moves are equal exactly when their identities are. */
  predicate Same(a: Move, b: Move)
  {
    a.moveID == b.moveID
  }

  /** A move built by Create from on-board coordinates. */
  predicate Constructed(m: Move, g: Grid)
  {
    OnBoard(m.startRow, m.startCol) && OnBoard(m.endRow, m.endCol) &&
    m == Create(m.Start(), m.End(), g, m.isEnpassantMove, m.isCastleMove)
  }

  /** The identity packs four digits: for on-board squares it determines them. */
  lemma IdDeterminesSquares(sr: int, sc: int, er: int, ec: int, sr': int, sc': int, er': int, ec': int)
    requires OnBoard(sr, sc) && OnBoard(er, ec) && OnBoard(sr', sc') && OnBoard(er', ec')
    ensures MoveID(sr, sc, er, ec) == MoveID(sr', sc', er', ec') <==>
            (sr == sr' && sc == sc' && er == er' && ec == ec')
  {
    var d := MoveID(sr, sc, er, ec) - MoveID(sr', sc', er', ec');
    var low := 100 * (sc - sc') + 10 * (er - er') + (ec - ec');
    var lower := 10 * (er - er') + (ec - ec');
    assert d == 1000 * (sr - sr') + low;
    assert -777 <= low <= 777;
    assert low == 100 * (sc - sc') + lower;
    assert -77 <= lower <= 77;
    if sr != sr' {
      assert d != 0;
    } else if sc != sc' {
      assert d == low;
    } else if er != er' {
      assert d == lower;
    }
  }

  /**
   * Equality of two constructed moves holds exactly when origin and
   * destination agree: pieces, flags and the board they were built from
   * play no part.
   */
  lemma SameIffSameSquares(a: Move, ga: Grid, b: Move, gb: Grid)
    requires Constructed(a, ga) && Constructed(b, gb)
    ensures Same(a, b) <==> (a.Start() == b.Start() && a.End() == b.End())
  {
    IdDeterminesSquares(a.startRow, a.startCol, a.endRow, a.endCol,
                        b.startRow, b.startCol, b.endRow, b.endCol);
  }

  /** The pieces recorded: the mover from the origin; the captured piece from
      the destination, or from (startRow, endCol) for an en-passant capture. */
  lemma CreatePieces(start: Coord, end: Coord, g: Grid, enpassant: bool, castle: bool)
    requires OnBoard(start.row, start.col) && OnBoard(end.row, end.col)
    ensures var m := Create(start, end, g, enpassant, castle);
      && m.pieceMoved == g[start.row][start.col]
      && (!enpassant ==> m.pieceCaptured == g[end.row][end.col])
      && (enpassant ==> m.pieceCaptured == g[start.row][end.col])
  {
  }

  /** The flags: promotion exactly for a white pawn reaching row 0 or a black
      pawn reaching row 7; castle and en passant as given; always a queen. */
  lemma CreateFlags(start: Coord, end: Coord, g: Grid, enpassant: bool, castle: bool)
    requires OnBoard(start.row, start.col) && OnBoard(end.row, end.col)
    ensures var m := Create(start, end, g, enpassant, castle);
      && (m.isPawnPromotion <==>
            (g[start.row][start.col] == Occupied(White, Pawn) && end.row == 0) ||
            (g[start.row][start.col] == Occupied(Black, Pawn) && end.row == 7))
      && m.isCastleMove == castle && m.isEnpassantMove == enpassant
      && m.promotionChoice == 'Q'
      && m.moveID == 1000 * start.row + 100 * start.col + 10 * end.row + end.col
  {
  }

  // ---------------------------------------------------------------------
  // Rank / file rendering

  const RanksToRows: map<char, int> :=
    map['1' := 7, '2' := 6, '3' := 5, '4' := 4, '5' := 3, '6' := 2, '7' := 1, '8' := 0]
  const RowsToRanks: map<int, char> :=
    map[7 := '1', 6 := '2', 5 := '3', 4 := '4', 3 := '5', 2 := '6', 1 := '7', 0 := '8']
  const FilesToCols: map<char, int> :=
    map['a' := 0, 'b' := 1, 'c' := 2, 'd' := 3, 'e' := 4, 'f' := 5, 'g' := 6, 'h' := 7]
  const ColsToFiles: map<int, char> :=
    map[0 := 'a', 1 := 'b', 2 := 'c', 3 := 'd', 4 := 'e', 5 := 'f', 6 := 'g', 7 := 'h']

  /** rowsToRanks undoes ranksToRows, and the other way round. */
  lemma RanksInverse()
    ensures forall k | k in RanksToRows :: RanksToRows[k] in RowsToRanks && RowsToRanks[RanksToRows[k]] == k
    ensures forall r | r in RowsToRanks :: RowsToRanks[r] in RanksToRows && RanksToRows[RowsToRanks[r]] == r
  {
    assert RanksToRows.Keys == {'1', '2', '3', '4', '5', '6', '7', '8'};
    assert RowsToRanks.Keys == {0, 1, 2, 3, 4, 5, 6, 7};
  }

  /** colsToFiles undoes filesToCols, and the other way round. */
  lemma FilesInverse()
    ensures forall k | k in FilesToCols :: FilesToCols[k] in ColsToFiles && ColsToFiles[FilesToCols[k]] == k
    ensures forall c | c in ColsToFiles :: ColsToFiles[c] in FilesToCols && FilesToCols[ColsToFiles[c]] == c
  {
    assert FilesToCols.Keys == {'a', 'b', 'c', 'd', 'e', 'f', 'g', 'h'};
    assert ColsToFiles.Keys == {0, 1, 2, 3, 4, 5, 6, 7};
  }

  /** Row r is rank 8 - r and column c is file 'a' + c. */
  lemma RankFileChars()
    ensures forall r | 0 <= r < 8 :: r in RowsToRanks && RowsToRanks[r] as int == '8' as int - r
    ensures forall c | 0 <= c < 8 :: c in ColsToFiles && ColsToFiles[c] as int == 'a' as int + c
  {
    assert RowsToRanks.Keys == {0, 1, 2, 3, 4, 5, 6, 7};
    assert ColsToFiles.Keys == {0, 1, 2, 3, 4, 5, 6, 7};
  }

  /** get_rank_file: the file letter followed by the rank digit. */
  function RankFile(row: int, col: int): (s: string)
    requires OnBoard(row, col)
    ensures |s| == 2
    ensures s[0] as int == 'a' as int + col && s[1] as int == '8' as int - row
  {
    RankFileChars();
    [ColsToFiles[col], RowsToRanks[row]]
  }

  /** get_chess_notation: origin square then destination square, "e2e4". */
  function ChessNotation(m: Move): (s: string)
    requires OnBoard(m.startRow, m.startCol) && OnBoard(m.endRow, m.endCol)
    ensures |s| == 4
    ensures s[..2] == RankFile(m.startRow, m.startCol) && s[2..] == RankFile(m.endRow, m.endCol)
  {
    RankFile(m.startRow, m.startCol) + RankFile(m.endRow, m.endCol)
  }

  /** Distinct on-board moves render differently: the notation determines
      origin and destination. */
  lemma NotationDeterminesSquares(a: Move, b: Move)
    requires OnBoard(a.startRow, a.startCol) && OnBoard(a.endRow, a.endCol)
    requires OnBoard(b.startRow, b.startCol) && OnBoard(b.endRow, b.endCol)
    requires ChessNotation(a) == ChessNotation(b)
    ensures a.Start() == b.Start() && a.End() == b.End()
  {
    var s, t := ChessNotation(a), ChessNotation(b);
    assert s[0] == t[0] && s[1] == t[1] && s[2] == t[2] && s[3] == t[3];
    assert s[0] == RankFile(a.startRow, a.startCol)[0];
    assert t[0] == RankFile(b.startRow, b.startCol)[0];
    assert s[1] == RankFile(a.startRow, a.startCol)[1];
    assert t[1] == RankFile(b.startRow, b.startCol)[1];
    assert s[2] == RankFile(a.endRow, a.endCol)[0];
    assert t[2] == RankFile(b.endRow, b.endCol)[0];
    assert s[3] == RankFile(a.endRow, a.endCol)[1];
    assert t[3] == RankFile(b.endRow, b.endCol)[1];
  }
}

=== FILE: naive.dfy ===
/**
 * get_valid_moves_naive of chessEngine.py: every pseudo-legal move is made,
 * the side flipped back, is_check asked, the side flipped again and the move
 * undone; a move after which the mover's king is attacked is removed by
 * value.  The loop runs downwards over the shrinking list, as the engine's
 * does.
 */
module Naive {
  import opened Pieces
  import opened Moves
  import opened Rules
  import opened Attacks
  import opened Generation
  import opened Legality
  import opened Generated
  import opened LegalFacts

  /** The state is_check is asked in: the move made and the side flipped
      back to the mover. */
  function Probed(v: Game, m: Move): (w: Game)
    requires Applicable(m)
    ensures w.whiteToMove == v.whiteToMove && w.grid == MakeMove(v, m).grid
  {
    var w := MakeMove(v, m);
    w.(whiteToMove := !w.whiteToMove)
  }

  /** After `m`, the mover's king (at its possibly moved cache) is attacked. */
  predicate LeavesInCheck(v: Game, m: Move)
    requires Playable(v) && Good(v, m)
  {
    MakeMovePlayable(v, m);
    IsCheck(Probed(v, m)).hit
  }

  /** The naive test as a function of the move. */
  function InCheckBy(v: Game): Move -> bool
  {
    m => Playable(v) && Good(v, m) && LeavesInCheck(v, m)
  }

  /** One iteration of the loop: the answer of is_check, and the state after
      the undo. */
  function NaiveStep(v: Game, m: Move): Probe
    requires Playable(v) && Consistent(v) && Good(v, m)
  {
    MakeMovePlayable(v, m);
    var w := Probed(v, m);
    var t := IsCheck(w);
    ThreatState(w, w.MoverKing().row, w.MoverKing().col);
    var back := t.state.(whiteToMove := !t.state.whiteToMove);
    assert back == MakeMove(v, m).(pins := t.state.pins);
    Probe(t.hit, UndoMove(back))
  }

  /** One iteration in the engine's own stages: the move made, is_check asked
      with the side flipped back, the side flipped again, the move undone. */
  lemma NaiveStepStages(v: Game, m: Move)
    requires Playable(v) && Consistent(v) && Good(v, m)
    ensures Applicable(m) && CanGenerate(MakeMove(v, m))
    ensures var u := MakeMove(v, m);
      var t := IsCheck(u.(whiteToMove := !u.whiteToMove));
      var back := t.state.(whiteToMove := !t.state.whiteToMove);
      Consistent(back) && NaiveStep(v, m) == Probe(t.hit, UndoMove(back))
  {
    MakeMovePlayable(v, m);
    var w := Probed(v, m);
    ThreatState(w, w.MoverKing().row, w.MoverKing().col);
  }

  /** Goodness does not depend on the pin list or the flags. */
  lemma GoodFlags(v: Game, w: Game, m: Move)
    requires w == v.(pins := w.pins, checkmate := w.checkmate, stalemate := w.stalemate)
    ensures Good(w, m) == Good(v, m)
  {
  }

  /** undo_move does not touch the pin list. */
  lemma UndoKeepsPins(w: Game, p: seq<Ray>)
    requires Consistent(w)
    ensures UndoMove(w.(pins := p)) == UndoMove(w).(pins := p)
  {
  }

  /** One iteration gives back the state it started from, with a new pin
      list and both flags cleared by undo_move. */
  lemma NaiveStepState(v: Game, m: Move)
    requires Playable(v) && Consistent(v) && Good(v, m)
    ensures var u := NaiveStep(v, m).state;
      u == v.(pins := u.pins, checkmate := false, stalemate := false)
    ensures NaiveStep(v, m).hit == LeavesInCheck(v, m)
  {
    MakeMovePlayable(v, m);
    MakeUndoRoundTrip(v, m);
    var w := Probed(v, m);
    var t := IsCheck(w);
    ThreatState(w, w.MoverKing().row, w.MoverKing().col);
    UndoKeepsPins(MakeMove(v, m), t.state.pins);
  }

  /** With no pins and cleared flags an iteration changes nothing. */
  lemma NaiveStepFixed(v: Game, m: Move)
    requires Playable(v) && Consistent(v) && Good(v, m)
    requires v.pins == [] && !v.checkmate && !v.stalemate
    ensures NaiveStep(v, m).state == v
  {
    MakeMovePlayable(v, m);
    MakeUndoRoundTrip(v, m);
    var w := Probed(v, m);
    var k := w.MoverKing();
    AllMovesNoPins(w.(whiteToMove := !w.whiteToMove));
    UndoKeepsPins(MakeMove(v, m), []);
  }

  /** Removal by value keeps a sub-list: every element left was there. */
  lemma RemoveSameIn(s: seq<Move>, x: Move)
    requires x in s
    ensures forall y | y in RemoveSame(s, x) :: y in s
  {
    forall y | y in RemoveSame(s, x)
      ensures y in s
    {
      assert multiset(RemoveSame(s, x))[y] > 0;
    }
  }

  /** The list after position i is tested: a failing move goes by value. */
  function Next(s: seq<Move>, i: int, hit: bool): seq<Move>
    requires 0 <= i < |s|
  {
    if hit then RemoveSame(s, s[i]) else s
  }

  /** What the naive loop needs of a state and its list: the state is
      playable and consistent, and every listed move is good in it. */
  predicate Ready(v: Game, s: seq<Move>)
  {
    Playable(v) && Consistent(v) && forall m | m in s :: Good(v, m)
  }

  /** After an iteration the state is still playable and consistent, and the
      moves left are still good in it. */
  lemma StepGood(v: Game, s: seq<Move>, i: int)
    requires Ready(v, s) && 0 <= i < |s|
    ensures var st := NaiveStep(v, s[i]); Ready(st.state, Next(s, i, st.hit))
  {
    var st := NaiveStep(v, s[i]);
    NaiveStepState(v, s[i]);
    RemoveSameIn(s, s[i]);
    forall m | m in Next(s, i, st.hit)
      ensures Good(st.state, m)
    {
      GoodFlags(v, st.state, m);
    }
  }

  /** The moves get_all_possible_moves returns are good in the state it
      leaves. */
  lemma AllMovesGoodAfter(v: Game)
    requires Playable(v)
    ensures Playable(AllMoves(v).state)
    ensures forall m | m in AllMoves(v).moves :: Good(AllMoves(v).state, m)
  {
    AllMovesState(v);
    AllMovesGood(v);
    forall m | m in AllMoves(v).moves
      ensures Good(AllMoves(v).state, m)
    {
      GoodFlags(v, AllMoves(v).state, m);
    }
  }

  /** The loop over positions i down to 0 of the list `s`. */
  function NaiveLoop(v: Game, s: seq<Move>, i: int): Gen
    requires Ready(v, s) && -1 <= i < |s|
    decreases i + 1
  {
    if i < 0 then Gen(s, v)
    else
      var st := NaiveStep(v, s[i]);
      StepGood(v, s, i);
      var s' := Next(s, i, st.hit);
      NaiveLoop(st.state, s', i - 1)
  }

  /** The flags at the end of get_valid_moves_naive: is_check is asked; an
      empty result sets checkmate when the mover is in check and stalemate
      otherwise; a non-empty one clears checkmate when the mover is in check
      and stalemate otherwise. */
  function NaiveSettle(l: Gen): Game
    requires CanGenerate(l.state)
  {
    var t := IsCheck(l.state);
    if |l.moves| == 0 then
      (if t.hit then t.state.(checkmate := true) else t.state.(stalemate := true))
    else
      (if t.hit then t.state.(checkmate := false) else t.state.(stalemate := false))
  }

  /** get_valid_moves_naive: the pseudo-legal moves, the loop, then the
      flags. */
  function ValidMovesNaive(v: Game): Gen
    requires Playable(v) && Consistent(v)
  {
    var a := AllMoves(v);
    AllMovesState(v);
    AllMovesGoodAfter(v);
    var l := NaiveLoop(a.state, a.moves, |a.moves| - 1);
    NaiveLoopState(a.state, a.moves, |a.moves| - 1);
    Gen(l.moves, NaiveSettle(l))
  }

  /** get_valid_moves_naive in its three steps: all moves, the loop, the
      flags. */
  lemma ValidMovesNaiveSteps(v: Game)
    requires Playable(v) && Consistent(v)
    ensures var a := AllMoves(v);
      Ready(a.state, a.moves) &&
      var l := NaiveLoop(a.state, a.moves, |a.moves| - 1);
      CanGenerate(l.state) && ValidMovesNaive(v) == Gen(l.moves, NaiveSettle(l))
  {
    AllMovesState(v);
    AllMovesGoodAfter(v);
    var a := AllMoves(v);
    NaiveLoopState(a.state, a.moves, |a.moves| - 1);
  }

  /** The loop changes the pin list and the flags only. */
  lemma {:induction false} NaiveLoopState(v: Game, s: seq<Move>, i: int)
    requires Ready(v, s) && -1 <= i < |s|
    ensures var u := NaiveLoop(v, s, i).state;
      u == v.(pins := u.pins, checkmate := u.checkmate, stalemate := u.stalemate)
    decreases i + 1
  {
    if i >= 0 {
      var st := NaiveStep(v, s[i]);
      StepGood(v, s, i);
      NaiveStepState(v, s[i]);
      NaiveLoopState(st.state, Next(s, i, st.hit), i - 1);
    }
  }

  /** Once the loop has run an iteration, undo_move has cleared both flags. */
  lemma {:induction false} NaiveLoopCleared(v: Game, s: seq<Move>, i: int)
    requires Ready(v, s) && 0 <= i < |s|
    ensures !NaiveLoop(v, s, i).state.checkmate && !NaiveLoop(v, s, i).state.stalemate
    decreases i + 1
  {
    var st := NaiveStep(v, s[i]);
    StepGood(v, s, i);
    var s' := Next(s, i, st.hit);
    assert NaiveLoop(v, s, i) == NaiveLoop(st.state, s', i - 1);
    if i > 0 {
      NaiveLoopCleared(st.state, s', i - 1);
    } else {
      NaiveStepState(v, s[i]);
    }
  }

  /** The loop keeps a sub-multiset of the list. */
  lemma {:induction false} NaiveLoopSub(v: Game, s: seq<Move>, i: int)
    requires Ready(v, s) && -1 <= i < |s|
    ensures multiset(NaiveLoop(v, s, i).moves) <= multiset(s)
    decreases i + 1
  {
    if i >= 0 {
      var st := NaiveStep(v, s[i]);
      StepGood(v, s, i);
      var s' := Next(s, i, st.hit);
      assert NaiveLoop(v, s, i) == NaiveLoop(st.state, s', i - 1);
      NaiveLoopSub(st.state, s', i - 1);
    }
  }

  /** Two generated moves that are equal by identity are the same value:
      same squares, same board, and flags fixed by the shape. */
  lemma GoodSame(v: Game, a: Move, b: Move)
    requires Good(v, a) && Good(v, b) && Same(a, b)
    ensures a == b
  {
    SameIffSameSquares(a, v.grid, b, v.grid);
  }

  /** With no pins and cleared flags, the loop is the downward remove-by-value
      filter with the fixed test "leaves the mover in check". */
  lemma {:induction false} NaiveLoopFilter(v: Game, s: seq<Move>, i: int)
    requires Ready(v, s) && -1 <= i < |s|
    requires v.pins == [] && !v.checkmate && !v.stalemate
    ensures NaiveLoop(v, s, i) == Gen(FilterDown(s, i, InCheckBy(v)), v)
    decreases i + 1
  {
    if i >= 0 {
      var st := NaiveStep(v, s[i]);
      NaiveStepState(v, s[i]);
      NaiveStepFixed(v, s[i]);
      StepGood(v, s, i);
      var s' := Next(s, i, st.hit);
      NaiveLoopFilter(v, s', i - 1);
    }
  }

  /** The moves of get_valid_moves_naive are those the loop leaves. */
  lemma NaiveMovesLoop(v: Game)
    requires Playable(v) && Consistent(v) && v.pins == []
    ensures AllMoves(v).state == v
    ensures forall m | m in AllMoves(v).moves :: Good(v, m)
    ensures var a := AllMoves(v).moves; ValidMovesNaive(v).moves == NaiveLoop(v, a, |a| - 1).moves
  {
    AllMovesNoPins(v);
    AllMovesGood(v);
  }

  /**
   * With no pins and cleared flags, get_valid_moves_naive returns, in
   * generation order, exactly the pseudo-legal moves after which the mover's
   * king is not attacked.
   */
  lemma NaiveKeepsSafe(v: Game)
    requires Playable(v) && Consistent(v) && v.pins == [] && !v.checkmate && !v.stalemate
    ensures ValidMovesNaive(v).moves == Kept(AllMoves(v).moves, InCheckBy(v))
  {
    var a := AllMoves(v).moves;
    NaiveMovesLoop(v);
    NaiveLoopFilter(v, a, |a| - 1);
    forall x, y | x in a && y in a && Same(x, y)
      ensures InCheckBy(v)(x) == InCheckBy(v)(y)
    {
      GoodSame(v, x, y);
    }
    FilterDownKept(a, |a| - 1, InCheckBy(v));
  }

  /** The same, member by member: a move is returned exactly when it is
      pseudo-legal and does not leave the mover in check. */
  lemma NaiveSafeMembers(v: Game)
    requires Playable(v) && Consistent(v) && v.pins == [] && !v.checkmate && !v.stalemate
    ensures forall m | m in ValidMovesNaive(v).moves ::
      m in AllMoves(v).moves && Good(v, m) && !LeavesInCheck(v, m)
    ensures forall m | m in AllMoves(v).moves ::
      Good(v, m) && (!LeavesInCheck(v, m) ==> m in ValidMovesNaive(v).moves)
  {
    NaiveMovesLoop(v);
    NaiveKeepsSafe(v);
    KeptMembers(AllMoves(v).moves, InCheckBy(v));
  }

  /** The naive generator returns a sub-multiset of the pseudo-legal moves. */
  lemma NaiveSub(v: Game)
    requires Playable(v) && Consistent(v)
    ensures multiset(ValidMovesNaive(v).moves) <= multiset(AllMoves(v).moves)
  {
    var a := AllMoves(v);
    AllMovesState(v);
    AllMovesGoodAfter(v);
    NaiveLoopSub(a.state, a.moves, |a.moves| - 1);
  }

  /** The flags: with at least one pseudo-legal move, undo_move has cleared
      both, and the final is_check leaves them cleared; an empty result then
      sets exactly one of them. */
  lemma NaiveFlags(v: Game)
    requires Playable(v) && Consistent(v) && |AllMoves(v).moves| > 0
    ensures var r := ValidMovesNaive(v);
      && (|r.moves| > 0 ==> !r.state.checkmate && !r.state.stalemate)
      && (|r.moves| == 0 ==> r.state.checkmate != r.state.stalemate)
  {
    var a := AllMoves(v);
    AllMovesState(v);
    AllMovesGoodAfter(v);
    var l := NaiveLoop(a.state, a.moves, |a.moves| - 1);
    NaiveLoopState(a.state, a.moves, |a.moves| - 1);
    NaiveLoopCleared(a.state, a.moves, |a.moves| - 1);
    var t := IsCheck(l.state);
    ThreatState(l.state, l.state.MoverKing().row, l.state.MoverKing().col);
    assert !t.state.checkmate && !t.state.stalemate;
    var r := ValidMovesNaive(v);
    assert r.moves == l.moves && r.state == NaiveSettle(l);
  }

  /** The flags without any pseudo-legal move: no undo_move runs, so the
      result is empty, one flag is set and the other keeps its value. */
  lemma NaiveFlagsNoMoves(v: Game)
    requires Playable(v) && Consistent(v) && |AllMoves(v).moves| == 0
    ensures var r := ValidMovesNaive(v);
      && |r.moves| == 0 && (r.state.checkmate || r.state.stalemate)
      && (r.state.checkmate == v.checkmate || r.state.stalemate == v.stalemate)
  {
    var a := AllMoves(v);
    AllMovesState(v);
    AllMovesGoodAfter(v);
    var l := NaiveLoop(a.state, a.moves, -1);
    assert l.state == a.state && l.moves == a.moves;
    var t := IsCheck(l.state);
    ThreatState(l.state, l.state.MoverKing().row, l.state.MoverKing().col);
    assert t.state.checkmate == v.checkmate && t.state.stalemate == v.stalemate;
    ValidMovesNaiveSteps(v);
  }

}

=== FILE: pieces.dfy ===
/**
 * Board vocabulary shared by the whole engine: the content of one square
 * (the engine's two-character piece codes such as "wp", "bK" or "__"),
 * the 8x8 grid of squares, and board coordinates.
 */
module Pieces {

  datatype Option<T> = None | Some(value: T)

  datatype Color = White | Black

  /** The piece letters "p", "N", "B", "R", "Q", "K". */
  datatype Kind = Pawn | Knight | Bishop | Rook | Queen | King

  /** One square: "__" is Empty, "wN" is Occupied(White, Knight). */
  datatype Square = Empty | Occupied(color: Color, kind: Kind)

  /** A (row, column) pair; row 0 is black's back rank, row 7 white's. */
  datatype Coord = Coord(row: int, col: int)

  /** The 4-tuples of the pin and check lists: a square and a ray direction. */
  datatype Ray = Ray(row: int, col: int, dr: int, dc: int)

  function Opponent(c: Color): (o: Color)
    ensures o != c
  {
    if c == White then Black else White
  }

  /** The colour whose turn it is, from the engine's `whiteToMove` flag. */
  function SideColor(whiteToMove: bool): Color
  {
    if whiteToMove then White else Black
  }

  predicate OnBoard(r: int, c: int)
  {
    0 <= r < 8 && 0 <= c < 8
  }

  predicate IsColor(s: Square, c: Color)
  {
    s.Occupied? && s.color == c
  }

  predicate IsPiece(s: Square, c: Color, k: Kind)
  {
    s == Occupied(c, k)
  }

  /** An 8x8 board of squares, indexed [row][col]. */
  type Grid = g: seq<seq<Square>> | |g| == 8 && forall r | 0 <= r < 8 :: |g[r]| == 8
    witness seq(8, _ => seq(8, _ => Empty))

  function At(g: Grid, r: int, c: int): Square
    requires OnBoard(r, c)
  {
    g[r][c]
  }

  /** The board after writing `s` to square (r, c). */
  function Put(g: Grid, r: int, c: int, s: Square): (h: Grid)
    requires OnBoard(r, c)
    ensures h[r][c] == s
    ensures forall i, j | OnBoard(i, j) && (i != r || j != c) :: h[i][j] == g[i][j]
  {
    g[r := g[r][c := s]]
  }

  /** Two boards agree on every square. */
  lemma GridExt(g: Grid, h: Grid)
    requires forall i, j | OnBoard(i, j) :: g[i][j] == h[i][j]
    ensures g == h
  {
    forall i | 0 <= i < 8
      ensures g[i] == h[i]
    {
      assert forall j | 0 <= j < 8 :: g[i][j] == h[i][j];
    }
  }

  /** Appending is associative (stated once so loops that append can cite it). */
  lemma AppendAssoc<T>(a: seq<T>, b: seq<T>, c: seq<T>)
    ensures a + (b + c) == (a + b) + c
  {
  }

  /** One step of a loop that builds `full` piece by piece: if `before`
      followed by `whole` is `full` and `whole` is `added` followed by
      `rest`, then `before + added` followed by `rest` is `full`. */
  lemma AppendStep<T>(out: seq<T>, before: seq<T>, added: seq<T>, rest: seq<T>, whole: seq<T>, full: seq<T>)
    requires out == before + added && whole == added + rest && before + whole == full
    ensures out + rest == full
  {
    AppendAssoc(before, added, rest);
  }

  /** Appending nothing changes nothing. */
  lemma AppendEmpty<T>(a: seq<T>)
    ensures a + [] == a
  {
  }

  /** The initial position of Gamestate.__init__. */
  function StartGrid(): Grid
  {
    var back := [Rook, Knight, Bishop, Queen, King, Bishop, Knight, Rook];
    [ seq(8, c requires 0 <= c < 8 => Occupied(Black, back[c])),
      seq(8, _ => Occupied(Black, Pawn)),
      seq(8, _ => Empty), seq(8, _ => Empty), seq(8, _ => Empty), seq(8, _ => Empty),
      seq(8, _ => Occupied(White, Pawn)),
      seq(8, c requires 0 <= c < 8 => Occupied(White, back[c])) ]
  }
}

=== FILE: rules.dfy ===
/**
 * The state of chessEngine.py's Gamestate as a value, and the effect of
 * make_move, undo_move and update_castle_rights on it. The class in
 * gamestate.dfy updates its fields in place and is proved to follow these
 * functions; the properties of make/undo are proved here, once.
 */
module Rules {
  import opened Pieces
  import opened Moves

  /** CastleRights(white_king_castle, black_king_castle, white_queen_castle,
      black_queen_castle), in the constructor's argument order. */
  datatype Rights = Rights(whiteKingCastle: bool, blackKingCastle: bool,
                           whiteQueenCastle: bool, blackQueenCastle: bool)

  /** Every field of a Gamestate that the engine reads or writes. */
  datatype Game = Game(
    grid: Grid,
    whiteToMove: bool,
    moveLog: seq<Move>,
    whiteKing: Coord, blackKing: Coord,
    checkmate: bool, stalemate: bool, inCheck: bool,
    pins: seq<Ray>, checks: seq<Ray>,
    rights: Rights,
    ep: Option<Coord>,
    epLog: seq<Option<Coord>>,
    rightsLog: seq<Rights>)
  {
    function KingOf(c: Color): Coord
    {
      if c == White then whiteKing else blackKing
    }

    /** The cache of the king of the side to move. */
    function MoverKing(): Coord
    {
      KingOf(SideColor(whiteToMove))
    }

    /** The same game with the king cache of colour `c` set to `k`. */
    function WithKing(c: Color, k: Coord): (v: Game)
      ensures v.KingOf(c) == k && v.KingOf(Opponent(c)) == KingOf(Opponent(c))
    {
      if c == White then this.(whiteKing := k) else this.(blackKing := k)
    }
  }

  /** What make_move and undo_move act on and must restore: everything but the
      per-generation caches (pins, checks, inCheck) and the two result flags. */
  datatype Persistent = Persistent(
    grid: Grid, whiteToMove: bool, moveLog: seq<Move>,
    whiteKing: Coord, blackKing: Coord, rights: Rights,
    ep: Option<Coord>, epLog: seq<Option<Coord>>, rightsLog: seq<Rights>)

  function PersistentOf(v: Game): Persistent
  {
    Persistent(v.grid, v.whiteToMove, v.moveLog, v.whiteKing, v.blackKing,
               v.rights, v.ep, v.epLog, v.rightsLog)
  }

  /** Gamestate.__init__. */
  function Initial(): (v: Game)
    ensures Consistent(v) && Playable(v) && v.moveLog == []
  {
    var all := Rights(true, true, true, true);
    var v := Game(StartGrid(), true, [], Coord(7, 4), Coord(0, 4), false, false, false, [], [],
                  all, None, [None], [all]);
    assert KingsCached(v) by {
      forall i, j | OnBoard(i, j)
        ensures v.grid[i][j] == Occupied(White, King) ==> v.whiteKing == Coord(i, j)
        ensures v.grid[i][j] == Occupied(Black, King) ==> v.blackKing == Coord(i, j)
      {
        assert i == 0 || i == 7 || v.grid[i][j] == Empty || v.grid[i][j] == Occupied(White, Pawn) || v.grid[i][j] == Occupied(Black, Pawn);
      }
    }
    v
  }

  // ---------------------------------------------------------------------
  // Preconditions of make_move / undo_move

  /** What make_move needs of a move so that every board index it writes is in
      range (a negative Python index would wrap around; an index of 8 raises). */
  predicate Applicable(m: Move)
  {
    && OnBoard(m.startRow, m.startCol) && OnBoard(m.endRow, m.endCol)
    && (m.isPawnPromotion ==> m.pieceMoved.Occupied?)
    && (m.isCastleMove ==>
          if m.endCol - m.startCol == 2 then 1 <= m.endCol <= 6 else 2 <= m.endCol <= 6)
  }

  /** The history invariant: the two snapshot logs are one entry longer than the
      move log (they are seeded with the initial state), and their last entries
      are the current en-passant target and castling rights. */
  predicate Consistent(v: Game)
  {
    && |v.epLog| == |v.moveLog| + 1 == |v.rightsLog|
    && v.epLog[|v.epLog| - 1] == v.ep
    && v.rightsLog[|v.rightsLog| - 1] == v.rights
    && (forall i | 0 <= i < |v.moveLog| :: Applicable(v.moveLog[i]))
  }

  /** The king caches: every square holding a king is that colour's cache. */
  predicate KingsCached(v: Game)
  {
    forall i, j | 0 <= i < 8 && 0 <= j < 8 ::
      (v.grid[i][j] == Occupied(White, King) ==> v.whiteKing == Coord(i, j)) &&
      (v.grid[i][j] == Occupied(Black, King) ==> v.blackKing == Coord(i, j))
  }

  /** No pawn stands on the rank it promotes on (the generators index one row
      beyond a pawn). */
  predicate PawnsInRange(g: Grid)
  {
    forall r, c | 0 <= r < 8 && 0 <= c < 8 ::
      (g[r][c] == Occupied(White, Pawn) ==> r >= 1) && (g[r][c] == Occupied(Black, Pawn) ==> r <= 6)
  }

  /** Castling is generated from the cached king square: a colour holding a
      right has its king cache on its home square. */
  predicate CastleHomes(v: Game)
  {
    && (v.rights.whiteKingCastle || v.rights.whiteQueenCastle ==> v.whiteKing == Coord(7, 4))
    && (v.rights.blackKingCastle || v.rights.blackQueenCastle ==> v.blackKing == Coord(0, 4))
  }

  /** The states get_valid_moves_efficient is defined on: every square it
      indexes is on the board, and the king caches are in step with it. */
  predicate Generable(v: Game)
  {
    && OnBoard(v.whiteKing.row, v.whiteKing.col) && OnBoard(v.blackKing.row, v.blackKing.col)
    && PawnsInRange(v.grid)
    && CastleHomes(v)
    && KingsCached(v)
  }

  /** Generable, and a recorded en-passant target is an empty square: the
      states that make_move keeps and whose generated moves it can play. */
  predicate Playable(v: Game)
  {
    && Generable(v)
    && (v.ep.Some? ==> OnBoard(v.ep.value.row, v.ep.value.col) && v.grid[v.ep.value.row][v.ep.value.col] == Empty)
  }

  /** The square the rook comes from when `m` castles. */
  function RookFrom(m: Move): Coord
  {
    if m.endCol - m.startCol == 2 then Coord(m.endRow, m.endCol + 1) else Coord(m.endRow, m.endCol - 2)
  }

  /** The square the rook lands on when `m` castles. */
  function RookTo(m: Move): Coord
  {
    if m.endCol - m.startCol == 2 then Coord(m.endRow, m.endCol - 1) else Coord(m.endRow, m.endCol + 1)
  }

  /**
   * A move that make_move followed by undo_move restores exactly: built from
   * the current board, origin and destination distinct, an en-passant capture
   * lands on an empty square diagonally, a castle moves two files along its
   * row onto a free rook square, and a moving king starts on its cached square.
   */
  predicate WellFormed(v: Game, m: Move)
  {
    && Constructed(m, v.grid) && m.Start() != m.End()
    && (m.isEnpassantMove ==>
          && v.grid[m.endRow][m.endCol] == Empty
          && m.startRow != m.endRow && m.startCol != m.endCol && !m.isCastleMove)
    && (m.isCastleMove ==>
          && m.startRow == m.endRow
          && (m.endCol == m.startCol + 2 || m.endCol == m.startCol - 2)
          && 2 <= m.endCol <= 6
          && v.grid[RookTo(m).row][RookTo(m).col] == Empty)
    && (m.pieceMoved == Occupied(White, King) ==> v.whiteKing == m.Start())
    && (m.pieceMoved == Occupied(Black, King) ==> v.blackKing == m.Start())
  }

  /** The extra facts under which make_move keeps a state playable: a pawn's
      double step passes over an empty square, and castling does not carry a
      king along as its "rook". */
  predicate KeepsPlayable(v: Game, m: Move)
    requires Constructed(m, v.grid)
  {
    && (m.pieceMoved.Occupied? && m.pieceMoved.kind == Pawn &&
        (m.startRow - m.endRow == 2 || m.endRow - m.startRow == 2) ==>
          v.grid[(m.startRow + m.endRow) / 2][m.endCol] == Empty)
    && (m.isCastleMove && OnBoard(RookFrom(m).row, RookFrom(m).col) ==>
          !(v.grid[RookFrom(m).row][RookFrom(m).col].Occupied? &&
            v.grid[RookFrom(m).row][RookFrom(m).col].kind == King))
  }

  lemma WellFormedApplicable(v: Game, m: Move)
    requires WellFormed(v, m)
    ensures Applicable(m)
  {
    CreateFlags(m.Start(), m.End(), v.grid, m.isEnpassantMove, m.isCastleMove);
  }

  // ---------------------------------------------------------------------
  // make_move

  /** The board writes of make_move, in the order the engine performs them. */
  function ApplyGrid(g: Grid, m: Move): Grid
    requires Applicable(m)
  {
    var g1 := Put(Put(g, m.startRow, m.startCol, Empty), m.endRow, m.endCol, m.pieceMoved);
    var g2 := if m.isPawnPromotion then Put(g1, m.endRow, m.endCol, Occupied(m.pieceMoved.color, Queen)) else g1;
    var g3 := if m.isEnpassantMove then Put(g2, m.startRow, m.endCol, Empty) else g2;
    if m.isCastleMove then RookAcross(g3, m) else g3
  }

  /** The rook half of a castle: the rook jumps to the square the king crossed. */
  function RookAcross(g: Grid, m: Move): Grid
    requires Applicable(m) && m.isCastleMove
  {
    if m.endCol - m.startCol == 2 then
      Put(Put(g, m.endRow, m.endCol - 1, g[m.endRow][m.endCol + 1]), m.endRow, m.endCol + 1, Empty)
    else
      Put(Put(g, m.endRow, m.endCol + 1, g[m.endRow][m.endCol - 2]), m.endRow, m.endCol - 2, Empty)
  }

  /** The en-passant target make_move records. */
  function EpTarget(m: Move): Option<Coord>
  {
    if m.pieceMoved.Occupied? && m.pieceMoved.kind == Pawn &&
       (m.startRow - m.endRow == 2 || m.endRow - m.startRow == 2)
    then Some(Coord((m.startRow + m.endRow) / 2, m.endCol))
    else None
  }

  /** update_castle_rights. The black-rook branch tests row 7 (white's back rank)
      and its king-side assignment writes a misspelled attribute that nothing
      reads, so it changes no right; rook captures test the mover's origin. */
  function UpdateCastleRights(r: Rights, m: Move): Rights
  {
    if m.pieceMoved == Occupied(White, King) then
      r.(whiteKingCastle := false, whiteQueenCastle := false)
    else if m.pieceMoved == Occupied(Black, King) then
      r.(blackKingCastle := false, blackQueenCastle := false)
    else if m.pieceMoved == Occupied(White, Rook) || m.pieceCaptured == Occupied(White, Rook) then
      if m.startRow == 7 && m.startCol == 0 then r.(whiteQueenCastle := false)
      else if m.startRow == 7 && m.startCol == 7 then r.(whiteKingCastle := false)
      else r
    else if m.pieceMoved == Occupied(Black, Rook) || m.pieceCaptured == Occupied(Black, Rook) then
      if m.startRow == 7 && m.startCol == 0 then r.(blackQueenCastle := false)
      else r
    else r
  }

  /** make_move. */
  function MakeMove(v: Game, m: Move): (w: Game)
    requires Applicable(m)
    ensures Consistent(v) ==> Consistent(w)
  {
    var wk := if m.pieceMoved == Occupied(White, King) then m.End() else v.whiteKing;
    var bk := if m.pieceMoved == Occupied(Black, King) then m.End() else v.blackKing;
    var ep := EpTarget(m);
    var rights := UpdateCastleRights(v.rights, m);
    v.(grid := ApplyGrid(v.grid, m), moveLog := v.moveLog + [m],
       whiteKing := wk, blackKing := bk, whiteToMove := !v.whiteToMove,
       ep := ep, epLog := v.epLog + [ep],
       rights := rights, rightsLog := v.rightsLog + [rights])
  }

  // ---------------------------------------------------------------------
  // undo_move

  /** The board writes of undo_move for the popped move `m`. */
  function RevertGrid(g: Grid, m: Move): Grid
    requires Applicable(m)
  {
    var h1 := Put(Put(g, m.startRow, m.startCol, m.pieceMoved), m.endRow, m.endCol, m.pieceCaptured);
    var h2 := if m.isEnpassantMove then Put(Put(h1, m.endRow, m.endCol, Empty), m.startRow, m.endCol, m.pieceCaptured) else h1;
    if m.isCastleMove then RookBack(h2, m) else h2
  }

  /** undo_move's rook half of a castle: the rook returns to its corner. */
  function RookBack(g: Grid, m: Move): Grid
    requires Applicable(m) && m.isCastleMove
  {
    if m.endCol - m.startCol == 2 then
      Put(Put(g, m.endRow, m.endCol + 1, g[m.endRow][m.endCol - 1]), m.endRow, m.endCol - 1, Empty)
    else
      Put(Put(g, m.endRow, m.endCol - 2, g[m.endRow][m.endCol + 1]), m.endRow, m.endCol + 1, Empty)
  }

  /** undo_move; on an empty move log it changes nothing. */
  function UndoMove(v: Game): (w: Game)
    requires Consistent(v)
    ensures Consistent(w)
    ensures |v.moveLog| == 0 ==> w == v
    ensures |v.moveLog| > 0 ==> |w.moveLog| == |v.moveLog| - 1 && !w.checkmate && !w.stalemate
  {
    if |v.moveLog| == 0 then v
    else
      var m := v.moveLog[|v.moveLog| - 1];
      var epLog := v.epLog[..|v.epLog| - 1];
      var rightsLog := v.rightsLog[..|v.rightsLog| - 1];
      v.(grid := RevertGrid(v.grid, m), moveLog := v.moveLog[..|v.moveLog| - 1],
         whiteToMove := !v.whiteToMove,
         whiteKing := if m.pieceMoved == Occupied(White, King) then m.Start() else v.whiteKing,
         blackKing := if m.pieceMoved == Occupied(Black, King) then m.Start() else v.blackKing,
         epLog := epLog, ep := epLog[|epLog| - 1],
         rightsLog := rightsLog, rights := rightsLog[|rightsLog| - 1],
         checkmate := false, stalemate := false)
  }

  // ---------------------------------------------------------------------
  // Properties of make_move / undo_move

  /** The board writes of undo_move revert those of make_move. */
  lemma RevertApply(g: Grid, v: Game, m: Move)
    requires WellFormed(v, m) && g == v.grid
    ensures Applicable(m) && RevertGrid(ApplyGrid(g, m), m) == g
  {
    WellFormedApplicable(v, m);
    CreatePieces(m.Start(), m.End(), g, m.isEnpassantMove, m.isCastleMove);
    var h := RevertGrid(ApplyGrid(g, m), m);
    forall i, j | OnBoard(i, j)
      ensures h[i][j] == g[i][j]
    {
    }
    GridExt(h, g);
  }

  /** make_move followed by undo_move restores the game exactly, except that
      undo_move clears the checkmate and stalemate flags. */
  lemma MakeUndoRoundTrip(v: Game, m: Move)
    requires Consistent(v) && WellFormed(v, m)
    ensures Applicable(m)
    ensures UndoMove(MakeMove(v, m)) == v.(checkmate := false, stalemate := false)
  {
    RevertApply(v.grid, v, m);
    var w := MakeMove(v, m);
    var u := UndoMove(w);
    assert w.moveLog[|w.moveLog| - 1] == m;
    assert w.moveLog[..|w.moveLog| - 1] == v.moveLog;
    assert w.epLog[..|w.epLog| - 1] == v.epLog;
    assert w.rightsLog[..|w.rightsLog| - 1] == v.rightsLog;
  }

  /** The persistent part of the round trip. */
  lemma MakeUndoPersistent(v: Game, m: Move)
    requires Consistent(v) && WellFormed(v, m)
    ensures Applicable(m) && PersistentOf(UndoMove(MakeMove(v, m))) == PersistentOf(v)
  {
    MakeUndoRoundTrip(v, m);
  }

  /** make_move pushes exactly one entry on each of the three logs. */
  lemma MakeMoveLogs(v: Game, m: Move)
    requires Consistent(v) && Applicable(m)
    ensures var w := MakeMove(v, m);
      && w.moveLog == v.moveLog + [m]
      && |w.epLog| == |v.epLog| + 1 && |w.rightsLog| == |v.rightsLog| + 1
      && w.epLog[|w.epLog| - 1] == w.ep && w.rightsLog[|w.rightsLog| - 1] == w.rights
  {
  }

  /** The king caches change only when a king moves, and then to its destination. */
  lemma MakeMoveKings(v: Game, m: Move)
    requires Applicable(m)
    ensures var w := MakeMove(v, m);
      && (w.whiteKing != v.whiteKing ==> m.pieceMoved == Occupied(White, King) && w.whiteKing == m.End())
      && (w.blackKing != v.blackKing ==> m.pieceMoved == Occupied(Black, King) && w.blackKing == m.End())
      && (m.pieceMoved == Occupied(White, King) ==> w.whiteKing == m.End())
      && (m.pieceMoved == Occupied(Black, King) ==> w.blackKing == m.End())
  {
  }

  /** The en-passant target after make_move is the square a pawn's two-row
      advance passed over, and empty after any other move. */
  lemma MakeMoveEnPassant(v: Game, m: Move)
    requires Applicable(m)
    ensures var w := MakeMove(v, m);
      && (w.ep.Some? <==> m.pieceMoved.Occupied? && m.pieceMoved.kind == Pawn &&
                           (m.startRow - m.endRow == 2 || m.endRow - m.startRow == 2))
      && (w.ep.Some? ==> w.ep.value.col == m.endCol &&
                         w.ep.value.row - m.startRow == m.endRow - w.ep.value.row)
  {
  }

  /** update_castle_rights never grants a right, and a king move revokes both
      rights of its colour. */
  lemma CastleRightsMonotone(r: Rights, m: Move)
    ensures var u := UpdateCastleRights(r, m);
      && (u.whiteKingCastle ==> r.whiteKingCastle) && (u.whiteQueenCastle ==> r.whiteQueenCastle)
      && (u.blackKingCastle ==> r.blackKingCastle) && (u.blackQueenCastle ==> r.blackQueenCastle)
      && (m.pieceMoved == Occupied(White, King) ==> !u.whiteKingCastle && !u.whiteQueenCastle)
      && (m.pieceMoved == Occupied(Black, King) ==> !u.blackKingCastle && !u.blackQueenCastle)
  {
  }

  /** As written, black's king-side right is revoked only by a black king move:
      no rook move or rook capture ever clears it. */
  lemma BlackKingSideOnlyByKing(r: Rights, m: Move)
    requires m.pieceMoved != Occupied(Black, King)
    ensures UpdateCastleRights(r, m).blackKingCastle == r.blackKingCastle
  {
  }

  /** As written, a rook captured on its home corner leaves the right standing
      unless the capturing piece itself started on that colour's corner. */
  lemma RookCaptureKeepsRight(r: Rights, m: Move)
    requires m.pieceCaptured == Occupied(White, Rook) && m.endRow == 7 && m.endCol == 7
    requires m.pieceMoved.Occupied? && m.pieceMoved.color == Black && m.pieceMoved.kind != King
    requires !(m.startRow == 7 && m.startCol == 7)
    ensures UpdateCastleRights(r, m).whiteKingCastle == r.whiteKingCastle
  {
  }

  /** Where each square of the board after make_move comes from: the mover
      (or its promoted queen) on the destination, the rook square's former
      content on the square the rook lands on, an untouched square other than
      the origin, or nothing. */
  lemma ApplyGridSquare(v: Game, m: Move, i: int, j: int)
    requires WellFormed(v, m) && OnBoard(i, j)
    ensures Applicable(m)
    ensures var h := ApplyGrid(v.grid, m)[i][j];
      || (Coord(i, j) == m.End() && !m.isPawnPromotion && h == m.pieceMoved)
      || (Coord(i, j) == m.End() && m.isPawnPromotion && h == Occupied(m.pieceMoved.color, Queen))
      || (m.isCastleMove && Coord(i, j) == RookTo(m) && h == v.grid[RookFrom(m).row][RookFrom(m).col])
      || h == Empty
      || (h == v.grid[i][j] && Coord(i, j) != m.Start() && Coord(i, j) != m.End() &&
          (m.isCastleMove ==> Coord(i, j) != RookTo(m)))
  {
    WellFormedApplicable(v, m);
  }

  /** make_move keeps a state playable for a well-formed move whose double
      step passes an empty square and whose castle moves no king. */
  lemma MakeMovePlayable(v: Game, m: Move)
    requires Playable(v) && WellFormed(v, m) && KeepsPlayable(v, m)
    ensures Applicable(m) && Playable(MakeMove(v, m))
  {
    WellFormedApplicable(v, m);
    CreateFlags(m.Start(), m.End(), v.grid, m.isEnpassantMove, m.isCastleMove);
    CastleRightsMonotone(v.rights, m);
    MakeMoveKingsCached(v, m);
    MakeMovePawnsInRange(v, m);
    MakeMoveTargetEmpty(v, m);
  }

  /** After make_move the king caches still point at the kings. */
  lemma MakeMoveKingsCached(v: Game, m: Move)
    requires Playable(v) && WellFormed(v, m) && KeepsPlayable(v, m)
    ensures Applicable(m) && KingsCached(MakeMove(v, m))
  {
    WellFormedApplicable(v, m);
    var w := MakeMove(v, m);
    var h := w.grid;
    forall i, j | 0 <= i < 8 && 0 <= j < 8
      ensures h[i][j] == Occupied(White, King) ==> w.whiteKing == Coord(i, j)
      ensures h[i][j] == Occupied(Black, King) ==> w.blackKing == Coord(i, j)
    {
      ApplyGridSquare(v, m, i, j);
    }
  }

  /** After make_move no pawn stands on its promotion rank. */
  lemma MakeMovePawnsInRange(v: Game, m: Move)
    requires Playable(v) && WellFormed(v, m)
    ensures Applicable(m) && PawnsInRange(MakeMove(v, m).grid)
  {
    WellFormedApplicable(v, m);
    CreateFlags(m.Start(), m.End(), v.grid, m.isEnpassantMove, m.isCastleMove);
    var h := MakeMove(v, m).grid;
    forall r, c | 0 <= r < 8 && 0 <= c < 8
      ensures (h[r][c] == Occupied(White, Pawn) ==> r >= 1) && (h[r][c] == Occupied(Black, Pawn) ==> r <= 6)
    {
      ApplyGridSquare(v, m, r, c);
    }
  }

  /** After make_move a recorded en-passant target is an empty square. */
  lemma MakeMoveTargetEmpty(v: Game, m: Move)
    requires Playable(v) && WellFormed(v, m) && KeepsPlayable(v, m)
    ensures Applicable(m)
    ensures var w := MakeMove(v, m);
      w.ep.Some? ==> OnBoard(w.ep.value.row, w.ep.value.col) && w.grid[w.ep.value.row][w.ep.value.col] == Empty
  {
    WellFormedApplicable(v, m);
    CreateFlags(m.Start(), m.End(), v.grid, m.isEnpassantMove, m.isCastleMove);
    var w := MakeMove(v, m);
    if w.ep.Some? {
      var c := w.ep.value;
      ApplyGridSquare(v, m, c.row, c.col);
    }
  }
}

=== FILE: search.dfy ===
/**
 * The move searches of chessIA.py as functions of the game value: the
 * greedy two-ply search, the recursive minimax, negamax, and negamax with
 * alpha-beta pruning, killer moves and iterative deepening. Each search
 * plays moves with make_move, generates replies with
 * get_valid_moves_efficient and takes them back with undo_move on one
 * shared game, so every function threads the game through the search and
 * returns the game it leaves. The process-wide globals next_move, counter
 * and KILLER_MOVES are a Context value threaded the same way.
 *
 * A search is defined on the positions the engine model is defined on: a
 * move it plays must be well formed in the position it is played from
 * (Rules.WellFormed: make_move then undo_move restores that position) and
 * the position reached must be generable. A search that would leave that
 * domain yields Stuck; every property is stated for searches that do not.
 *
 * The searches are stated for any Engine (make_move with the move
 * generator, and undo_move) that is Sound: undo_move gives back the
 * persistent part of the game make_move was played from. The functions of
 * chessIA.py hand them Chess: make_move, get_valid_moves_efficient and
 * undo_move of the engine model.
 */
module Search {
  import opened Pieces
  import opened Moves
  import opened Rules
  import opened Generation
  import opened Legality
  import opened LegalFacts
  import opened Evaluation

  /** DEPTH: the depth every search starts from; next_move is recorded only
      by a call at this depth. */
  const Depth: nat := 4

  // ---------------------------------------------------------------------
  // find_random

  /** find_random: the move at the index random.randint drew. */
  function FindRandom(moves: seq<Move>, draw: int): (m: Move)
    requires 0 <= draw < |moves|
    ensures m in moves
  {
    moves[draw]
  }

  /** Every move of the list is the answer to some draw. */
  lemma FindRandomCovers(moves: seq<Move>, m: Move)
    requires m in moves
    ensures exists draw | 0 <= draw < |moves| :: FindRandom(moves, draw) == m
  {
    var draw :| 0 <= draw < |moves| && moves[draw] == m;
    assert FindRandom(moves, draw) == m;
  }

  // ---------------------------------------------------------------------
  // The part of the game make_move and undo_move restore

  /** Games that agree on the persistent part agree on being consistent,
      generable and playable. */
  lemma SamePersistent(a: Game, b: Game)
    requires PersistentOf(a) == PersistentOf(b)
    ensures Consistent(a) == Consistent(b) && Generable(a) == Generable(b)
  {
  }

  /** The closing flag bookkeeping of get_valid_moves_efficient changes no
      persistent field. */
  lemma SettlePersistent(b: Gen)
    requires CanGenerate(b.state) && KingsCached(b.state)
    ensures PersistentOf(Settle(b).state) == PersistentOf(b.state)
  {
    if |b.moves| == 0 {
      var k := b.state.MoverKing();
      ThreatState(b.state, k.row, k.col);
    }
  }

  /** get_valid_moves_efficient changes no persistent field. */
  lemma EfficientPersistent(v: Game)
    requires Generable(v)
    ensures PersistentOf(ValidMovesEfficient(v).state) == PersistentOf(v)
  {
    EfficientBodyState(v);
    SettlePersistent(EfficientBody(v));
  }

  /** scoreboard_normal changes no persistent field. */
  lemma ScorePersistent(v: Game)
    requires Generable(v)
    ensures PersistentOf(ScoreNormal(v).state) == PersistentOf(v)
  {
    if !v.checkmate && !v.stalemate {
      ThreatState(v, v.MoverKing().row, v.MoverKing().col);
      var c1 := IsCheck(v);
      ThreatState(c1.state, c1.state.MoverKing().row, c1.state.MoverKing().col);
    }
  }

  /** undo_move after a search that restored the persistent part of the
      game make_move(m) produced gives back the persistent part of `v`. */
  lemma UndoRestores(v: Game, m: Move, u: Game)
    requires Consistent(v) && WellFormed(v, m) && Applicable(m)
    requires PersistentOf(u) == PersistentOf(MakeMove(v, m))
    ensures Consistent(u) && PersistentOf(UndoMove(u)) == PersistentOf(v)
  {
    MakeUndoPersistent(v, m);
    SamePersistent(u, MakeMove(v, m));
  }

  /**
   * The engine a search runs on: `play` is make_move(m) followed by the
   * move generator, giving the replies and the game they leave (None where
   * the model of make_move is not defined), and `undo` is undo_move.
   */
  datatype Engine = Engine(play: (Game, Move) -> Option<Gen>, undo: Game -> Game)

  /** What a search needs of its engine: a move it plays reaches a
      consistent, generable game, and undoing from any game that agrees
      with that one on the persistent part gives back the persistent part
      of the game the move was played from, with both flags cleared. */
  ghost predicate Sound(e: Engine)
  {
    && (forall v, m | e.play(v, m).Some? ::
          Consistent(e.play(v, m).value.state) && Generable(e.play(v, m).value.state))
    && (forall v, m, u | e.play(v, m).Some? && PersistentOf(u) == PersistentOf(e.play(v, m).value.state) ::
          KeyOf(e.undo(u)) == Cleared(KeyOf(v)))
  }

  /** What a search step reads of the game it starts from: the persistent
      part and the checkmate and stalemate flags. */
  datatype Key = Key(p: Persistent, checkmate: bool, stalemate: bool)

  function KeyOf(v: Game): Key
  {
    Key(PersistentOf(v), v.checkmate, v.stalemate)
  }

  /** The key of the game undo_move leaves: the flags are cleared. */
  function Cleared(k: Key): Key
  {
    k.(checkmate := false, stalemate := false)
  }

  /** The key move j of a loop from move i on is played from: `k` for move
      i, and for each later move the key undo_move left after the move
      before it. */
  function KeyAt(k: Key, i: nat, j: nat): Key
  {
    if j == i then k else Cleared(k)
  }

  /**
   * make_move(m) followed by get_valid_moves_efficient: the replies and the
   * game they leave. None when `v` is not consistent, `m` is not well formed
   * in `v` or the position it reaches is not generable.
   */
  function Play(v: Game, m: Move): (r: Option<Gen>)
    ensures r.Some? <==> Consistent(v) && WellFormed(v, m) && Applicable(m) && Generable(MakeMove(v, m))
    ensures r.Some? ==>
      && PersistentOf(r.value.state) == PersistentOf(MakeMove(v, m))
      && Consistent(r.value.state) && Generable(r.value.state)
  {
    if Consistent(v) && WellFormed(v, m) then
      WellFormedApplicable(v, m);
      var w := MakeMove(v, m);
      if Generable(w) then
        EfficientPersistent(w);
        SamePersistent(ValidMovesEfficient(w).state, w);
        Some(ValidMovesEfficient(w))
      else None
    else None
  }

  /** undo_move, on the consistent games it is modelled on. */
  function Undo(u: Game): (w: Game)
    ensures Consistent(u) ==> Consistent(w)
  {
    if Consistent(u) then UndoMove(u) else u
  }

  /** The engine of chessEngine.py. */
  const Chess := Engine(Play, Undo)

  /** make_move, get_valid_moves_efficient and undo_move form a sound
      engine. */
  lemma ChessSound()
    ensures Sound(Chess)
  {
    forall v, m, u | Chess.play(v, m).Some? && PersistentOf(u) == PersistentOf(Chess.play(v, m).value.state)
      ensures KeyOf(Chess.undo(u)) == Cleared(KeyOf(v))
    {
      UndoRestores(v, m, u);
      assert |u.moveLog| > 0 by {
        WellFormedApplicable(v, m);
        assert u.moveLog == MakeMove(v, m).moveLog;
      }
    }
  }

  /** One ply of a search: from a consistent, playable game whose mover's
      king stands on its cached square, every move the generator returns is
      well formed, every one but a castle keeps the game playable, and each
      that keeps it playable is one Play plays. */
  lemma EfficientPlays(v: Game, m: Move)
    requires Consistent(v) && Playable(v) && MoverKingHome(v) && m in ValidMovesEfficient(v).moves
    ensures WellFormed(v, m) && (!m.isCastleMove ==> KeepsPlayable(v, m))
    ensures KeepsPlayable(v, m) ==> Play(v, m).Some? && Playable(MakeMove(v, m))
  {
    EfficientWellFormed(v);
    if KeepsPlayable(v, m) {
      MakeMovePlayable(v, m);
    }
  }

  /** The larger of two scores. */
  function Max(a: real, b: real): (m: real)
    ensures m >= a && m >= b && (m == a || m == b)
  {
    if b > a then b else a
  }

  // ---------------------------------------------------------------------
  // The bookkeeping every search loop shares: a bound that a score
  // replaces when it is better, and the move that first set it

  /** Whether `a` is a better score than `b` for the side the bound is
      kept for: larger for the player, smaller for the opponent. */
  predicate Better(player: bool, a: real, b: real)
  {
    if player then a > b else a < b
  }

  /**
   * The bound `rs` a loop ends on, having started from `bound` at step
   * |seen| with the scores of the earlier steps `seen`, over the scores
   * `rc` of all steps: the earlier scores are kept, nothing is better than
   * `rs`, and `rs` is the start bound or one of the scores from step
   * |seen| on.
   */
  predicate Ranks(player: bool, rc: seq<real>, seen: seq<real>, bound: real, rs: real)
  {
    && |seen| <= |rc| && rc[..|seen|] == seen
    && !Better(player, bound, rs)
    && (forall k | |seen| <= k < |rc| :: !Better(player, rc[k], rs))
    && (rs == bound || exists k | |seen| <= k < |rc| :: rc[k] == rs)
  }

  /** A loop step that scores `score` and keeps the better of it and the
      bound: what the rest of the loop ranks from the updated bound, the
      loop from this step ranks from the bound before it. */
  lemma {:induction false} RanksStep(player: bool, rc: seq<real>, seen: seq<real>, score: real,
                                     bound: real, bound': real, rs: real)
    requires bound' == if Better(player, score, bound) then score else bound
    requires Ranks(player, rc, seen + [score], bound', rs)
    ensures Ranks(player, rc, seen, bound, rs) && rc[|seen|] == score
  {
    var i := |seen|;
    assert rc[..i] == rc[..i + 1][..i];
    assert rc[i] == rc[..i + 1][i];
    if rs != bound && rs == bound' {
      assert rc[i] == rs;
    }
  }

  /** Ranks for a loop from its first step: the bound is no better than the
      result, no step's score is better, and the result is the bound or the
      score of some step. */
  lemma RanksFromStart(player: bool, rc: seq<real>, bound: real, rs: real)
    requires Ranks(player, rc, [], bound, rs)
    ensures !Better(player, bound, rs)
    ensures forall k | 0 <= k < |rc| :: !Better(player, rc[k], rs)
    ensures rs == bound || exists k | 0 <= k < |rc| :: rc[k] == rs
  {
  }

  /**
   * The move `result` a loop records beside the bound it ends on, `rs`,
   * having started at step i from `bound` and the move `prev`: `prev` when
   * the bound never improved, and otherwise the move of the first step from
   * i on whose score `rs` is, every earlier step scoring worse.
   */
  predicate FirstReach(player: bool, rc: seq<real>, i: nat, bound: real, rs: real,
                       tags: seq<Move>, prev: Option<Move>, result: Option<Move>)
    requires |tags| == |rc|
  {
    && (rs == bound ==> result == prev)
    && (rs != bound ==> exists k | i <= k < |rc| ::
          result == Some(tags[k]) && rc[k] == rs && forall j | i <= j < k :: Better(player, rs, rc[j]))
  }

  /** A loop step that records its move when its score beats the bound:
      what the rest of the loop records from the updated bound and move,
      the loop from this step records from the bound and move before it. */
  lemma {:induction false} FirstReachStep(player: bool, rc: seq<real>, i: nat, bound: real, bound': real,
                                          rs: real, tags: seq<Move>, prev: Option<Move>, prev': Option<Move>,
                                          result: Option<Move>)
    requires i < |rc| == |tags|
    requires bound' == if Better(player, rc[i], bound) then rc[i] else bound
    requires prev' == if Better(player, rc[i], bound) then Some(tags[i]) else prev
    requires !Better(player, bound', rs)
    requires FirstReach(player, rc, i + 1, bound', rs, tags, prev', result)
    ensures FirstReach(player, rc, i, bound, rs, tags, prev, result)
  {
    if rs != bound {
      if Better(player, rc[i], bound) && rs == rc[i] {
        assert result == Some(tags[i]) && rc[i] == rs;
      } else {
        var k :| i < k < |rc| && result == Some(tags[k]) && rc[k] == rs
                 && forall j | i < j < k :: Better(player, rs, rc[j]);
        assert Better(player, rs, rc[i]);
        assert forall j | i <= j < k :: Better(player, rs, rc[j]);
      }
    }
  }

  // ---------------------------------------------------------------------
  // find_better_move_greedy

  /** A sweep over the opponent's replies: their best score, the score of
      each reply, and the game left. */
  datatype Reckon = ReckonStuck | Reckon(value: real, scores: seq<real>, state: Game)

  /** A greedy search: the move chosen, the smallest opponent's best score,
      the opponent's best score after each move, and the game left. */
  datatype Greedy = GreedyStuck | Greedy(best: Option<Move>, minmax: real, replies: seq<real>, state: Game)

  /** What one opponent reply scores once played: CHECKMATE or STALEMATE by
      the flags, else the material balance seen from the opponent. */
  function ReplyScore(w: Game, multiplier: int): real
  {
    if w.checkmate then CheckmateScore
    else if w.stalemate then StalemateScore
    else -(multiplier * ScoreSimple(w.grid)) as real
  }

  /** What the opponent's reply `o` scores in the inner loop: ReplyScore of
      the game make_move(o) leaves, played from a game whose persistent part
      is `p` and whose flags are both cleared. */
  ghost predicate ReplyScores(p: Persistent, o: Move, multiplier: int, score: real)
  {
    exists u: Game | KeyOf(u) == Key(p, false, false) && WellFormed(u, o) && Applicable(o) ::
      score == ReplyScore(MakeMove(u, o), multiplier)
  }

  /** The material balance seen from the opponent after reply `o`, played
      from a game whose persistent part is `p`. */
  ghost predicate MaterialScores(p: Persistent, o: Move, multiplier: int, score: real)
  {
    exists u: Game | PersistentOf(u) == p && WellFormed(u, o) && Applicable(o) ::
      score == -(multiplier * ScoreSimple(MakeMove(u, o).grid)) as real
  }

  /** Each reply from i on that was scored scored what ReplyScores says. */
  ghost predicate RepliesScored(p: Persistent, replies: seq<Move>, i: nat, multiplier: int, scores: seq<real>)
  {
    forall k {:trigger ReplyScores(p, replies[k], multiplier, scores[k])} | i <= k < |replies| && k < |scores| ::
      ReplyScores(p, replies[k], multiplier, scores[k])
  }

  /** make_move leaves both flags as they were, so in the inner loop, which
      runs with them cleared, no reply scores CHECKMATE or STALEMATE through
      the flags: every reply score is the material balance. */
  lemma RepliesMaterial(p: Persistent, replies: seq<Move>, multiplier: int, scores: seq<real>)
    requires RepliesScored(p, replies, 0, multiplier, scores)
    ensures forall k | 0 <= k < |replies| && k < |scores| :: MaterialScores(p, replies[k], multiplier, scores[k])
  {
    forall k | 0 <= k < |replies| && k < |scores|
      ensures MaterialScores(p, replies[k], multiplier, scores[k])
    {
      assert ReplyScores(p, replies[k], multiplier, scores[k]);
      var u :| KeyOf(u) == Key(p, false, false) && WellFormed(u, replies[k]) && Applicable(replies[k])
               && scores[k] == ReplyScore(MakeMove(u, replies[k]), multiplier);
      assert !MakeMove(u, replies[k]).checkmate && !MakeMove(u, replies[k]).stalemate;
    }
  }

  /** Reply i scored as ReplyScores says, and so did the replies after it. */
  lemma RepliesScoredStep(p: Persistent, replies: seq<Move>, i: nat, multiplier: int, scores: seq<real>)
    requires i < |replies| && i < |scores| && ReplyScores(p, replies[i], multiplier, scores[i])
    requires RepliesScored(p, replies, i + 1, multiplier, scores)
    ensures RepliesScored(p, replies, i, multiplier, scores)
  {
  }

  /**
   * The inner loop of find_better_move_greedy from reply i on: play the
   * reply, score it, keep the largest score, take it back. The scores of
   * replies before i are `scores`; the result is the largest of `best` and
   * the scores from i on, each the score of its reply played.
   */
  function OpponentBest(v: Game, replies: seq<Move>, i: nat, multiplier: int, best: real,
                        scores: seq<real>): (r: Reckon)
    requires Consistent(v) && !v.checkmate && !v.stalemate && i <= |replies| && |scores| == i
    ensures r.Reckon? ==>
      && PersistentOf(r.state) == PersistentOf(v)
      && |r.scores| == |replies| && Ranks(true, r.scores, scores, best, r.value)
      && RepliesScored(PersistentOf(v), replies, i, multiplier, r.scores)
    decreases |replies| - i, 1
  {
    if i == |replies| then Reckon(best, scores, v)
    else
      var o := replies[i];
      if !WellFormed(v, o) then ReckonStuck
      else
        WellFormedApplicable(v, o);
        var w := MakeMove(v, o);
        UndoRestores(v, o, w);
        SamePersistent(UndoMove(w), v);
        OpponentFold(UndoMove(w), replies, i, multiplier, best, scores, ReplyScore(w, multiplier))
  }

  /** The inner loop once reply i was played, scored `score` and taken
      back, leaving the game `u`: the larger of `best` and the score goes
      on to reply i + 1. */
  function OpponentFold(u: Game, replies: seq<Move>, i: nat, multiplier: int, best: real,
                        scores: seq<real>, score: real): (r: Reckon)
    requires Consistent(u) && !u.checkmate && !u.stalemate && i < |replies| && |scores| == i
    requires ReplyScores(PersistentOf(u), replies[i], multiplier, score)
    ensures r.Reckon? ==>
      && PersistentOf(r.state) == PersistentOf(u)
      && |r.scores| == |replies| && Ranks(true, r.scores, scores, best, r.value) && r.scores[i] == score
      && RepliesScored(PersistentOf(u), replies, i, multiplier, r.scores)
    decreases |replies| - i, 0
  {
    var best' := if score > best then score else best;
    var r := OpponentBest(u, replies, i + 1, multiplier, best', scores + [score]);
    if r.Reckon? then
      RanksStep(true, r.scores, scores, score, best, best', r.value);
      RepliesScoredStep(PersistentOf(u), replies, i, multiplier, r.scores);
      r
    else r
  }

  /** The opponent's best score after the player's move, from the flags the
      move generator set: -CHECKMATE if checkmated, STALEMATE if stalemated,
      else the inner loop from -CHECKMATE. */
  function OpponentMax(s: Game, replies: seq<Move>, multiplier: int): (r: Reckon)
    requires Consistent(s)
    ensures r.Reckon? ==> PersistentOf(r.state) == PersistentOf(s)
    ensures r.Reckon? && !s.checkmate && !s.stalemate ==>
      && |r.scores| == |replies| && r.value >= -CheckmateScore
      && (forall k | 0 <= k < |replies| :: r.scores[k] <= r.value)
      && (r.value == -CheckmateScore || exists k | 0 <= k < |replies| :: r.scores[k] == r.value)
      && RepliesScored(PersistentOf(s), replies, 0, multiplier, r.scores)
  {
    if s.checkmate then Reckon(-CheckmateScore, [], s)
    else if s.stalemate then Reckon(StalemateScore, [], s)
    else
      var r := OpponentBest(s, replies, 0, multiplier, -CheckmateScore, []);
      if r.Reckon? then
        RanksFromStart(true, r.scores, -CheckmateScore, r.value);
        r
      else r
  }

  /** What the opponent's best after move `m` comes to in the outer loop:
      make_move(m) and the move generator from a game with key `k`, then
      OpponentMax of the replies generated. */
  ghost predicate GreedyScores(e: Engine, k: Key, m: Move, multiplier: int, value: real)
  {
    exists u: Game | KeyOf(u) == k && e.play(u, m).Some? && Consistent(e.play(u, m).value.state) ::
      var g := e.play(u, m).value;
      OpponentMax(g.state, g.moves, multiplier).Reckon? && OpponentMax(g.state, g.moves, multiplier).value == value
  }

  /** Each move from i on that was searched came to what GreedyScores says:
      move i from a game with key `k`, the moves after it from the game the
      undo_move before them left, with the flags cleared. */
  ghost predicate GreedyTied(e: Engine, k: Key, moves: seq<Move>, i: nat, multiplier: int, values: seq<real>)
  {
    forall j {:trigger GreedyScores(e, KeyAt(k, i, j), moves[j], multiplier, values[j])}
      | i <= j < |moves| && j < |values| ::
      GreedyScores(e, KeyAt(k, i, j), moves[j], multiplier, values[j])
  }

  /** Move i came to what GreedyScores says, and so did the moves after it. */
  lemma GreedyTiedStep(e: Engine, k: Key, moves: seq<Move>, i: nat, multiplier: int, values: seq<real>)
    requires i < |moves| && i < |values| && GreedyScores(e, k, moves[i], multiplier, values[i])
    requires GreedyTied(e, Cleared(k), moves, i + 1, multiplier, values)
    ensures GreedyTied(e, k, moves, i, multiplier, values)
  {
    assert Cleared(Cleared(k)) == Cleared(k);
    forall j | i <= j < |moves| && j < |values|
      ensures GreedyScores(e, KeyAt(k, i, j), moves[j], multiplier, values[j])
    {
      if j > i {
        assert KeyAt(Cleared(k), i + 1, j) == KeyAt(k, i, j);
      }
    }
  }

  /** What the outer greedy loop from move |replies| on promises, having
      started from `minmax` and the move `best`: the opponent's best after
      each move is kept, the result is the smallest of `minmax` and those
      from this move on, and the move chosen is the first to reach it when
      it is below `minmax`. */
  predicate Chosen(r: Greedy, moves: seq<Move>, replies: seq<real>, minmax: real, best: Option<Move>)
  {
    r.Greedy? ==>
      && |r.replies| == |moves|
      && Ranks(false, r.replies, replies, minmax, r.minmax)
      && FirstReach(false, r.replies, |replies|, minmax, r.minmax, moves, best, r.best)
  }

  /**
   * The outer loop of find_better_move_greedy from move i on. The
   * opponent's best after moves before i are `replies`; the result is the
   * smallest of `minmax` and the values from i on, and the move chosen is
   * the first from i on to reach it, if it is below `minmax`.
   */
  function GreedyLoop(e: Engine, v: Game, moves: seq<Move>, i: nat, multiplier: int,
                      minmax: real, best: Option<Move>, replies: seq<real>): (r: Greedy)
    requires Sound(e) && i <= |moves| && |replies| == i
    ensures r.Greedy? ==> PersistentOf(r.state) == PersistentOf(v)
    ensures Chosen(r, moves, replies, minmax, best)
    ensures r.Greedy? ==> GreedyTied(e, KeyOf(v), moves, i, multiplier, r.replies)
    decreases |moves| - i, 1
  {
    if i == |moves| then Greedy(best, minmax, replies, v)
    else
      var m := moves[i];
      match e.play(v, m)
      case None => GreedyStuck
      case Some(g) =>
        match OpponentMax(g.state, g.moves, multiplier)
        case ReckonStuck => GreedyStuck
        case Reckon(value, _, u) =>
          GreedyFold(e, KeyOf(v), e.undo(u), moves, i, multiplier, minmax, best, replies, value)
  }

  /** The outer loop once move i, played from a game with key `k`, gave
      the opponent's best `value` and undo_move left the game `u`: a value
      below `minmax` replaces it and chooses move i, and the loop goes on
      from move i + 1. */
  function GreedyFold(e: Engine, k: Key, u: Game, moves: seq<Move>, i: nat, multiplier: int,
                      minmax: real, best: Option<Move>, replies: seq<real>, value: real): (r: Greedy)
    requires Sound(e) && i < |moves| && |replies| == i
    requires KeyOf(u) == Cleared(k) && GreedyScores(e, k, moves[i], multiplier, value)
    ensures Chosen(r, moves, replies, minmax, best)
    ensures r.Greedy? ==> PersistentOf(r.state) == PersistentOf(u) && r.replies[i] == value
    ensures r.Greedy? ==> GreedyTied(e, k, moves, i, multiplier, r.replies)
    decreases |moves| - i, 0
  {
    var minmax' := if value < minmax then value else minmax;
    var best' := if value < minmax then Some(moves[i]) else best;
    var r := GreedyLoop(e, u, moves, i + 1, multiplier, minmax', best', replies + [value]);
    if r.Greedy? then
      RanksStep(false, r.replies, replies, value, minmax, minmax', r.minmax);
      FirstReachStep(false, r.replies, i, minmax, minmax', r.minmax, moves, best, best', r.best);
      GreedyTiedStep(e, k, moves, i, multiplier, r.replies);
      r
    else r
  }

  /** find_better_move_greedy on the list random.shuffle left (`shuffled`
      is a permutation of `moves`), seen from the side to move: the opponent's
      best after each move is OpponentMax of the replies that move leaves;
      the result is the move whose opponent's best is smallest, the first
      such in the shuffled list, and none when every move lets the opponent
      reach CHECKMATE. */
  function FindBetterMoveGreedy(v: Game, moves: seq<Move>, shuffled: seq<Move>): (r: Greedy)
    requires Consistent(v) && multiset(shuffled) == multiset(moves)
    ensures r.Greedy? ==> PersistentOf(r.state) == PersistentOf(v)
    ensures r.Greedy? ==> GreedyTied(Chess, KeyOf(v), shuffled, 0, if v.whiteToMove then 1 else -1, r.replies)
    ensures Chosen(r, shuffled, [], CheckmateScore, None)
    ensures r.Greedy? ==> (r.best.Some? <==> r.minmax < CheckmateScore)
    ensures r.Greedy? && r.best.Some? ==> r.best.value in moves
  {
    ChessSound();
    var r := GreedyLoop(Chess, v, shuffled, 0, if v.whiteToMove then 1 else -1, CheckmateScore, None, []);
    if r.Greedy? && r.best.Some? then
      assert r.best.value in multiset(shuffled);
      r
    else r
  }

  /** What Chosen says of the outer greedy loop from its start (no move
      scored, CHECKMATE, no move chosen): one opponent's best per move, the
      result at most CHECKMATE and each of them, a move chosen exactly when
      the result is below CHECKMATE, and then the first move whose opponent's
      best is the result. */
  lemma GreedyChoice(r: Greedy, moves: seq<Move>)
    requires r.Greedy? && Chosen(r, moves, [], CheckmateScore, None)
    ensures |r.replies| == |moves| && r.minmax <= CheckmateScore
    ensures forall k | 0 <= k < |moves| :: r.minmax <= r.replies[k]
    ensures r.best.Some? <==> r.minmax < CheckmateScore
    ensures r.best.Some? ==> exists k | 0 <= k < |moves| ::
      && r.best == Some(moves[k]) && r.replies[k] == r.minmax
      && forall j | 0 <= j < k :: r.minmax < r.replies[j]
  {
  }

  // ---------------------------------------------------------------------
  // find_better_move_recursive_minmax and find_move_negamax

  /** A minimax or negamax search: its score, the game it leaves, next_move
      after it, and the score each move of the list received. */
  datatype Outcome = Stuck | Outcome(score: real, state: Game, next: Option<Move>, children: seq<real>)

  /**
   * What a minimax or negamax loop from move |children| on promises,
   * having started from `bound` and next_move `next`: one score per move,
   * the earlier ones kept; the score is the best of `bound` and the scores
   * from this move on; next_move is left alone below depth DEPTH, and at
   * DEPTH it becomes the first move from here on to reach the score when
   * that improves on `bound`.
   */
  predicate Scored(r: Outcome, moves: seq<Move>, depth: nat, player: bool, bound: real,
                   next: Option<Move>, children: seq<real>)
  {
    r.Outcome? ==>
      && |r.children| == |moves|
      && Ranks(player, r.children, children, bound, r.score)
      && (depth < Depth ==> r.next == next)
      && (depth == Depth ==> FirstReach(player, r.children, |children|, bound, r.score, moves, next, r.next))
  }

  /** A loop step that scores `score` at move i: the bound and next_move it
      hands on keep the promise of the loop from move i. */
  lemma ScoredStep(r: Outcome, moves: seq<Move>, i: nat, depth: nat, player: bool, bound: real,
                   next: Option<Move>, children: seq<real>, score: real, bound': real, next': Option<Move>)
    requires i < |moves| && |children| == i
    requires bound' == if Better(player, score, bound) then score else bound
    requires next' == if Better(player, score, bound) && depth == Depth then Some(moves[i]) else next
    requires Scored(r, moves, depth, player, bound', next', children + [score])
    ensures Scored(r, moves, depth, player, bound, next, children)
    ensures r.Outcome? ==> r.children[i] == score
  {
    if r.Outcome? {
      RanksStep(player, r.children, children, score, bound, bound', r.score);
      if depth == Depth {
        FirstReachStep(player, r.children, i, bound, bound', r.score, moves, next, next', r.next);
      }
    }
  }

  /**
   * What move `m` scores in a minimax loop at `depth`: its child search
   * from a game with key `k`.
   */
  ghost predicate MinmaxScores(e: Engine, k: Key, m: Move, depth: nat, player: bool, score: real)
    requires Sound(e) && 0 < depth <= Depth
    decreases depth, 0, 0, 2
  {
    exists u: Game, next: Option<Move> | KeyOf(u) == k ::
      MinmaxChild(e, u, m, depth, player, next).Outcome? && MinmaxChild(e, u, m, depth, player, next).score == score
  }

  /** Each move from i on that was scored got what MinmaxScores says: move
      i from a game with key `k`, the moves after it with the flags
      cleared by the undo_move before them. */
  ghost predicate MinmaxTied(e: Engine, k: Key, moves: seq<Move>, i: nat, depth: nat, player: bool,
                             children: seq<real>)
    requires Sound(e) && 0 < depth <= Depth
    decreases depth, 0, 0, 3
  {
    forall j {:trigger MinmaxScores(e, KeyAt(k, i, j), moves[j], depth, player, children[j])}
      | i <= j < |moves| && j < |children| ::
      MinmaxScores(e, KeyAt(k, i, j), moves[j], depth, player, children[j])
  }

  /** Move i got what MinmaxScores says, and so did the moves after it. */
  lemma MinmaxTiedStep(e: Engine, k: Key, moves: seq<Move>, i: nat, depth: nat, player: bool,
                       children: seq<real>)
    requires Sound(e) && 0 < depth <= Depth && i < |moves| && i < |children|
    requires MinmaxScores(e, k, moves[i], depth, player, children[i])
    requires MinmaxTied(e, Cleared(k), moves, i + 1, depth, player, children)
    ensures MinmaxTied(e, k, moves, i, depth, player, children)
    decreases depth, 0, 0, 4
  {
    assert Cleared(Cleared(k)) == Cleared(k);
    forall j | i <= j < |moves| && j < |children|
      ensures MinmaxScores(e, KeyAt(k, i, j), moves[j], depth, player, children[j])
    {
      if j > i {
        assert KeyAt(Cleared(k), i + 1, j) == KeyAt(k, i, j);
      }
    }
  }

  /**
   * find_better_move_recursive_minmax: at depth 0 the material balance;
   * otherwise the largest child score from -CHECKMATE when `player` holds,
   * the smallest from CHECKMATE when not. next_move becomes a move that
   * strictly improves the bound, in a call at depth DEPTH.
   */
  function Minmax(e: Engine, v: Game, moves: seq<Move>, depth: nat, player: bool,
                  next: Option<Move>): (r: Outcome)
    requires Sound(e) && depth <= Depth
    ensures r.Outcome? ==> PersistentOf(r.state) == PersistentOf(v)
    ensures r.Outcome? && depth > 0 ==>
      var bound := if player then -CheckmateScore else CheckmateScore;
      && |r.children| == |moves|
      && !Better(player, bound, r.score)
      && (forall k | 0 <= k < |moves| :: !Better(player, r.children[k], r.score))
      && (r.score == bound || exists k | 0 <= k < |moves| :: r.children[k] == r.score)
    ensures r.Outcome? && depth > 0 ==> MinmaxTied(e, KeyOf(v), moves, 0, depth, player, r.children)
    ensures r.Outcome? && depth < Depth ==> r.next == next
    ensures r.Outcome? && r.next != next ==> r.next.Some? && r.next.value in moves
    decreases depth, 2, 0, 0
  {
    if depth == 0 then Outcome(ScoreSimple(v.grid) as real, v, next, [])
    else MinmaxLoop(e, v, moves, 0, depth, player, if player then -CheckmateScore else CheckmateScore, next, [])
  }

  /** One move of the minimax loop: make_move, the move generator, the
      child search for the other side, undo_move. */
  function MinmaxChild(e: Engine, v: Game, m: Move, depth: nat, player: bool,
                       next: Option<Move>): (r: Outcome)
    requires Sound(e) && 0 < depth <= Depth
    ensures r.Outcome? ==> KeyOf(r.state) == Cleared(KeyOf(v)) && r.next == next
    ensures r.Outcome? ==>
      && e.play(v, m).Some?
      && var g := e.play(v, m).value;
         Minmax(e, g.state, g.moves, depth - 1, !player, next).Outcome?
         && r.score == Minmax(e, g.state, g.moves, depth - 1, !player, next).score
    decreases depth, 0, 0, 1
  {
    match e.play(v, m)
    case None => Stuck
    case Some(g) =>
      match Minmax(e, g.state, g.moves, depth - 1, !player, next)
      case Stuck => Stuck
      case Outcome(s, u, next', children) =>
        Outcome(s, e.undo(u), next', children)
  }

  /** The loop of find_better_move_recursive_minmax from move i on: each
      child score that is better for the side the bound is kept for
      replaces the bound, recording the move as next_move at depth DEPTH. */
  function MinmaxLoop(e: Engine, v: Game, moves: seq<Move>, i: nat, depth: nat, player: bool,
                      bound: real, next: Option<Move>, children: seq<real>): (r: Outcome)
    requires Sound(e) && 0 < depth <= Depth && i <= |moves| && |children| == i
    ensures r.Outcome? ==> PersistentOf(r.state) == PersistentOf(v)
    ensures Scored(r, moves, depth, player, bound, next, children)
    ensures r.Outcome? ==> MinmaxTied(e, KeyOf(v), moves, i, depth, player, r.children)
    decreases depth, 1, |moves| - i, 1
  {
    if i == |moves| then Outcome(bound, v, next, children)
    else
      match MinmaxChild(e, v, moves[i], depth, player, next)
      case Stuck => Stuck
      case Outcome(score, u, next', _) => MinmaxFold(e, KeyOf(v), u, moves, i, depth, player, bound, next', children, score)
  }

  /** The minimax loop once the child search of move i, from a game with
      key `k`, returned `score` and undo_move left the game `u`: a better
      score replaces the bound (recording move i as next_move at depth
      DEPTH) and the loop goes on from move i + 1. */
  function MinmaxFold(e: Engine, k: Key, u: Game, moves: seq<Move>, i: nat, depth: nat, player: bool,
                      bound: real, next: Option<Move>, children: seq<real>, score: real): (r: Outcome)
    requires Sound(e) && 0 < depth <= Depth && i < |moves| && |children| == i
    requires KeyOf(u) == Cleared(k) && MinmaxScores(e, k, moves[i], depth, player, score)
    ensures Scored(r, moves, depth, player, bound, next, children)
    ensures r.Outcome? ==> PersistentOf(r.state) == PersistentOf(u) && r.children[i] == score
    ensures r.Outcome? ==> MinmaxTied(e, k, moves, i, depth, player, r.children)
    decreases depth, 1, |moves| - i, 0
  {
    var better := Better(player, score, bound);
    var bound' := if better then score else bound;
    var next' := if better && depth == Depth then Some(moves[i]) else next;
    var r := MinmaxLoop(e, u, moves, i + 1, depth, player, bound', next', children + [score]);
    ScoredStep(r, moves, i, depth, player, bound, next, children, score, bound', next');
    if r.Outcome? then
      MinmaxTiedStep(e, k, moves, i, depth, player, r.children);
      r
    else r
  }

  /** find_move_minmax: next_move cleared, then a search from DEPTH with
      `player` the side to move; it returns nothing and leaves its answer
      in next_move, a move of the list or None. */
  function FindMoveMinmax(v: Game, moves: seq<Move>): (r: Outcome)
    requires Consistent(v)
    ensures r.Outcome? ==> PersistentOf(r.state) == PersistentOf(v)
    ensures r.Outcome? && r.next.Some? ==> r.next.value in moves
  {
    ChessSound();
    Minmax(Chess, v, moves, Depth, v.whiteToMove, None)
  }

  /** At depth 0 minimax scores the board with scoreboard_simple, from
      white's side whichever side `player` names, and leaves the game and
      next_move alone. */
  lemma MinmaxLeaf(e: Engine, v: Game, moves: seq<Move>, player: bool, next: Option<Move>)
    requires Sound(e)
    ensures var r := Minmax(e, v, moves, 0, player, next);
      r.Outcome? && r.score == ScoreSimple(v.grid) as real && r.state == v && r.next == next
      && r == Minmax(e, v, moves, 0, !player, next)
  {
  }

  /** Without moves a minimax search above depth 0 returns its starting
      bound: -CHECKMATE for the player, CHECKMATE for the opponent. */
  lemma MinmaxNoMoves(e: Engine, v: Game, depth: nat, player: bool, next: Option<Move>)
    requires Sound(e) && 0 < depth <= Depth
    ensures var r := Minmax(e, v, [], depth, player, next);
      r.Outcome? && r.score == (if player then -CheckmateScore else CheckmateScore) && r.state == v
  {
  }

  /**
   * What move `m` scores in a negamax loop at `depth`: the negation of its
   * child search from a game with key `k`.
   */
  ghost predicate NegaScores(e: Engine, k: Key, m: Move, depth: nat, turn: int, score: real)
    requires Sound(e) && 0 < depth <= Depth && (turn == 1 || turn == -1)
    decreases depth, 0, 0, 2
  {
    exists u: Game, next: Option<Move> | KeyOf(u) == k ::
      NegaChild(e, u, m, depth, turn, next).Outcome? && score == -NegaChild(e, u, m, depth, turn, next).score
  }

  /** Each move from i on that was scored got what NegaScores says: move i
      from a game with key `k`, the moves after it with the flags cleared by
      the undo_move before them. */
  ghost predicate NegaTied(e: Engine, k: Key, moves: seq<Move>, i: nat, depth: nat, turn: int,
                           children: seq<real>)
    requires Sound(e) && 0 < depth <= Depth && (turn == 1 || turn == -1)
    decreases depth, 0, 0, 3
  {
    forall j {:trigger NegaScores(e, KeyAt(k, i, j), moves[j], depth, turn, children[j])}
      | i <= j < |moves| && j < |children| ::
      NegaScores(e, KeyAt(k, i, j), moves[j], depth, turn, children[j])
  }

  /** Move i got what NegaScores says, and so did the moves after it. */
  lemma NegaTiedStep(e: Engine, k: Key, moves: seq<Move>, i: nat, depth: nat, turn: int,
                     children: seq<real>)
    requires Sound(e) && 0 < depth <= Depth && (turn == 1 || turn == -1) && i < |moves| && i < |children|
    requires NegaScores(e, k, moves[i], depth, turn, children[i])
    requires NegaTied(e, Cleared(k), moves, i + 1, depth, turn, children)
    ensures NegaTied(e, k, moves, i, depth, turn, children)
    decreases depth, 0, 0, 4
  {
    assert Cleared(Cleared(k)) == Cleared(k);
    forall j | i <= j < |moves| && j < |children|
      ensures NegaScores(e, KeyAt(k, i, j), moves[j], depth, turn, children[j])
    {
      if j > i {
        assert KeyAt(Cleared(k), i + 1, j) == KeyAt(k, i, j);
      }
    }
  }

  /**
   * find_move_negamax: at depth 0 turn_multi times scoreboard_normal (the
   * multiplier is 1 or -1, so the product is the score or its negation);
   * otherwise the largest negated child score, from -CHECKMATE, the child
   * searched with the opposite multiplier.
   */
  function Negamax(e: Engine, v: Game, moves: seq<Move>, depth: nat, turn: int,
                   next: Option<Move>): (r: Outcome)
    requires Sound(e) && Generable(v) && depth <= Depth && (turn == 1 || turn == -1)
    ensures r.Outcome? ==> PersistentOf(r.state) == PersistentOf(v)
    ensures depth == 0 ==> r.Outcome? && r.score == (if turn == 1 then 1.0 else -1.0) * ScoreNormal(v).score
    ensures r.Outcome? && depth > 0 ==>
      && |r.children| == |moves|
      && r.score >= -CheckmateScore
      && (forall k | 0 <= k < |moves| :: r.children[k] <= r.score)
      && (r.score == -CheckmateScore || exists k | 0 <= k < |moves| :: r.children[k] == r.score)
    ensures r.Outcome? && depth > 0 ==> NegaTied(e, KeyOf(v), moves, 0, depth, turn, r.children)
    ensures r.Outcome? && depth < Depth ==> r.next == next
    ensures r.Outcome? && r.next != next ==> r.next.Some? && r.next.value in moves
    decreases depth, 2, 0, 0
  {
    if depth == 0 then
      ScorePersistent(v);
      var e := ScoreNormal(v);
      Outcome(if turn == 1 then e.score else -e.score, e.state, next, [])
    else NegaLoop(e, v, moves, 0, depth, turn, -CheckmateScore, next, [])
  }

  /** One move of the negamax loop: make_move, the move generator, the
      child search with the opposite multiplier, undo_move. The result
      carries the child's score and the game after the undo. */
  function NegaChild(e: Engine, v: Game, m: Move, depth: nat, turn: int,
                     next: Option<Move>): (r: Outcome)
    requires Sound(e) && 0 < depth <= Depth && (turn == 1 || turn == -1)
    ensures r.Outcome? ==> KeyOf(r.state) == Cleared(KeyOf(v)) && r.next == next
    ensures r.Outcome? ==>
      && e.play(v, m).Some?
      && var g := e.play(v, m).value;
         Negamax(e, g.state, g.moves, depth - 1, -turn, next).Outcome?
         && r.score == Negamax(e, g.state, g.moves, depth - 1, -turn, next).score
    decreases depth, 0, 0, 1
  {
    match e.play(v, m)
    case None => Stuck
    case Some(g) =>
      match Negamax(e, g.state, g.moves, depth - 1, -turn, next)
      case Stuck => Stuck
      case Outcome(s, u, next', children) =>
        Outcome(s, e.undo(u), next', children)
  }

  /** The loop of find_move_negamax from move i on: each negated child
      score above the best score replaces it, recording the move as
      next_move at depth DEPTH. */
  function NegaLoop(e: Engine, v: Game, moves: seq<Move>, i: nat, depth: nat, turn: int,
                    best: real, next: Option<Move>, children: seq<real>): (r: Outcome)
    requires Sound(e) && 0 < depth <= Depth && (turn == 1 || turn == -1)
    requires i <= |moves| && |children| == i
    ensures r.Outcome? ==> PersistentOf(r.state) == PersistentOf(v)
    ensures Scored(r, moves, depth, true, best, next, children)
    ensures r.Outcome? ==> NegaTied(e, KeyOf(v), moves, i, depth, turn, r.children)
    decreases depth, 1, |moves| - i, 1
  {
    if i == |moves| then Outcome(best, v, next, children)
    else
      match NegaChild(e, v, moves[i], depth, turn, next)
      case Stuck => Stuck
      case Outcome(s, u, next', _) => NegaFold(e, KeyOf(v), u, moves, i, depth, turn, best, next', children, -s)
  }

  /** The negamax loop once the child search of move i, from a game with
      key `k`, returned and undo_move left the game `u`, with the negated
      score `score`: the score raises the best score (recording move i as
      next_move at depth DEPTH) and the loop goes on from move i + 1. */
  function NegaFold(e: Engine, k: Key, u: Game, moves: seq<Move>, i: nat, depth: nat, turn: int,
                    best: real, next: Option<Move>, children: seq<real>, score: real): (r: Outcome)
    requires Sound(e) && 0 < depth <= Depth && (turn == 1 || turn == -1)
    requires i < |moves| && |children| == i
    requires KeyOf(u) == Cleared(k) && NegaScores(e, k, moves[i], depth, turn, score)
    ensures Scored(r, moves, depth, true, best, next, children)
    ensures r.Outcome? ==> PersistentOf(r.state) == PersistentOf(u) && r.children[i] == score
    ensures r.Outcome? ==> NegaTied(e, k, moves, i, depth, turn, r.children)
    decreases depth, 1, |moves| - i, 0
  {
    var best' := if score > best then score else best;
    var next' := if score > best && depth == Depth then Some(moves[i]) else next;
    var r := NegaLoop(e, u, moves, i + 1, depth, turn, best', next', children + [score]);
    ScoredStep(r, moves, i, depth, true, best, next, children, score, best', next');
    if r.Outcome? then
      NegaTiedStep(e, k, moves, i, depth, turn, r.children);
      r
    else r
  }

  /** Without moves negamax above depth 0 is exactly -CHECKMATE, and the
      game is left as it was. */
  lemma NegamaxNoMoves(e: Engine, v: Game, depth: nat, turn: int, next: Option<Move>)
    requires Sound(e) && Generable(v) && 0 < depth <= Depth && (turn == 1 || turn == -1)
    ensures var r := Negamax(e, v, [], depth, turn, next);
      r.Outcome? && r.score == -CheckmateScore && r.state == v && r.next == next
  {
  }

  /** find_bestmove_negamax: next_move cleared, the list shuffled, a search
      from DEPTH with multiplier 1 for white and -1 for black; the answer is
      next_move, a move of the list or None. */
  function FindBestmoveNegamax(v: Game, moves: seq<Move>, shuffled: seq<Move>): (r: Outcome)
    requires Consistent(v) && Generable(v) && multiset(shuffled) == multiset(moves)
    ensures r.Outcome? ==> PersistentOf(r.state) == PersistentOf(v)
    ensures r.Outcome? && r.next.Some? ==> r.next.value in moves
  {
    ChessSound();
    match Negamax(Chess, v, shuffled, Depth, if v.whiteToMove then 1 else -1, None)
    case Stuck => Stuck
    case Outcome(score, u, next, children) =>
      assert next.Some? ==> next.value in multiset(shuffled);
      Outcome(score, u, next, children)
  }

  // ---------------------------------------------------------------------
  // Killer moves

  /** `k in moves` with Move.__eq__: some move of the list has k's moveID. */
  predicate Listed(s: seq<Move>, k: Move)
  {
    exists t | 0 <= t < |s| :: Same(s[t], k)
  }

  /** The position of the first move with k's moveID. */
  function SameAt(s: seq<Move>, k: Move): (t: nat)
    requires Listed(s, k)
    ensures t < |s| && Same(s[t], k) && forall j | 0 <= j < t :: !Same(s[j], k)
  {
    if Same(s[0], k) then 0
    else
      var t :| 0 <= t < |s| && Same(s[t], k);
      assert Same(s[1..][t - 1], k);
      1 + SameAt(s[1..], k)
  }

  /** One killer of the reordering loop, as written: when the list holds a
      move equal to the killer, that move is removed and the killer object
      itself, recorded in another position, is inserted at the front. */
  function PromoteAsWritten(s: seq<Move>, killer: Option<Move>): seq<Move>
  {
    if killer.Some? && Listed(s, killer.value) then
      var t := SameAt(s, killer.value);
      [killer.value] + s[..t] + s[t + 1..]
    else s
  }

  /** The reordering loop as written: the killers of the slot in order. */
  function ReorderAsWritten(s: seq<Move>, slot: seq<Option<Move>>): seq<Move>
    decreases |slot|
  {
    if |slot| == 0 then s else ReorderAsWritten(PromoteAsWritten(s, slot[0]), slot[1..])
  }

  /** One killer of the reordering loop, corrected: the list's own move
      equal to the killer goes to the front. */
  function Promote(s: seq<Move>, killer: Option<Move>): (r: seq<Move>)
    ensures multiset(r) == multiset(s)
    ensures killer.Some? && Listed(s, killer.value) ==> Same(r[0], killer.value)
    ensures !(killer.Some? && Listed(s, killer.value)) ==> r == s
  {
    if killer.Some? && Listed(s, killer.value) then
      var t := SameAt(s, killer.value);
      assert s == s[..t] + [s[t]] + s[t + 1..];
      [s[t]] + s[..t] + s[t + 1..]
    else s
  }

  /** The corrected reordering: each killer of the slot, in order, brings
      its equal to the front; the list keeps the same moves. */
  function Reorder(s: seq<Move>, slot: seq<Option<Move>>): (r: seq<Move>)
    ensures multiset(r) == multiset(s)
    decreases |slot|
  {
    if |slot| == 0 then s else Reorder(Promote(s, slot[0]), slot[1..])
  }

  /**
   * A killer recorded in another position has the moveID of a move of the
   * list but may carry other pieces: here a white rook e2xe4 that took a
   * black knight, recorded as a killer, against a quiet rook e2-e4 in the
   * list of a sibling position at the same depth. As written, the
   * reordering puts that killer in place of the list's own move, and the
   * list no longer holds the same moves; the corrected reordering keeps
   * the list's own move.
   */
  lemma StaleKillerReplacesMove()
    ensures var a := Move(6, 4, 4, 4, Occupied(White, Rook), Empty, MoveID(6, 4, 4, 4), false, false, 'Q', false);
      var k := a.(pieceCaptured := Occupied(Black, Knight));
      && Same(a, k) && a != k
      && ReorderAsWritten([a], [Some(k), None]) == [k]
      && multiset(ReorderAsWritten([a], [Some(k), None])) != multiset([a])
      && Reorder([a], [Some(k), None]) == [a]
  {
    var a := Move(6, 4, 4, 4, Occupied(White, Rook), Empty, MoveID(6, 4, 4, 4), false, false, 'Q', false);
    var k := a.(pieceCaptured := Occupied(Black, Knight));
    assert Same([a][0], k);
    assert SameAt([a], k) == 0;
    assert PromoteAsWritten([a], Some(k)) == [k];
    assert [Some(k), None][1..] == [None];
    assert ReorderAsWritten([k], [None]) == ReorderAsWritten([k], []);
    assert Promote([a], Some(k)) == [a];
    assert Reorder([a], [None]) == Reorder([a], []);
    assert multiset([k])[a] == 0;
  }

  /** `move in KILLER_MOVES[depth]`: a recorded killer has the move's moveID
      (an empty slot, None, equals no move). */
  predicate Recorded(slot: seq<Option<Move>>, m: Move)
  {
    exists t | 0 <= t < |slot| :: slot[t].Some? && Same(slot[t].value, m)
  }

  /** The killer bookkeeping at a cutoff: a move not yet recorded is pushed
      on the front of the slot and its last entry dropped. */
  function KillerUpdate(slot: seq<Option<Move>>, m: Move): (r: seq<Option<Move>>)
    requires |slot| > 0
    ensures |r| == |slot| && Recorded(r, m)
    ensures !Recorded(slot, m) ==> r[0] == Some(m) && r[1..] == slot[..|slot| - 1]
    ensures Recorded(slot, m) ==> r == slot
  {
    if Recorded(slot, m) then slot
    else
      var r := [Some(m)] + slot[..|slot| - 1];
      assert r[0].Some? && Same(r[0].value, m);
      r
  }

  /** KILLER_MOVES: a slot of two killers for each depth 0..DEPTH. */
  predicate KillersShaped(k: seq<seq<Option<Move>>>)
  {
    |k| == Depth + 1 && forall d | 0 <= d < |k| :: |k[d]| == 2
  }

  /** The cutoff's update of KILLER_MOVES[depth]; the table keeps its shape. */
  function RecordKiller(ctx: Context, depth: nat, m: Move): (c: Context)
    requires KillersShaped(ctx.killers) && depth <= Depth
    ensures KillersShaped(c.killers) && c.next == ctx.next && c.counter == ctx.counter
    ensures forall d | 0 <= d < |c.killers| && d != depth :: c.killers[d] == ctx.killers[d]
    ensures c.killers[depth] == KillerUpdate(ctx.killers[depth], m)
  {
    ctx.(killers := ctx.killers[depth := KillerUpdate(ctx.killers[depth], m)])
  }

  // ---------------------------------------------------------------------
  // find_bestmove_negamax_aplhabeta_pruned

  /** The globals next_move, counter and KILLER_MOVES. */
  datatype Context = Context(next: Option<Move>, counter: int, killers: seq<seq<Option<Move>>>)

  /** A pruned search: its score, the game and globals it leaves, the
      caller's list as the killer reordering left it, and the negated score
      of each move of that list it searched. */
  datatype Pruned = PrunedStuck | Pruned(score: real, state: Game, ctx: Context, order: seq<Move>, children: seq<real>)

  /** The pruned loop: its best score and final alpha, the game and globals
      it leaves, the position after the last move it searched, whether it
      stopped at a cutoff, and the negated score of each move searched. */
  datatype Sweep = SweepStuck | Sweep(best: real, alpha: real, state: Game, ctx: Context, stop: nat, cut: bool,
                                      children: seq<real>)

  /** What a pruned search at `depth` may do to the globals: the killer
      table keeps its shape, counter does not go down, and the killer slots
      above `depth` stay as they were. */
  predicate Evolved(after: Context, before: Context, depth: nat)
  {
    && KillersShaped(after.killers) && KillersShaped(before.killers)
    && after.counter >= before.counter
    && forall e | depth < e <= Depth :: after.killers[e] == before.killers[e]
  }

  /** Two changes of the globals, the first confined to slots up to `d1`
      and the second to slots up to `d2 >= d1`, are confined to slots up to
      `d2`. */
  lemma EvolvedTrans(a: Context, b: Context, c: Context, d1: nat, d2: nat)
    requires Evolved(b, a, d1) && Evolved(c, b, d2) && d1 <= d2
    ensures Evolved(c, a, d2)
  {
  }

  /**
   * find_bestmove_negamax_aplhabeta_pruned: the killers of this depth
   * reorder the list, counter grows by one, depth 0 returns
   * scoreboard_normal (without a turn multiplier), and otherwise the
   * pruned loop runs from -CHECKMATE: the score is the largest of -CHECKMATE
   * and the negated child scores searched, the search stops at the first
   * move that brings alpha to beta, and each child score is that of its
   * child search. The search writes only the killer slots of its own depth
   * and below, and next_move only at depth DEPTH, where it becomes the
   * first searched move to reach the score, if the score rose above
   * -CHECKMATE.
   */
  function AlphaBeta(e: Engine, v: Game, moves: seq<Move>, alpha: real, beta: real, depth: nat,
                     ctx: Context): (r: Pruned)
    requires Sound(e) && Generable(v) && KillersShaped(ctx.killers) && depth <= Depth
    ensures r.Pruned? ==>
      && PersistentOf(r.state) == PersistentOf(v)
      && multiset(r.order) == multiset(moves)
      && Evolved(r.ctx, ctx, depth) && r.ctx.counter > ctx.counter
    ensures r.Pruned? && depth > 0 ==> r.score >= -CheckmateScore
    ensures r.Pruned? && depth > 0 ==>
      && KeyOf(r.state) == (if |moves| == 0 then KeyOf(v) else Cleared(KeyOf(v)))
      && |r.children| <= |r.order|
      && Ranks(true, r.children, [], -CheckmateScore, r.score)
      && (|r.children| < |r.order| ==> Max(alpha, r.score) >= beta)
      && (forall k | 0 <= k < |r.children| - 1 :: Max(alpha, Max(-CheckmateScore, r.children[k])) < beta)
      && PrunedTied(e, KeyOf(v), ctx.killers, r.order, 0, alpha, beta, depth, -CheckmateScore, r.children)
    ensures depth == 0 ==> r.Pruned? && r.score == ScoreNormal(v).score
    ensures r.Pruned? && depth < Depth ==> r.ctx.next == ctx.next
    ensures r.Pruned? && depth == Depth ==>
      FirstReach(true, r.children, 0, -CheckmateScore, r.score, r.order[..|r.children|], ctx.next, r.ctx.next)
    ensures r.Pruned? && r.ctx.next != ctx.next ==> r.ctx.next.Some? && r.ctx.next.value in moves
    decreases depth, 2, 0, 0
  {
    var order := Reorder(moves, ctx.killers[depth]);
    var ctx1 := ctx.(counter := ctx.counter + 1);
    if depth == 0 then
      ScorePersistent(v);
      var e := ScoreNormal(v);
      Pruned(e.score, e.state, ctx1, order, [])
    else
      match PrunedLoop(e, v, order, 0, alpha, beta, depth, -CheckmateScore, ctx1, [])
      case SweepStuck => PrunedStuck
      case Sweep(best, _, u, ctx2, _, _, cs) =>
        assert |order| == |moves| by {
          assert |multiset(order)| == |multiset(moves)|;
        }
        if ctx2.next != ctx.next then
          assert ctx2.next.value in multiset(order);
          Pruned(best, u, ctx2, order, cs)
        else Pruned(best, u, ctx2, order, cs)
  }

  /** One move of the pruned loop: make_move, the move generator, the child
      search with the window (-beta, -alpha), undo_move. The result carries
      the child's score and the game after the undo. */
  function PrunedChild(e: Engine, v: Game, m: Move, alpha: real, beta: real, depth: nat,
                       ctx: Context): (r: Pruned)
    requires Sound(e) && KillersShaped(ctx.killers) && 0 < depth <= Depth
    ensures r.Pruned? ==>
      && KeyOf(r.state) == Cleared(KeyOf(v))
      && Evolved(r.ctx, ctx, depth - 1) && r.ctx.next == ctx.next
    ensures r.Pruned? ==>
      && e.play(v, m).Some?
      && var g := e.play(v, m).value;
         AlphaBeta(e, g.state, g.moves, -beta, -alpha, depth - 1, ctx).Pruned?
         && r.score == AlphaBeta(e, g.state, g.moves, -beta, -alpha, depth - 1, ctx).score
    decreases depth, 0, 0, 1
  {
    match e.play(v, m)
    case None => PrunedStuck
    case Some(g) =>
      match AlphaBeta(e, g.state, g.moves, -beta, -alpha, depth - 1, ctx)
      case PrunedStuck => PrunedStuck
      case Pruned(s, u, ctx', order, cs) =>
        Pruned(s, e.undo(u), ctx', order, cs)
  }

  /** What move `m` scores in the pruned loop at `depth` with the window
      (alpha, beta): the negation of its child search, with the window
      (-beta, -alpha), from a game with key `k` and the killer table
      `killers`; the search leaves the killer table `after`. */
  ghost predicate PrunedScores(e: Engine, k: Key, killers: seq<seq<Option<Move>>>, m: Move, alpha: real,
                               beta: real, depth: nat, score: real, after: seq<seq<Option<Move>>>)
    requires 0 < depth <= Depth
    decreases depth, 0, 0, 2
  {
    Sound(e) &&
    exists u: Game, ctx: Context | KeyOf(u) == k && ctx.killers == killers && KillersShaped(killers) ::
      && PrunedChild(e, u, m, alpha, beta, depth, ctx).Pruned?
      && score == -PrunedChild(e, u, m, alpha, beta, depth, ctx).score
      && PrunedChild(e, u, m, alpha, beta, depth, ctx).ctx.killers == after
  }

  /** Each move from i on that was searched got what PrunedScores says: move
      i from a game with key `k` and the killer table `killers`, with the
      window (alpha, beta); the moves after it from the game undo_move left,
      with the flags cleared, and the killer table move i's search left,
      with the best score raised by move i's score and alpha raised to that
      best score. */
  ghost predicate PrunedTied(e: Engine, k: Key, killers: seq<seq<Option<Move>>>, moves: seq<Move>, i: nat,
                             alpha: real, beta: real, depth: nat, best: real, children: seq<real>)
    requires 0 < depth <= Depth
    decreases depth, 0, 0, 3, |moves| - i
  {
    i < |moves| && i < |children| ==>
      exists after ::
        && PrunedScores(e, k, killers, moves[i], alpha, beta, depth, children[i], after)
        && PrunedTied(e, Cleared(k), after, moves, i + 1, Max(alpha, Max(best, children[i])), beta, depth,
                      Max(best, children[i]), children)
  }

  /**
   * What the pruned loop from move i on promises, for the best score
   * `best`, alpha `alpha` and globals `ctx` it started from: the globals
   * evolve within this depth; the best score and alpha never decrease,
   * stay as they were while no move was searched, and alpha is the larger
   * of its start and the best score once a move was searched; every move
   * searched but the last left alpha below beta; a loop that cut reached
   * beta with the last move it searched, which is then a killer of this
   * depth; a loop that did not cut ran to the end of the list below beta;
   * one negated score per move searched, the earlier ones kept, the best
   * score the largest of its start and those from move i on; next_move
   * changes only at depth DEPTH, where it becomes the first move searched
   * to reach the best score, if that rose above its start.
   */
  predicate Swept(r: Sweep, moves: seq<Move>, i: nat, alpha: real, beta: real, depth: nat,
                  best: real, ctx: Context, children: seq<real>)
    requires depth <= Depth
  {
    r.Sweep? ==>
      && Evolved(r.ctx, ctx, depth)
      && i <= r.stop <= |moves|
      && |r.children| == r.stop && Ranks(true, r.children, children, best, r.best)
      && r.best >= best && r.alpha >= alpha
      && (r.stop == i ==> r.best == best && r.alpha == alpha)
      && (r.stop > i ==> r.alpha == Max(alpha, r.best))
      && (forall k | i <= k < r.stop - 1 :: Max(alpha, Max(best, r.children[k])) < beta)
      && (r.cut ==> r.stop > i && r.alpha >= beta && Recorded(r.ctx.killers[depth], moves[r.stop - 1]))
      && (!r.cut ==> r.stop == |moves| && (r.stop > i ==> r.alpha < beta))
      && ((depth < Depth || r.best == best) ==> r.ctx.next == ctx.next)
      && (r.ctx.next != ctx.next ==> exists k | i <= k < r.stop :: r.ctx.next == Some(moves[k]))
      && (depth == Depth ==> FirstReach(true, r.children, i, best, r.best, moves[..r.stop], ctx.next, r.ctx.next))
  }

  /** A cutoff at move i: with its score folded in, alpha reached beta, the
      move became a killer of this depth and the loop stopped after it. */
  lemma SweptCut(r: Sweep, moves: seq<Move>, i: nat, alpha: real, beta: real, depth: nat, best: real,
                 before: Context, ctx: Context, score: real, children: seq<real>)
    requires 0 < depth <= Depth && i < |moves| && |children| == i
    requires Evolved(ctx, before, depth - 1) && ctx.next == before.next
    requires Max(alpha, Max(best, score)) >= beta
    requires r.Sweep? && r.best == Max(best, score) && r.alpha == Max(alpha, Max(best, score))
    requires r.stop == i + 1 && r.cut && r.children == children + [score]
    requires r.ctx == RecordKiller(ctx.(next := if score > best && depth == Depth then Some(moves[i]) else ctx.next),
                                   depth, moves[i])
    ensures Swept(r, moves, i, alpha, beta, depth, best, before, children)
  {
    assert r.children[..i] == children;
    assert r.children[i] == score;
    assert moves[..r.stop][i] == moves[i];
  }

  /** No cutoff at move i: the loop from move i + 1 on, started from the
      best score, alpha and next_move with move i's score folded in, keeps
      the promise of the loop from move i. */
  lemma SweptOn(r: Sweep, moves: seq<Move>, i: nat, alpha: real, beta: real, depth: nat, best: real,
                before: Context, ctx: Context, score: real, children: seq<real>)
    requires 0 < depth <= Depth && i < |moves| && |children| == i
    requires Evolved(ctx, before, depth - 1) && ctx.next == before.next
    requires Max(alpha, Max(best, score)) < beta
    requires Swept(r, moves, i + 1, Max(alpha, Max(best, score)), beta, depth, Max(best, score),
                   ctx.(next := if score > best && depth == Depth then Some(moves[i]) else ctx.next),
                   children + [score])
    ensures Swept(r, moves, i, alpha, beta, depth, best, before, children)
    ensures r.Sweep? ==> r.stop > i && r.children[i] == score
  {
    if r.Sweep? {
      RanksStep(true, r.children, children, score, best, Max(best, score), r.best);
      var ctx2 := ctx.(next := if score > best && depth == Depth then Some(moves[i]) else ctx.next);
      EvolvedTrans(before, ctx2, r.ctx, depth - 1, depth);
      if r.ctx.next != before.next && r.ctx.next != ctx2.next {
        var k :| i + 1 <= k < r.stop && r.ctx.next == Some(moves[k]);
      }
      forall k | i <= k < r.stop - 1
        ensures Max(alpha, Max(best, r.children[k])) < beta
      {
        if k > i {
          assert Max(Max(alpha, Max(best, score)), Max(Max(best, score), r.children[k])) < beta;
        }
      }
      if depth == Depth {
        assert moves[..r.stop][i] == moves[i];
        FirstReachStep(true, r.children, i, best, Max(best, score), r.best, moves[..r.stop], before.next,
                       ctx2.next, r.ctx.next);
      }
    }
  }

  /**
   * The loop of the pruned search from move i on: the child's negated score
   * raises the best score (recording next_move at depth DEPTH), alpha rises
   * to the best score, and once alpha >= beta the move is recorded as a
   * killer of this depth and the loop stops.
   */
  function PrunedLoop(e: Engine, v: Game, moves: seq<Move>, i: nat, alpha: real, beta: real,
                      depth: nat, best: real, ctx: Context, children: seq<real>): (r: Sweep)
    requires Sound(e) && KillersShaped(ctx.killers) && 0 < depth <= Depth
    requires i <= |moves| && |children| == i
    ensures r.Sweep? ==> KeyOf(r.state) == if r.stop == i then KeyOf(v) else Cleared(KeyOf(v))
    ensures Swept(r, moves, i, alpha, beta, depth, best, ctx, children)
    ensures r.Sweep? ==> PrunedTied(e, KeyOf(v), ctx.killers, moves, i, alpha, beta, depth, best, r.children)
    decreases depth, 1, |moves| - i, 1
  {
    if i == |moves| then Sweep(best, alpha, v, ctx, i, false, children)
    else
      match PrunedChild(e, v, moves[i], alpha, beta, depth, ctx)
      case PrunedStuck => SweepStuck
      case Pruned(s, u, ctx', _, _) =>
        PrunedFold(e, KeyOf(v), u, moves, i, alpha, beta, depth, best, ctx, ctx', -s, children)
  }

  /** The pruned loop once the child search of move i, from a game with key
      `k`, returned and undo_move left the game `u`, turning the globals
      `before` into `ctx`, with the negated score `score`: the best score,
      next_move and alpha are updated; at alpha >= beta move i becomes a
      killer and the loop stops, else it goes on from i + 1. */
  function PrunedFold(e: Engine, k: Key, u: Game, moves: seq<Move>, i: nat, alpha: real, beta: real,
                      depth: nat, best: real, before: Context, ctx: Context, score: real,
                      children: seq<real>): (r: Sweep)
    requires Sound(e) && 0 < depth <= Depth && i < |moves| && |children| == i
    requires Evolved(ctx, before, depth - 1) && ctx.next == before.next
    requires KeyOf(u) == Cleared(k)
    requires PrunedScores(e, k, before.killers, moves[i], alpha, beta, depth, score, ctx.killers)
    ensures r.Sweep? ==> KeyOf(r.state) == Cleared(k) && r.stop > i
    ensures Swept(r, moves, i, alpha, beta, depth, best, before, children)
    ensures r.Sweep? ==> PrunedTied(e, k, before.killers, moves, i, alpha, beta, depth, best, r.children)
    decreases depth, 1, |moves| - i, 0
  {
    var best' := Max(best, score);
    var ctx2 := ctx.(next := if score > best && depth == Depth then Some(moves[i]) else ctx.next);
    var alpha' := Max(alpha, best');
    if alpha' >= beta then
      var r := Sweep(best', alpha', u, RecordKiller(ctx2, depth, moves[i]), i + 1, true, children + [score]);
      SweptCut(r, moves, i, alpha, beta, depth, best, before, ctx, score, children);
      assert r.children[i] == score;
      assert PrunedTied(e, Cleared(k), ctx.killers, moves, i + 1, alpha', beta, depth, best', r.children);
      r
    else
      var r := PrunedLoop(e, u, moves, i + 1, alpha', beta, depth, best', ctx2, children + [score]);
      SweptOn(r, moves, i, alpha, beta, depth, best, before, ctx, score, children);
      if r.Sweep? then
        assert Cleared(Cleared(k)) == Cleared(k);
        assert PrunedScores(e, k, before.killers, moves[i], alpha, beta, depth, r.children[i], ctx.killers);
        r
      else r
  }

  // ---------------------------------------------------------------------
  // find_move_nega_alphabeta

  /** The iterative deepening: the move put on the decision queue, the last
      depth searched, and the game, list and globals that depth's search
      started from, with its result. */
  datatype Decision = DecisionStuck
    | Decision(move: Option<Move>, reached: nat, from: Game, list: seq<Move>, start: Context, last: Pruned)

  /**
   * The depth loop from depth d on: a full-window pruned search of the root
   * list at each depth; `timeUp[d - 1]` says whether more than 30 seconds
   * had passed once depth d was done, which ends the loop. The answer is
   * next_move as the last search left it; every depth below DEPTH leaves
   * it alone. The last search started from the game, list and globals the
   * one before it left: the root game's persistent part, its flags cleared
   * once a move was searched, and next_move as it was.
   */
  function Deepen(e: Engine, v: Game, order: seq<Move>, d: nat, ctx: Context,
                  timeUp: seq<bool>): (r: Decision)
    requires Sound(e) && Generable(v) && KillersShaped(ctx.killers)
    requires 1 <= d <= Depth && |timeUp| == Depth
    ensures r.Decision? ==>
      && d <= r.reached <= Depth
      && Generable(r.from) && PersistentOf(r.from) == PersistentOf(v)
      && KeyOf(r.from) == (if r.reached == d || |order| == 0 then KeyOf(v) else Cleared(KeyOf(v)))
      && multiset(r.list) == multiset(order)
      && KillersShaped(r.start.killers) && r.start.next == ctx.next
      && (r.reached == d ==> r.from == v && r.list == order && r.start == ctx)
      && r.last == AlphaBeta(e, r.from, r.list, -CheckmateScore, CheckmateScore, r.reached, r.start)
      && r.last.Pruned? && r.move == r.last.ctx.next
    ensures r.Decision? && r.reached < Depth ==> r.move == ctx.next
    decreases Depth - d
  {
    var last := AlphaBeta(e, v, order, -CheckmateScore, CheckmateScore, d, ctx);
    if last.PrunedStuck? then DecisionStuck
    else if d == Depth || timeUp[d - 1] then Decision(last.ctx.next, d, v, order, ctx, last)
    else
      SamePersistent(last.state, v);
      assert |last.order| == |order| by {
        assert |multiset(last.order)| == |multiset(order)|;
      }
      Deepen(e, last.state, last.order, d + 1, last.ctx, timeUp)
  }

  /** find_move_nega_alphabeta: counter reset, the list shuffled (`shuffled`
      is the permutation random.shuffle chose), next_move cleared, then the
      depth loop from 1 with the killer table `ctx.killers` the search is
      handed: the module's initial table when it runs in a fresh process.
      The answer is next_move: None unless depth DEPTH was searched, and
      otherwise the first move of that search's list to reach its score,
      None when no move raised it above -CHECKMATE. */
  function FindMoveNegaAlphabeta(v: Game, moves: seq<Move>, shuffled: seq<Move>, ctx: Context,
                                 timeUp: seq<bool>): (r: Decision)
    requires Consistent(v) && Generable(v) && KillersShaped(ctx.killers)
    requires multiset(shuffled) == multiset(moves) && |timeUp| == Depth
    ensures r.Decision? ==>
      && 1 <= r.reached <= Depth && r.last.Pruned? && r.move == r.last.ctx.next
      && PersistentOf(r.last.state) == PersistentOf(v) && multiset(r.last.order) == multiset(moves)
      && KeyOf(r.from) == (if r.reached == 1 || |moves| == 0 then KeyOf(v) else Cleared(KeyOf(v)))
    ensures r.Decision? && r.reached < Depth ==> r.move == None
    ensures r.Decision? && r.move.Some? ==> r.move.value in moves
    ensures r.Decision? ==>
      && |r.last.children| <= |r.last.order|
      && Ranks(true, r.last.children, [], -CheckmateScore, r.last.score)
      && PrunedTied(Chess, KeyOf(r.from), r.start.killers, r.last.order, 0, -CheckmateScore, CheckmateScore,
                    r.reached, -CheckmateScore, r.last.children)
    ensures r.Decision? && r.reached == Depth ==>
      FirstReach(true, r.last.children, 0, -CheckmateScore, r.last.score, r.last.order[..|r.last.children|],
                 None, r.move)
  {
    ChessSound();
    assert |shuffled| == |moves| by {
      assert |multiset(shuffled)| == |multiset(moves)|;
    }
    var r := Deepen(Chess, v, shuffled, 1, ctx.(counter := 0, next := None), timeUp);
    if r.Decision? then
      SearchedFrom(Chess, r.from, r.list, r.start, r.reached, r.last);
      if r.move.Some? then
        assert r.move.value in multiset(r.list);
        r
      else r
    else r
  }

  /** What AlphaBeta promises of a full-window search, named for the
      search the depth loop ended on. */
  lemma SearchedFrom(e: Engine, v: Game, order: seq<Move>, ctx: Context, depth: nat, p: Pruned)
    requires Sound(e) && Generable(v) && KillersShaped(ctx.killers) && 0 < depth <= Depth
    requires p == AlphaBeta(e, v, order, -CheckmateScore, CheckmateScore, depth, ctx) && p.Pruned?
    ensures PersistentOf(p.state) == PersistentOf(v) && multiset(p.order) == multiset(order)
    ensures |p.children| <= |p.order| && Ranks(true, p.children, [], -CheckmateScore, p.score)
    ensures PrunedTied(e, KeyOf(v), ctx.killers, p.order, 0, -CheckmateScore, CheckmateScore, depth,
                       -CheckmateScore, p.children)
    ensures depth < Depth ==> p.ctx.next == ctx.next
    ensures depth == Depth ==>
      FirstReach(true, p.children, 0, -CheckmateScore, p.score, p.order[..|p.children|], ctx.next, p.ctx.next)
    ensures p.ctx.next != ctx.next ==> p.ctx.next.Some? && p.ctx.next.value in order
  {
  }
}
